=== FILE: README.md ===
# A model of the native-image flight recorder core

This project models, in Dafny, the core of the flight recorder (JFR) of a
native image:

- the chunk writer, which lays out a recording chunk on disk: the file header
  and its later patching, events framed by a size field, compressed integers,
  strings, and the checkpoint and metadata events written when a chunk is
  closed;
- the trace-id scheme, which keeps a 64-bit word per class holding its type id
  and tag bits;
- the load barrier, which tags each class used in an epoch and counts those
  classes;
- the global list of thread-local buffers;
- the flight-recorder logging configuration: the
  `-XX:FlightRecorderLogging` option parser, the table of log tag sets and
  the level each tag set logs at;
- the validation of `CONSTANT_MethodHandle` constant-pool entries, after
  section 4.4.8 of the Java Virtual Machine Specification.

Everything is modelled with immutable values and pure functions:

- The writer's file is a byte sequence, a position and an "open" flag.
- The trace-id map is a map from class index to a 64-bit word.
- The buffer list is a sequence, head first.
- The global logging configuration is a value passed in and returned.
- A Java exception or `System.exit` becomes the failure side of a
  `Result`.
- The current time, the tick counter, the tick frequency, whether the
  operating system opens a file, and the size-padding routine
  `makePaddedInt` are all parameters.

Modules:

| module | file | what it models |
|---|---|---|
| `Wrappers` | wrappers.dfy | `Option` and `Result` |
| `Bytes` | bytes.dfy | big-endian fixed-width fields |
| `RawFile` | rawfile.dfy | the raw file operations the writer calls |
| `Varint` | varint.dfy | `writeCompressedLong` / `writeCompressedInt` / `writeBoolean` and a reader for them |
| `Text` | text.dfy | the Java string operations the parsers use |
| `ChunkWriter` | chunkwriter.dfy | `JfrChunkWriter` |
| `ChunkLayout` | chunklayout.dfy | what the writer's operations leave in the file |
| `TraceId` | traceid.dfy | `JfrTraceId` |
| `LoadBarrier` | loadbarrier.dfy | `JfrTraceIdLoadBarrier` |
| `ThreadLocalMemory` | threadlocalmemory.dfy | `JfrThreadLocalMemory` |
| `MethodHandle` | methodhandle.dfy | `MethodHandleConstant`'s reference kinds and `Index.validate` |
| `LogTagSet` | logtagset.dfy | `JfrLogTagSet` |
| `LogConfiguration` | logconfiguration.dfy | `JfrLogConfiguration` |

Three behaviours of the code that are easy to misread:

- The compressed-long encoder emits up to nine bytes. The ninth byte carries
  the top eight bits as they are, with no continuation bit.
- `openFile` stores the file name before it opens the file. After a failed
  open, `hasOpenFile` still answers true.
- `JfrLogTagSet` declares its level field as `JfrLogLevel`, but
  `JfrLogConfiguration` stores and reads an `Optional<LogLevel>` there. The
  model follows the configuration's use: a tag set's level is an optional
  level, and a tag set never given a level has none.

## Model

| member | source | states |
|---|---|---|
| `Bytes.LongRoundTrip` | substratevm/src/com.oracle.svm.jfr/src/com/oracle/svm/jfr/JfrChunkWriter.java:166-172 | a long written as eight bytes reads back as the same long |
| `Bytes.IntRoundTrip` | substratevm/src/com.oracle.svm.jfr/src/com/oracle/svm/jfr/JfrChunkWriter.java:173 | an int written as four bytes reads back as the same int |
| `Bytes.ShortRoundTrip` | substratevm/src/com.oracle.svm.jfr/src/com/oracle/svm/jfr/JfrChunkWriter.java:163-164 | a short written as two bytes reads back as the same short |
| `Bytes.LongsField` | substratevm/src/com.oracle.svm.jfr/src/com/oracle/svm/jfr/JfrChunkWriter.java:166-172 | in a run of longs written one after another, the k-th eight bytes are the k-th long |
| `RawFile.Write` | substratevm/src/com.oracle.svm.jfr/src/com/oracle/svm/jfr/JfrChunkWriter.java:138 | a write succeeds exactly on an open descriptor; it overwrites the bytes at the position, extends the file past the end if needed, and advances the position by the length written |
| `RawFile.Seek` | substratevm/src/com.oracle.svm.jfr/src/com/oracle/svm/jfr/JfrChunkWriter.java:179 | a seek succeeds exactly on an open descriptor; it moves the position and leaves the bytes alone |
| `RawFile.Position` | substratevm/src/com.oracle.svm.jfr/src/com/oracle/svm/jfr/JfrChunkWriter.java:177 | on an open descriptor the position is the write offset; on a closed one it is an error |
| `RawFile.Size` | substratevm/src/com.oracle.svm.jfr/src/com/oracle/svm/jfr/JfrChunkWriter.java:248-251 | the size is the file length when open, and -1 when not |
| `RawFile.Close` | substratevm/src/com.oracle.svm.jfr/src/com/oracle/svm/jfr/JfrChunkWriter.java:343-349 | closing succeeds exactly on an open descriptor and keeps the file's bytes |
| `RawFile.OverwriteContents` | substratevm/src/com.oracle.svm.jfr/src/com/oracle/svm/jfr/JfrChunkWriter.java:264-266 | an overwrite keeps the bytes before it, puts the data in place, and keeps the bytes after it |
| `RawFile.AppendAtEnd` | substratevm/src/com.oracle.svm.jfr/src/com/oracle/svm/jfr/JfrChunkWriter.java:138 | a write at the end of the file appends the data |
| `RawFile.GrownTwice` | substratevm/src/com.oracle.svm.jfr/src/com/oracle/svm/jfr/JfrChunkWriter.java:279-282 | appending a and then b is appending a + b |
| `RawFile.OverwriteTwice` | substratevm/src/com.oracle.svm.jfr/src/com/oracle/svm/jfr/JfrChunkWriter.java:179-184 | two adjacent overwrites inside the file are one overwrite of the concatenation |
| `RawFile.WriteLongsAtEnd` | substratevm/src/com.oracle.svm.jfr/src/com/oracle/svm/jfr/JfrChunkWriter.java:166-172 | longs written at the end of the file append their eight-byte forms |
| `RawFile.WriteLongsInside` | substratevm/src/com.oracle.svm.jfr/src/com/oracle/svm/jfr/JfrChunkWriter.java:179-184 | longs written inside the file replace that many bytes in place and keep the length |
| `Varint.EncodeProperties` | substratevm/src/com.oracle.svm.jfr/src/com/oracle/svm/jfr/JfrChunkWriter.java:289-341 | a compressed long takes 1 to 9 bytes; every byte but the last has the continuation bit; a last byte before the ninth has it clear; the ninth byte is the top eight bits; and the reader gets the value and the byte count back from any stream that starts with the encoding |
| `Varint.DecodeEncodeFrom` | substratevm/src/com.oracle.svm.jfr/src/com/oracle/svm/jfr/JfrChunkWriter.java:289-341 | from any group on, decoding what the encoder emits gives back the value and the number of bytes read |
| `Varint.SmallValue` | substratevm/src/com.oracle.svm.jfr/src/com/oracle/svm/jfr/JfrChunkWriter.java:292-295 | a value of seven bits or fewer is one byte, the value itself, and only such values are |
| `Varint.NinthByte` | substratevm/src/com.oracle.svm.jfr/src/com/oracle/svm/jfr/JfrChunkWriter.java:339-340 | a nine-byte encoding ends with the value's top eight bits, unchanged |
| `Varint.UnsignedInt` | substratevm/src/com.oracle.svm.jfr/src/com/oracle/svm/jfr/JfrChunkWriter.java:284-287 | an int is compressed as its unsigned 32-bit value: no bits above 31, and the sign bit becomes bit 31 |
| `Varint.UnsignedIntLow` | substratevm/src/com.oracle.svm.jfr/src/com/oracle/svm/jfr/JfrChunkWriter.java:284-287 | the low 32 bits of the compressed value are the int's own bits |
| `Varint.NegativeIntIsFiveBytes` | substratevm/src/com.oracle.svm.jfr/src/com/oracle/svm/jfr/JfrChunkWriter.java:284-287 | a negative int is compressed into five bytes, which decode to its unsigned value |
| `Varint.EncodeBoolean` | substratevm/src/com.oracle.svm.jfr/src/com/oracle/svm/jfr/JfrChunkWriter.java:269-272 | true is the single byte 1 and false the single byte 0 |
| `Text.ToUpper` | substratevm/src/com.oracle.svm.jfr/src/com/oracle/svm/jfr/logging/JfrLogConfiguration.java:58 | upper-casing keeps the length, moves each lower-case ASCII letter to its capital, keeps every other character, and leaves no lower-case letter |
| `Text.ToUpperIdempotent` | substratevm/src/com.oracle.svm.jfr/src/com/oracle/svm/jfr/logging/JfrLogConfiguration.java:58 | upper-casing an upper-cased string changes nothing |
| `Text.IndexOf` | substratevm/src/com.oracle.svm.jfr/src/com/oracle/svm/jfr/logging/JfrLogConfiguration.java:111 | -1 exactly when the character is absent; otherwise the position of its first occurrence |
| `Text.SplitAllJoin` | substratevm/src/com.oracle.svm.jfr/src/com/oracle/svm/jfr/logging/JfrLogConfiguration.java:65 | joining the pieces of a split with the separator gives back the string |
| `Text.SplitAllPieces` | substratevm/src/com.oracle.svm.jfr/src/com/oracle/svm/jfr/logging/JfrLogConfiguration.java:133 | no piece of a split contains the separator |
| `Text.JavaSplit` | substratevm/src/com.oracle.svm.jfr/src/com/oracle/svm/jfr/logging/JfrLogConfiguration.java:65 | `String.split` on one character: no contract of its own; `Text.DropTrailingEmpty`, `Text.SplitAllJoin` and `Text.SplitAllPieces` state the pieces it returns |
| `Text.DropTrailingEmpty` | substratevm/src/com.oracle.svm.jfr/src/com/oracle/svm/jfr/logging/JfrLogConfiguration.java:65 | the result is a prefix of the pieces, does not end in an empty piece, and leaves out only empty pieces |
| `Text.Utf8Char` | substratevm/src/com.oracle.svm.jfr/src/com/oracle/svm/jfr/JfrChunkWriter.java:370 | a character's UTF-8 form has 1 to 4 bytes, and it is the single byte of the character exactly for ASCII |
| `Text.Utf8` | substratevm/src/com.oracle.svm.jfr/src/com/oracle/svm/jfr/JfrChunkWriter.java:370 | a string's UTF-8 form is at least as long as the string and at most four times as long, and empty only for the empty string |
| `ChunkWriter.NewWriter` | substratevm/src/com.oracle.svm.jfr/src/com/oracle/svm/jfr/JfrChunkWriter.java:76-79 | a new writer uses compressed integers and has no file |
| `ChunkWriter.SetFilename` | substratevm/src/com.oracle.svm.jfr/src/com/oracle/svm/jfr/JfrChunkWriter.java:99-106 | the writer takes the given name, so it has an open file exactly when the name is not null; the descriptor, the start times, the threshold and the integer mode are untouched |
| `ChunkWriter.MaybeOpenFile` | substratevm/src/com.oracle.svm.jfr/src/com/oracle/svm/jfr/JfrChunkWriter.java:108-113 | without a file name nothing happens; with one, the writer still has that name, whether or not the file could be opened |
| `ChunkLayout.MaybeOpenFileReopens` | substratevm/src/com.oracle.svm.jfr/src/com/oracle/svm/jfr/JfrChunkWriter.java:108-129 | with a name set and a file the system accepts, the file is opened afresh under that name at its end, holds just a fresh header, and the chunk start times are the current ones |
| `ChunkWriter.Write` | substratevm/src/com.oracle.svm.jfr/src/com/oracle/svm/jfr/JfrChunkWriter.java:131-143 | an empty buffer or a closed file writes nothing and answers false; a true answer means the position passed the threshold; the name and the threshold never change |
| `ChunkWriter.Initialize` | substratevm/src/com.oracle.svm.jfr/src/com/oracle/svm/jfr/JfrChunkWriter.java:82-85 | the threshold becomes the maximum chunk size and nothing else changes, so the writer then asks for a rotation exactly when its named file is longer than that size |
| `ChunkWriter.ShouldRotateDisk` | substratevm/src/com.oracle.svm.jfr/src/com/oracle/svm/jfr/JfrChunkWriter.java:248-251 | the chunk should rotate exactly when the writer has a file name and its open file is longer than the threshold; a descriptor that is not open reports size -1 |
| `ChunkWriter.WithItems` | substratevm/src/com.oracle.svm.jfr/src/com/oracle/svm/jfr/JfrChunkWriter.java:200-235 | every pool kept has items and every pool with items is kept; their number is the count written, and their payloads, in order, are the bytes the two writing loops write |
| `ChunkWriter.Close` | substratevm/src/com.oracle.svm.jfr/src/com/oracle/svm/jfr/JfrChunkWriter.java:343-349 | the name is cleared even when the close fails, the descriptor ends closed with its bytes kept, and the result reports whether the close succeeded |
| `ChunkWriter.Operate` | substratevm/src/com.oracle.svm.jfr/src/com/oracle/svm/jfr/JfrChunkWriter.java:393-405 | after the close operation the writer has no open file, whatever failed |
| `ChunkLayout.AppendPools` | substratevm/src/com.oracle.svm.jfr/src/com/oracle/svm/jfr/JfrChunkWriter.java:221-235 | writing the pools at the end of the file appends the payloads of the pools with items, in order |
| `ChunkWriter.BeginEvent` | substratevm/src/com.oracle.svm.jfr/src/com/oracle/svm/jfr/JfrChunkWriter.java:253-258 | `beginEvent`: no contract of its own; `ChunkLayout.BeginEventAppends` states the placeholder and the start it returns |
| `ChunkLayout.BeginEventAppends` | substratevm/src/com.oracle.svm.jfr/src/com/oracle/svm/jfr/JfrChunkWriter.java:253-258 | beginning an event appends a four-byte zero placeholder and returns where it starts |
| `ChunkWriter.EndEvent` | substratevm/src/com.oracle.svm.jfr/src/com/oracle/svm/jfr/JfrChunkWriter.java:261-267 | `endEvent`: no contract of its own; `ChunkLayout.EndEventPatches` states the size patch and the position afterwards |
| `ChunkLayout.EndEventPatches` | substratevm/src/com.oracle.svm.jfr/src/com/oracle/svm/jfr/JfrChunkWriter.java:261-267 | ending an event writes the padded event size over the placeholder and goes back to the end |
| `ChunkLayout.EndFrame` | substratevm/src/com.oracle.svm.jfr/src/com/oracle/svm/jfr/JfrChunkWriter.java:253-267 | an event begun at the end of the file and ended after its body is stored as its padded size followed by the body |
| `ChunkLayout.AppendCompressedLongs` | substratevm/src/com.oracle.svm.jfr/src/com/oracle/svm/jfr/JfrChunkWriter.java:289-341 | compressed longs written at the end of the file append their encodings in order |
| `ChunkLayout.AppendEventFields` | substratevm/src/com.oracle.svm.jfr/src/com/oracle/svm/jfr/JfrChunkWriter.java:195-198 | the event header fields are the id, the ticks, and two zeros, each compressed |
| `ChunkLayout.CheckpointContents` | substratevm/src/com.oracle.svm.jfr/src/com/oracle/svm/jfr/JfrChunkWriter.java:195-215 | the checkpoint body is the event fields, the flush flag, the number of pools with items, then the serializer payloads and the repository payloads |
| `ChunkWriter.WriteCheckpointEvent` | substratevm/src/com.oracle.svm.jfr/src/com/oracle/svm/jfr/JfrChunkWriter.java:187-219 | `writeCheckpointEvent`: no contract of its own; `ChunkLayout.CheckpointLayout` and `ChunkLayout.CheckpointContents` state the frame it appends |
| `ChunkLayout.CheckpointLayout` | substratevm/src/com.oracle.svm.jfr/src/com/oracle/svm/jfr/JfrChunkWriter.java:187-219 | the checkpoint event is appended as one frame of the checkpoint body, and its start is the old file length |
| `ChunkWriter.WriteMetadataEvent` | substratevm/src/com.oracle.svm.jfr/src/com/oracle/svm/jfr/JfrChunkWriter.java:237-246 | `writeMetadataEvent`: no contract of its own; `ChunkLayout.MetadataLayout` states the frame it appends |
| `ChunkLayout.MetadataLayout` | substratevm/src/com.oracle.svm.jfr/src/com/oracle/svm/jfr/JfrChunkWriter.java:237-246 | the metadata event is appended as one frame of id, ticks, two zeros and the descriptor, and its start is the old file length |
| `ChunkWriter.WriteFileHeader` | substratevm/src/com.oracle.svm.jfr/src/com/oracle/svm/jfr/JfrChunkWriter.java:160-174 | `writeFileHeader`: no contract of its own; `ChunkLayout.HeaderAppends` states the bytes it appends and `ChunkLayout.HeaderBytesRead` what a reader sees in them |
| `ChunkLayout.HeaderAppends` | substratevm/src/com.oracle.svm.jfr/src/com/oracle/svm/jfr/JfrChunkWriter.java:160-174 | writing the header at the end of the file appends the magic, the two versions, seven longs and the flag |
| `ChunkLayout.HeaderBytesRead` | substratevm/src/com.oracle.svm.jfr/src/com/oracle/svm/jfr/JfrChunkWriter.java:160-174 | a reader of the header finds the magic, version 2.0, five zero fields, the start ticks, the tick frequency and the compressed-integers flag |
| `ChunkWriter.OpenFile` | substratevm/src/com.oracle.svm.jfr/src/com/oracle/svm/jfr/JfrChunkWriter.java:115-129 | `openFile`: no contract of its own; `ChunkLayout.OpenFileWritesHeader` states the accepted case and `ChunkLayout.OpenFileFailureKeepsName` the refused one |
| `ChunkLayout.OpenFileWritesHeader` | substratevm/src/com.oracle.svm.jfr/src/com/oracle/svm/jfr/JfrChunkWriter.java:115-129 | a successful open records the name and the start times, and the new file is exactly a fresh header |
| `ChunkLayout.OpenFileFailureKeepsName` | substratevm/src/com.oracle.svm.jfr/src/com/oracle/svm/jfr/JfrChunkWriter.java:115-129 | when the system refuses the file, the open reports false (the `catch` path) but leaves the name set, so the writer still claims an open file |
| `ChunkLayout.PatchedRead` | substratevm/src/com.oracle.svm.jfr/src/com/oracle/svm/jfr/JfrChunkWriter.java:176-185 | after patching, the five header fields read back as the values written, and every other byte is unchanged |
| `ChunkWriter.PatchFileHeader` | substratevm/src/com.oracle.svm.jfr/src/com/oracle/svm/jfr/JfrChunkWriter.java:176-185 | `patchFileHeader`: no contract of its own; `ChunkLayout.PatchFileHeaderLayout` and `ChunkLayout.PatchWrites` state the five fields it overwrites |
| `ChunkLayout.PatchFileHeaderLayout` | substratevm/src/com.oracle.svm.jfr/src/com/oracle/svm/jfr/JfrChunkWriter.java:176-185 | patching writes the file length, the two event positions, the start nanos and the duration over header offsets 8 to 47 |
| `ChunkLayout.PatchWrites` | substratevm/src/com.oracle.svm.jfr/src/com/oracle/svm/jfr/JfrChunkWriter.java:176-185 | the patch is one in-place write of five longs at offset 8 |
| `ChunkLayout.WriteBufferAppends` | substratevm/src/com.oracle.svm.jfr/src/com/oracle/svm/jfr/JfrChunkWriter.java:131-143 | a buffer written at the end of the file appends its unflushed bytes; the answer is true exactly when the chunk then should rotate |
| `ChunkWriter.WriteString` | substratevm/src/com.oracle.svm.jfr/src/com/oracle/svm/jfr/JfrChunkWriter.java:364-374 | `writeString`: no contract of its own; `ChunkLayout.WriteStringAppends` states the bytes it appends and `ChunkLayout.StringRoundTrip` reads them back |
| `ChunkLayout.WriteStringAppends` | substratevm/src/com.oracle.svm.jfr/src/com/oracle/svm/jfr/JfrChunkWriter.java:364-374 | a string is appended in its chunk encoding |
| `ChunkLayout.StringRoundTrip` | substratevm/src/com.oracle.svm.jfr/src/com/oracle/svm/jfr/JfrChunkWriter.java:364-374 | a reader of the chunk's string encoding gets back the string's UTF-8 bytes and the byte count |
| `ChunkLayout.EmptyStringDecodes` | substratevm/src/com.oracle.svm.jfr/src/com/oracle/svm/jfr/JfrChunkWriter.java:366-367 | the empty-string tag reads as no bytes, one byte long |
| `ChunkLayout.Utf8StringDecodes` | substratevm/src/com.oracle.svm.jfr/src/com/oracle/svm/jfr/JfrChunkWriter.java:368-373 | the UTF-8 tag, compressed length and bytes read back as those bytes |
| `ChunkWriter.CloseSequence` | substratevm/src/com.oracle.svm.jfr/src/com/oracle/svm/jfr/JfrChunkWriter.java:393-399 | the `try` body of `operate`: no contract of its own; `ChunkLayout.CloseSequenceSteps` and `ChunkLayout.CloseSequenceLayout` state its steps and the finished chunk |
| `ChunkLayout.CloseSequenceLayout` | substratevm/src/com.oracle.svm.jfr/src/com/oracle/svm/jfr/JfrChunkWriter.java:393-399 | closing an open chunk appends the checkpoint event, then the metadata event, patches the header with the final length and the two event offsets, and closes the file |
| `ChunkLayout.CloseSequenceSteps` | substratevm/src/com.oracle.svm.jfr/src/com/oracle/svm/jfr/JfrChunkWriter.java:396-399 | the close sequence is the four steps in order, each succeeding |
| `ChunkLayout.OperateLayout` | substratevm/src/com.oracle.svm.jfr/src/com/oracle/svm/jfr/JfrChunkWriter.java:393-405 | the close operation on an open chunk leaves the finished chunk, a closed descriptor and no name |
| `ChunkLayout.ClosedChunk` | substratevm/src/com.oracle.svm.jfr/src/com/oracle/svm/jfr/JfrChunkWriter.java:176-185 | in the finished chunk the size field is the file length and the offset fields point at the two events, with all other bytes as written |
| `ChunkLayout.OperateOnClosedFile` | substratevm/src/com.oracle.svm.jfr/src/com/oracle/svm/jfr/JfrChunkWriter.java:393-405 | on a descriptor that is not open the close operation fails at its first write and only clears the name |
| `TraceId.Tag` | substratevm/src/com.oracle.svm.jfr/src/com/oracle/svm/jfr/traceid/JfrTraceId.java:66-71 | tagging changes only that class's word: the bits above the low byte stay, and the low byte becomes the old one or-ed with the low byte of the bits |
| `TraceId.ClearUsedThisEpoch` | substratevm/src/com.oracle.svm.jfr/src/com/oracle/svm/jfr/traceid/JfrTraceId.java:85-91 | clearing changes only that class's word: the epoch's bit becomes clear and every other bit stays |
| `TraceId.GetTraceId` | substratevm/src/com.oracle.svm.jfr/src/com/oracle/svm/jfr/traceid/JfrTraceId.java:103-107 | the trace id fits in 48 bits |
| `TraceId.TagKeepsUpperBits` | substratevm/src/com.oracle.svm.jfr/src/com/oracle/svm/jfr/traceid/JfrTraceId.java:66-71 | tagging keeps every bit above the low byte: the meta bits, the transient and serialized bits and the trace id |
| `TraceId.TagSetsBits` | substratevm/src/com.oracle.svm.jfr/src/com/oracle/svm/jfr/traceid/JfrTraceId.java:66-71 | after tagging, the word has every bit of the tag's low byte and still every bit it had |
| `TraceId.TagIdempotent` | substratevm/src/com.oracle.svm.jfr/src/com/oracle/svm/jfr/traceid/JfrTraceId.java:66-71 | tagging twice with the same bits is tagging once |
| `TraceId.PredicateUnion` | substratevm/src/com.oracle.svm.jfr/src/com/oracle/svm/jfr/traceid/JfrTraceId.java:73-78 | the predicate for a union of bits holds exactly when it holds for one of them |
| `TraceId.PredicateSingleBit` | substratevm/src/com.oracle.svm.jfr/src/com/oracle/svm/jfr/traceid/JfrTraceId.java:73-78 | for a single bit, the predicate is that the bit is set |
| `TraceId.ClearKeepsTraceId` | substratevm/src/com.oracle.svm.jfr/src/com/oracle/svm/jfr/traceid/JfrTraceId.java:85-91 | clearing an epoch bit keeps the trace id and the transient bit |
| `TraceId.UsedThisEpochBits` | substratevm/src/com.oracle.svm.jfr/src/com/oracle/svm/jfr/traceid/JfrTraceId.java:93-96 | a class is used this epoch exactly when it has the transient bit or this epoch's bit |
| `TraceId.SetMakesUsed` | substratevm/src/com.oracle.svm.jfr/src/com/oracle/svm/jfr/traceid/JfrTraceId.java:80-83 | after setting, the class is used this epoch and its trace id is unchanged |
| `TraceId.EventClassBits` | substratevm/src/com.oracle.svm.jfr/src/com/oracle/svm/jfr/traceid/JfrTraceId.java:128-132 | a class is an event class exactly when it has the event-class or the event-subclass bit |
| `TraceId.Assign` | substratevm/src/com.oracle.svm.jfr/src/com/oracle/svm/jfr/traceid/JfrTraceId.java:134-151 | `assign` with the event-class condition grouped as intended: no contract of its own; `TraceId.AssignTraceId` and `TraceId.AssignEventClass` state the stored id and tag bits |
| `TraceId.AssignTraceId` | substratevm/src/com.oracle.svm.jfr/src/com/oracle/svm/jfr/traceid/JfrTraceId.java:134-151 | assigning an empty slot stores the type id as the trace id, 0 for void, with no tag bits set |
| `TraceId.AssignAsWritten` | substratevm/src/com.oracle.svm.jfr/src/com/oracle/svm/jfr/traceid/JfrTraceId.java:134-151 | `assign` with Java's grouping: no contract of its own; `TraceId.AssignAsWrittenTraceId` and `TraceId.AssignAsWrittenMarksSystemClasses` state the stored id and tag bits |
| `TraceId.AssignAsWrittenTraceId` | substratevm/src/com.oracle.svm.jfr/src/com/oracle/svm/jfr/traceid/JfrTraceId.java:134-151 | the assignment as written stores the same trace id |
| `TraceId.AssignEventClass` | substratevm/src/com.oracle.svm.jfr/src/com/oracle/svm/jfr/traceid/JfrTraceId.java:143-150 | the corrected assignment marks a class as an event class exactly when it is an event class loaded by the boot or the system loader |
| `TraceId.AssignAsWrittenMarksSystemClasses` | substratevm/src/com.oracle.svm.jfr/src/com/oracle/svm/jfr/traceid/JfrTraceId.java:143-150 | the assignment as written marks a plain system-loader class as an event class; the corrected one does not |
| `LoadBarrier.IncreaseClassCount` | substratevm/src/com.oracle.svm.jfr/src/com/oracle/svm/jfr/traceid/JfrTraceIdLoadBarrier.java:68-75 | the epoch's counter goes up by one and the other counter and the words are unchanged |
| `LoadBarrier.Clear` | substratevm/src/com.oracle.svm.jfr/src/com/oracle/svm/jfr/traceid/JfrTraceIdLoadBarrier.java:54-66 | the epoch's counter is reset to zero and the other counter and the words are unchanged |
| `LoadBarrier.Load` | substratevm/src/com.oracle.svm.jfr/src/com/oracle/svm/jfr/traceid/JfrTraceIdLoadBarrier.java:81-90 | only the loaded class's word may change; the epoch's counter goes up exactly when the class had to be tagged; otherwise nothing changes |
| `LoadBarrier.LoadMarksUsed` | substratevm/src/com.oracle.svm.jfr/src/com/oracle/svm/jfr/traceid/JfrTraceIdLoadBarrier.java:81-90 | after a load the class is used this epoch, and the load returns its trace id |
| `LoadBarrier.LoadTwice` | substratevm/src/com.oracle.svm.jfr/src/com/oracle/svm/jfr/traceid/JfrTraceIdLoadBarrier.java:81-90 | a second load of the same class changes nothing more |
| `LoadBarrier.LoadWithMetaBitCounts` | substratevm/src/com.oracle.svm.jfr/src/com/oracle/svm/jfr/traceid/JfrTraceIdLoadBarrier.java:42-52 | a class whose meta bit is set is counted on every load |
| `LoadBarrier.DoClasses` | substratevm/src/com.oracle.svm.jfr/src/com/oracle/svm/jfr/traceid/JfrTraceIdLoadBarrier.java:92-104 | the walk accepts, in heap order, the classes that carry the transient or the epoch bit, clears the epoch bit of each of them, and reports whether the number accepted equals the counter |
| `LoadBarrier.VisitFrame` | substratevm/src/com.oracle.svm.jfr/src/com/oracle/svm/jfr/traceid/JfrTraceIdLoadBarrier.java:96-102 | the walk does not change the word of any class outside the list |
| `LoadBarrier.VisitAccepts` | substratevm/src/com.oracle.svm.jfr/src/com/oracle/svm/jfr/traceid/JfrTraceIdLoadBarrier.java:96-102 | the walk accepts exactly the listed classes whose word matches, in order |
| `LoadBarrier.VisitWords` | substratevm/src/com.oracle.svm.jfr/src/com/oracle/svm/jfr/traceid/JfrTraceIdLoadBarrier.java:96-102 | each listed class's word is cleared if it matched and unchanged otherwise |
| `LoadBarrier.LoadConsistent` | substratevm/src/com.oracle.svm.jfr/src/com/oracle/svm/jfr/traceid/JfrTraceIdLoadBarrier.java:81-90 | loading keeps each epoch's counter equal to the number of classes tagged with that epoch's bit |
| `LoadBarrier.DoClassesConsistent` | substratevm/src/com.oracle.svm.jfr/src/com/oracle/svm/jfr/traceid/JfrTraceIdLoadBarrier.java:92-104 | when every class is loaded through the barrier, the walk accepts exactly the classes tagged with the epoch's bit and as many as the counter says; after the walk and a clear no class carries that bit, and the invariant holds again |
| `LoadBarrier.NotTaggedIff` | substratevm/src/com.oracle.svm.jfr/src/com/oracle/svm/jfr/traceid/JfrTraceIdLoadBarrier.java:42-46 | with the meta bit clear, a class needs tagging exactly when it lacks the epoch bit |
| `LoadBarrier.UsedPoint` | substratevm/src/com.oracle.svm.jfr/src/com/oracle/svm/jfr/traceid/JfrTraceIdLoadBarrier.java:96-102 | changing one class's word changes the number of matching classes by that class's change |
| `ThreadLocalMemory.AcquireBuffer` | substratevm/src/com.oracle.svm.jfr/src/com/oracle/svm/jfr/JfrThreadLocalMemory.java:42-53 | the new buffer becomes the head, followed by the old list |
| `ThreadLocalMemory.AcquireValid` | substratevm/src/com.oracle.svm.jfr/src/com/oracle/svm/jfr/JfrThreadLocalMemory.java:42-53 | acquiring keeps the list well formed (no null node, no node twice) exactly when the new buffer is not null and not already listed |
| `ThreadLocalMemory.Find` | substratevm/src/com.oracle.svm.jfr/src/com/oracle/svm/jfr/JfrThreadLocalMemory.java:63-79 | the position found holds the buffer and no earlier node does; -1 means no node holds it |
| `ThreadLocalMemory.RemoveBuffer` | substratevm/src/com.oracle.svm.jfr/src/com/oracle/svm/jfr/JfrThreadLocalMemory.java:55-85 | a null buffer is ignored; an empty list fails on the null head; a buffer not in the list is lost; otherwise exactly one node goes |
| `ThreadLocalMemory.RemoveBufferWalk` | substratevm/src/com.oracle.svm.jfr/src/com/oracle/svm/jfr/JfrThreadLocalMemory.java:55-85 | the head check and the walk with a trailing previous node remove what `RemoveBuffer` says |
| `ThreadLocalMemory.RemoveAcquired` | substratevm/src/com.oracle.svm.jfr/src/com/oracle/svm/jfr/JfrThreadLocalMemory.java:42-85 | removing a buffer just acquired gives back the old list |
| `ThreadLocalMemory.RemoveListed` | substratevm/src/com.oracle.svm.jfr/src/com/oracle/svm/jfr/JfrThreadLocalMemory.java:55-85 | in a well-formed list, removing a listed buffer keeps all other nodes in order and leaves a well-formed list without it |
| `ThreadLocalMemory.WritablePrefix` | substratevm/src/com.oracle.svm.jfr/src/com/oracle/svm/jfr/JfrThreadLocalMemory.java:90-97 | the walk gets through the nodes before the first held one |
| `ThreadLocalMemory.WriteBuffers` | substratevm/src/com.oracle.svm.jfr/src/com/oracle/svm/jfr/JfrThreadLocalMemory.java:87-108 | the list comes back unchanged, and the writer receives the buffers of the writable prefix in list order |
| `ThreadLocalMemory.WriteAllAppends` | substratevm/src/com.oracle.svm.jfr/src/com/oracle/svm/jfr/JfrThreadLocalMemory.java:87-108 | on a file at its end, the buffers' unflushed bytes are appended in list order and nothing else changes |
| `ThreadLocalMemory.WriteAllClosed` | substratevm/src/com.oracle.svm.jfr/src/com/oracle/svm/jfr/JfrThreadLocalMemory.java:87-108 | with the file closed, writing the buffers changes nothing |
| `MethodHandle.ForValue` | src/com.oracle.truffle.espresso/src/com/oracle/truffle/espresso/classfile/MethodHandleConstant.java:55-70 | there is a kind exactly for the values 1 to 9, and the kind found has that value |
| `MethodHandle.ForValueOfValue` | src/com.oracle.truffle.espresso/src/com/oracle/truffle/espresso/classfile/MethodHandleConstant.java:38-70 | every kind's value maps back to that kind |
| `MethodHandle.ValueInjective` | src/com.oracle.truffle.espresso/src/com/oracle/truffle/espresso/classfile/MethodHandleConstant.java:38-53 | no two kinds share a value |
| `MethodHandle.GetRefKind` | src/com.oracle.truffle.espresso/src/com/oracle/truffle/espresso/classfile/MethodHandleConstant.java:92-96 | an entry has a kind exactly when its byte is 1 to 9, and the kind has that byte as value |
| `MethodHandle.Validate` | src/com.oracle.truffle.espresso/src/com/oracle/truffle/espresso/classfile/MethodHandleConstant.java:127-208 | `Index.validate` with the kind-8 name check as intended: no contract of its own; `MethodHandle.ValidateIsWellFormed` states it accepts exactly the well-formed entries |
| `MethodHandle.ValidateIsWellFormed` | src/com.oracle.truffle.espresso/src/com/oracle/truffle/espresso/classfile/MethodHandleConstant.java:127-208 | the corrected validation accepts exactly the entries that meet the rules of section 4.4.8 |
| `MethodHandle.ValidateAsWritten` | src/com.oracle.truffle.espresso/src/com/oracle/truffle/espresso/classfile/MethodHandleConstant.java:127-208 | `Index.validate` as the Java method writes it: no contract of its own; `MethodHandle.AsWrittenDiffersOnlyAtKind8` and `MethodHandle.AsWrittenAcceptsNewInvokeSpecialOfMethod` state where it differs from `Validate` |
| `MethodHandle.AsWrittenDiffersOnlyAtKind8` | src/com.oracle.truffle.espresso/src/com/oracle/truffle/espresso/classfile/MethodHandleConstant.java:133-206 | the validation as written accepts every well-formed entry, and besides them only kind-8 entries that name an ordinary class method |
| `MethodHandle.AsWrittenNameCheckRedundant` | src/com.oracle.truffle.espresso/src/com/oracle/truffle/espresso/classfile/MethodHandleConstant.java:147-158 | once the earlier name checks pass, the name check against kinds 5, 6, 7 and 9 rejects nothing |
| `MethodHandle.AsWrittenAcceptsNewInvokeSpecialOfMethod` | src/com.oracle.truffle.espresso/src/com/oracle/truffle/espresso/classfile/MethodHandleConstant.java:138-142 | a kind-8 entry naming `run` passes the validation as written and fails the corrected one |
| `LogTagSet.TagValueOf` | substratevm/src/com.oracle.svm.jfr/src/com/oracle/svm/jfr/logging/JfrLogConfiguration.java:135 | a tag name gives back its tag, and every tag's name is found |
| `LogTagSet.LevelValueOf` | substratevm/src/com.oracle.svm.jfr/src/com/oracle/svm/jfr/logging/JfrLogConfiguration.java:113 | a level name gives back its level, and every level's name is found |
| `LogTagSet.ValuesComplete` | substratevm/src/com.oracle.svm.jfr/src/com/oracle/svm/jfr/logging/JfrLogTagSet.java:36-46 | every tag set appears in `values()` at the position of its id |
| `LogTagSet.BuildIdMap` | substratevm/src/com.oracle.svm.jfr/src/com/oracle/svm/jfr/logging/JfrLogTagSet.java:58-63 | the static initializer's loop builds the id map, which holds every tag set at its id |
| `LogTagSet.IdMapOfEntries` | substratevm/src/com.oracle.svm.jfr/src/com/oracle/svm/jfr/logging/JfrLogTagSet.java:58-63 | after the first n values the map holds each of them at its id and null elsewhere |
| `LogTagSet.IdMapFilled` | substratevm/src/com.oracle.svm.jfr/src/com/oracle/svm/jfr/logging/JfrLogTagSet.java:58-63 | the finished map holds every tag set at its id |
| `LogTagSet.FromTagSetId` | substratevm/src/com.oracle.svm.jfr/src/com/oracle/svm/jfr/logging/JfrLogTagSet.java:65-67 | an id has a tag set exactly when it is 0 to 10, and the tag set has that id |
| `LogTagSet.FromTagSetIdOfId` | substratevm/src/com.oracle.svm.jfr/src/com/oracle/svm/jfr/logging/JfrLogTagSet.java:65-67 | looking up a tag set's own id gives it back |
| `LogTagSet.IdsDistinct` | substratevm/src/com.oracle.svm.jfr/src/com/oracle/svm/jfr/logging/JfrLogTagSet.java:36-46 | no two tag sets share an id |
| `LogTagSet.WithTagsOfTags` | substratevm/src/com.oracle.svm.jfr/src/com/oracle/svm/jfr/logging/JfrLogTagSet.java:36-46 | a tag set's tags identify it in the table |
| `LogTagSet.TagsDistinct` | substratevm/src/com.oracle.svm.jfr/src/com/oracle/svm/jfr/logging/JfrLogTagSet.java:36-46 | no two tag sets have the same tags |
| `LogTagSet.SetLevel` | substratevm/src/com.oracle.svm.jfr/src/com/oracle/svm/jfr/logging/JfrLogTagSet.java:73-79 | the tag set reads back the level it was given, and every other tag set keeps its own |
| `LogConfiguration.ShouldLog` | substratevm/src/com.oracle.svm.jfr/src/com/oracle/svm/jfr/logging/JfrLogConfiguration.java:46-53 | nothing is logged while logging is off; when it is on, the lookup fails exactly for an id outside 0 to 10 |
| `LogConfiguration.ShouldLogIff` | substratevm/src/com.oracle.svm.jfr/src/com/oracle/svm/jfr/logging/JfrLogConfiguration.java:46-53 | a message is logged exactly when logging is on and the tag set with that id has a level whose number is at most the message's |
| `LogConfiguration.ShouldLogMonotone` | substratevm/src/com.oracle.svm.jfr/src/com/oracle/svm/jfr/logging/JfrLogConfiguration.java:46-53 | a tag set that logs at one level logs at every more severe level |
| `LogConfiguration.ParseTags` | substratevm/src/com.oracle.svm.jfr/src/com/oracle/svm/jfr/logging/JfrLogConfiguration.java:133-142 | the tags parse exactly when every piece names a tag; the set is those tags; a failure names a piece that is no tag |
| `LogConfiguration.ParseSelection` | substratevm/src/com.oracle.svm.jfr/src/com/oracle/svm/jfr/logging/JfrLogConfiguration.java:109-143 | `JfrLogSelection.parse`: no contract of its own; `LogConfiguration.ParseSelectionLevel`, `LogConfiguration.ParseSelectionAll` and `LogConfiguration.RenderParse` state its results |
| `LogConfiguration.ParseSelectionLevel` | substratevm/src/com.oracle.svm.jfr/src/com/oracle/svm/jfr/logging/JfrLogConfiguration.java:110-121 | a selection's level is the text after its first `=`, unless that `=` comes first; without one the level is INFO; an unknown level text is the error |
| `LogConfiguration.ParseSelectionAll` | substratevm/src/com.oracle.svm.jfr/src/com/oracle/svm/jfr/logging/JfrLogConfiguration.java:123-126 | `all` in any case, with any level, parses to the tagless wildcard selection at that level, which matches every tag set |
| `LogConfiguration.RenderParse` | substratevm/src/com.oracle.svm.jfr/src/com/oracle/svm/jfr/logging/JfrLogConfiguration.java:109-143 | parsing a written-out selection gives back its tags, its wildcard flag and its level |
| `LogConfiguration.TagNameParses` | substratevm/src/com.oracle.svm.jfr/src/com/oracle/svm/jfr/logging/JfrLogConfiguration.java:135 | every tag's name, upper-cased, parses back to that tag |
| `LogConfiguration.ParseSelections` | substratevm/src/com.oracle.svm.jfr/src/com/oracle/svm/jfr/logging/JfrLogConfiguration.java:65-73 | the option's pieces parse exactly when each of them does, and the result holds each piece's selection in order |
| `LogConfiguration.RightmostLevel` | substratevm/src/com.oracle.svm.jfr/src/com/oracle/svm/jfr/logging/JfrLogConfiguration.java:78-90 | a tag set with no matching selection gets no level; otherwise it gets the level of the rightmost selection that matches it |
| `LogConfiguration.AssignLevels` | substratevm/src/com.oracle.svm.jfr/src/com/oracle/svm/jfr/logging/JfrLogConfiguration.java:78-90 | every tag set gets the level of its rightmost matching selection |
| `LogConfiguration.MatchSelections` | substratevm/src/com.oracle.svm.jfr/src/com/oracle/svm/jfr/logging/JfrLogConfiguration.java:81-87 | the inner loop yields the rightmost match's level and marks every selection that matches |
| `LogConfiguration.SetLogTagSetLevels` | substratevm/src/com.oracle.svm.jfr/src/com/oracle/svm/jfr/logging/JfrLogConfiguration.java:78-90 | every tag set gets the level of its rightmost matching selection, and a selection is marked exactly when it matches some tag set |
| `LogConfiguration.VerifySelections` | substratevm/src/com.oracle.svm.jfr/src/com/oracle/svm/jfr/logging/JfrLogConfiguration.java:92-101 | verification passes exactly when every selection matched; a failure names the first one that did not |
| `LogConfiguration.Parse` | substratevm/src/com.oracle.svm.jfr/src/com/oracle/svm/jfr/logging/JfrLogConfiguration.java:55-76 | `parse`: no contract of its own; `LogConfiguration.BlankDisables`, `LogConfiguration.ParseAccepts` and `LogConfiguration.ParsedShouldLog` state its outcomes |
| `LogConfiguration.BlankDisables` | substratevm/src/com.oracle.svm.jfr/src/com/oracle/svm/jfr/logging/JfrLogConfiguration.java:55-57 | a blank option leaves logging off, so nothing is logged |
| `LogConfiguration.ParseAccepts` | substratevm/src/com.oracle.svm.jfr/src/com/oracle/svm/jfr/logging/JfrLogConfiguration.java:55-76 | an option other than a blank one or `help` is accepted exactly when each comma-separated part parses and matches some tag set; then logging is on with those selections |
| `LogConfiguration.ParsedShouldLog` | substratevm/src/com.oracle.svm.jfr/src/com/oracle/svm/jfr/logging/JfrLogConfiguration.java:46-90 | after an option is accepted, a tag set logs a message exactly when the rightmost selection matching it has a level whose number is at most the message's |
| `LogConfiguration.RightmostShouldLog` | substratevm/src/com.oracle.svm.jfr/src/com/oracle/svm/jfr/logging/JfrLogConfiguration.java:46-90 | when logging is on and every tag set has the level of its rightmost matching selection, a message is logged exactly when that selection exists and its level number is at most the message's |
| `LogConfiguration.ParsedSelectionsMatch` | substratevm/src/com.oracle.svm.jfr/src/com/oracle/svm/jfr/logging/JfrLogConfiguration.java:92-101 | every selection of an accepted option matches at least one tag set |

## Left out

- `RawFileOperationSupport` is not part of this model. Its byte order is taken
  as big-endian, the order of the chunk format. Any operation on a descriptor
  that is not open fails, and whether the operating system opens a file is a
  parameter.
- RawFile.Open: a file opened with `READ_WRITE` (JfrChunkWriter.java:121) is
  taken to be new or truncated, so it is empty and at position 0. Opening an
  existing, longer file would keep its old bytes after the new header; the model
  does not cover that. `ChunkLayout.OpenFileWritesHeader` and
  `ChunkLayout.MaybeOpenFileReopens` ("the file is exactly a fresh header") and
  `ChunkLayout.ClosedChunk` ("the size field is the file length"; the Java code
  writes `position(fd)`, which equals the length only when nothing lies past
  the end of what was written) hold under this assumption.
- RawFile.Write: in the model, every raw operation (write, seek, position,
  close) on an open descriptor succeeds, and one on a descriptor that is not
  open fails with an `IoError`; I/O errors of the operating system on an open
  file are not modelled. In the model, then, the `catch` blocks of `openFile`
  (JfrChunkWriter.java:124-127) and of the close operation's `operate`
  (JfrChunkWriter.java:400-403) are taken only for a descriptor that is not
  open. `ChunkLayout.OperateLayout` and `ChunkLayout.CloseSequenceLayout`
  describe the finished chunk under this assumption; `ChunkWriter.Operate`
  clears the file name on every path, failed ones included.
- ChunkWriter.OpenFile: a raw write that fails inside `writeFileHeader`
  (JfrChunkWriter.java:160-174) is taken to raise `IOException`, so that a
  refused file makes `openFile` return false through its `catch`. The Java
  code discards the results of the header writes, and what
  `RawFileOperationSupport` does on a failed write (return false or throw) is
  outside this model; `writeFileHeader` is declared `throws IOException`, and
  the model follows that declaration. If the raw writes only return false, a
  refused file would instead make `openFile` return true with an invalid
  descriptor; the model does not promise that outcome.
- Text.Utf8: the UTF-8 form is stated through its length bounds and the ASCII
  case; no decoder round trip ties the bytes to the UTF-8 standard.
- Text.Utf8Char: the contract states the byte count (one to four) and the
  single-byte ASCII case only. The lead and continuation bit patterns of the
  two-, three- and four-byte forms are in the definition but are not stated or
  proved, because the proof through byte conversions and repeated division is
  too expensive for the verifier.
- `JfrTicks` clocks are parameters: the current nanoseconds, the elapsed ticks
  and the tick frequency. `JfrNativeEventWriter.makePaddedInt` is the parameter
  `pad`.
- The lock, the mutex, the atomic counters and safepoints are left out, and so
  are `@Uninterruptible`, concurrency and the enqueueing of the VM operation.
  `closeFile` is modelled by `Operate`, the operation it enqueues.
  `changeEpoch` has an empty body in the source.
- Java assertions are treated as disabled, as in a production image. This
  affects the position assertion of the file header, the count assertion of
  `doClasses`, and the assertions in `getRefKind` and `load`.
- LoadBarrier.IncreaseClassCount: the counters are unbounded naturals and do not
  wrap at 32 bits. They never exceed the number of classes.
- ChunkLayout.StringRoundTrip: it requires the UTF-8 length to fit a
  non-negative int, because Java arrays cannot be longer.
- `JfrTraceIdMap` and `JfrTraceIdEpoch` are not part of this model. The map
  is a Dafny map from class index to word. The epoch's two bits and the
  current epoch are a parameter, with the two bits single, distinct and in
  the low byte.
- `Type.getTypeId` (the host trace id), the class loaders and the
  event-class tests are fields of the class description passed in.
- `JfrBufferAccess` is not part of this model: allocation, `free`, the
  buffer memory and the buffer's cursor are left out. `acquireBuffer`
  receives the freshly allocated buffer, so allocation failure is not
  modelled. Acquiring a buffer succeeds exactly when no one holds it.
- `MethodHandleConstant`: resolution, the `u1`/`u2` accessors, the
  constant-pool lookup, and `memberAt(...).validate` are left out. The
  member's name, the referenced entry's tag and the class file's major
  version are inputs to the validation.
- `JfrLogTag` and `LogLevel` are not part of this model. The tags are the
  eight the tag-set table uses. The levels are the JDK's five, in the JDK's
  order, so a level's number is its ordinal plus one.
- `toUpperCase` is modelled for ASCII letters only. Other characters keep
  their case.
- The help text and the error messages written to the log are left out.
  `System.exit` becomes the `Stop` outcome, with `HelpShown` for status 0
  and `Fatal` for status 1.
- `JfrLogging`, `JfrFeature`, `JfrEvents` and `JfrRuntimeAccess` are
  callers and registries around the core and are not modelled. The event ids
  are the constants 0 (metadata) and 1 (checkpoint).
- `LLVMFloatStoreNode` and `TestInterspersedRecordings` are not modelled.

## Findings

| source | as written | input that shows it | evidently intended | confidence | as-written member | corrected member |
|---|---|---|---|---|---|---|
| substratevm/src/com.oracle.svm.jfr/src/com/oracle/svm/jfr/traceid/JfrTraceId.java:143-148 | `(a or b) and loader == null or loader == system`: by Java precedence, any class loaded by the system class loader is tagged as a JFR event class and as an event subclass | an ordinary, non-event application class loaded by the system class loader | only the event classes (line 143) or event subclasses (line 147) loaded by the boot or the system loader are tagged: `(a or b) and (loader == null or loader == system)` | medium, not executed | `TraceId.AssignAsWritten`, `TraceId.AssignAsWrittenMarksSystemClasses` | `TraceId.Assign`, `TraceId.AssignEventClass` |
| src/com.oracle.truffle.espresso/src/com/oracle/truffle/espresso/classfile/MethodHandleConstant.java:138-142 | only `<init>` with a kind other than 8 is rejected; kind 8 with another name passes | reference kind 8 (`newInvokeSpecial`) with a `Methodref` to a method named `run` | kind 8 must name `<init>`, as the comment at line 139 and section 4.4.8 of the Java Virtual Machine Specification require | medium, not executed | `MethodHandle.ValidateAsWritten`, `MethodHandle.AsWrittenAcceptsNewInvokeSpecialOfMethod` | `MethodHandle.Validate`, `MethodHandle.ValidateIsWellFormed` |



=== FILE: bytes.dfy ===
/**
 * Bytes and fixed-width Java integers as the file layer writes them.
 *
 * Multi-byte fields are written most significant byte first, the byte order of
 * the JFR chunk format.
 */
module Bytes {

  type byte = bv8

  /** Number of distinct values of a Java `long`. */
  const TWO_TO_64: int := 0x1_0000_0000_0000_0000

  /** Number of distinct values of a Java `int`. */
  const TWO_TO_32: int := 0x1_0000_0000

  /** The low eight bits of a word: Java's narrowing `(byte)` cast. */
  function Low8(v: bv64): (r: byte)
    ensures r as bv64 == v & 0xFF
  {
    (v & 0xFF) as byte
  }

  /** The 64-bit pattern of a mathematical integer: a Java `long` that wrapped around. */
  function ToLong(i: int): bv64
  {
    (i % TWO_TO_64) as bv64
  }

  /** `writeLong`: eight bytes, most significant first. */
  function Long(v: bv64): (r: seq<byte>)
    ensures |r| == 8
  {
    [Low8(v >> 56), Low8(v >> 48), Low8(v >> 40), Low8(v >> 32),
     Low8(v >> 24), Low8(v >> 16), Low8(v >> 8), Low8(v)]
  }

  /** Eight-byte fields one after the other. */
  function Longs(values: seq<bv64>): (r: seq<byte>)
    ensures |r| == 8 * |values|
  {
    if |values| == 0 then [] else Long(values[0]) + Longs(values[1..])
  }

  /** Field `k` of a run of eight-byte fields sits at offset `8 * k`. */
  lemma {:induction false} LongsField(values: seq<bv64>, k: nat)
    requires k < |values|
    ensures Longs(values)[8 * k..8 * k + 8] == Long(values[k])
  {
    if k > 0 {
      LongsField(values[1..], k - 1);
      var rest := Longs(values[1..]);
      assert Longs(values)[8..] == rest;
      assert Longs(values)[8 * k..8 * k + 8] == rest[8 * (k - 1)..8 * (k - 1) + 8];
    }
  }

  /** `writeInt`: four bytes, most significant first. */
  function Int(v: bv32): (r: seq<byte>)
    ensures |r| == 4
  {
    [Low8Of32(v >> 24), Low8Of32(v >> 16), Low8Of32(v >> 8), Low8Of32(v)]
  }

  /** The low eight bits of a 32-bit word. */
  function Low8Of32(v: bv32): (r: byte)
    ensures r as bv32 == v & 0xFF
  {
    (v & 0xFF) as byte
  }

  /** `writeShort`: two bytes, most significant first. */
  function Short(v: bv16): (r: seq<byte>)
    ensures |r| == 2
  {
    [((v >> 8) & 0xFF) as byte, (v & 0xFF) as byte]
  }

  /** The reader's view of an eight-byte field. */
  function ReadLong(s: seq<byte>): bv64
    requires |s| == 8
  {
    (s[0] as bv64 << 56) | (s[1] as bv64 << 48) | (s[2] as bv64 << 40) | (s[3] as bv64 << 32) |
    (s[4] as bv64 << 24) | (s[5] as bv64 << 16) | (s[6] as bv64 << 8) | s[7] as bv64
  }

  /** The reader's view of a two-byte field. */
  function ReadShort(s: seq<byte>): bv16
    requires |s| == 2
  {
    (s[0] as bv16 << 8) | s[1] as bv16
  }

  /** The reader's view of a four-byte field. */
  function ReadInt(s: seq<byte>): bv32
    requires |s| == 4
  {
    ((s[0] as bv32 << 24) | (s[1] as bv32 << 16) | (s[2] as bv32 << 8) | s[3] as bv32)
  }

  /** A long field reads back as the value written. */
  lemma LongRoundTrip(v: bv64)
    ensures ReadLong(Long(v)) == v
  {
    var s := Long(v);
    assert s[0] as bv64 == (v >> 56) & 0xFF;
    assert s[1] as bv64 == (v >> 48) & 0xFF;
    assert s[2] as bv64 == (v >> 40) & 0xFF;
    assert s[3] as bv64 == (v >> 32) & 0xFF;
    assert s[4] as bv64 == (v >> 24) & 0xFF;
    assert s[5] as bv64 == (v >> 16) & 0xFF;
    assert s[6] as bv64 == (v >> 8) & 0xFF;
    assert s[7] as bv64 == v & 0xFF;
  }

  /** An int field reads back as the value written. */
  lemma IntRoundTrip(v: bv32)
    ensures ReadInt(Int(v)) == v
  {
    var s := Int(v);
    assert s[0] as bv32 == (v >> 24) & 0xFF;
    assert s[1] as bv32 == (v >> 16) & 0xFF;
    assert s[2] as bv32 == (v >> 8) & 0xFF;
    assert s[3] as bv32 == v & 0xFF;
  }

  /** A short field reads back as the value written. */
  lemma ShortRoundTrip(v: bv16)
    ensures ReadShort(Short(v)) == v
  {
    var s := Short(v);
    assert s[0] as bv16 == (v >> 8) & 0xFF;
    assert s[1] as bv16 == v & 0xFF;
  }

  /** Zero is written as eight zero bytes: the header's placeholders. */
  lemma LongZero()
    ensures Long(0) == [0, 0, 0, 0, 0, 0, 0, 0]
  {
  }

  /** `count` zero bytes: what a reader sees in a gap left behind the end of a file. */
  function Zeros(count: nat): (r: seq<byte>)
    ensures |r| == count
    ensures forall i :: 0 <= i < count ==> r[i] == 0
  {
    seq(count, _ => 0)
  }
}

=== FILE: chunklayout.dfy ===
/**
 * The chunk file format as a reader sees it, and proofs that the chunk writer
 * produces it: the header fields at their offsets, size-prefixed events, the
 * checkpoint and metadata events, strings, and the file left by the close sequence.
 */
module ChunkLayout {
  import opened Bytes
  import opened Wrappers
  import opened RawFile
  import opened ChunkWriter
  import Varint
  import Text

  /** The writer after `data` has been appended at the end of its file. */
  function Appended(w: Writer, data: seq<byte>): (r: Writer)
    ensures AtEnd(r.fd)
  {
    w.(fd := Grown(w.fd, data))
  }

  /** An event as stored: its padded size (placeholder included) followed by its body. */
  function Frame(body: seq<byte>, pad: PaddedInt): seq<byte> {
    Int(pad(4 + |body|)) + body
  }

  /** Body of the checkpoint event in the chunk format. */
  function CheckpointBody(nowTicks: bv64, serializers: seq<ConstantPool>,
                          repositories: seq<ConstantPool>): seq<byte> {
    EventFields(CHECKPOINT_EVENT_ID, nowTicks) + Varint.EncodeBoolean(true) +
    Varint.EncodeInt(Varint.IntBits(CountWithItems(serializers) + CountWithItems(repositories))) +
    Payloads(serializers) + Payloads(repositories)
  }

  /** Body of the metadata event in the chunk format. */
  function MetadataBody(nowTicks: bv64, metadataDescriptor: seq<byte>): seq<byte> {
    EventFields(METADATA_EVENT_ID, nowTicks) + metadataDescriptor
  }

  /** A string in the chunk format. */
  function EncodeString(str: string): seq<byte> {
    if |str| == 0 then [EMPTY_STRING.ByteValue()] else EncodeUtf8(Text.Utf8(str))
  }

  /** Non-empty UTF-8 bytes in the chunk format: the tag, the compressed byte count, the bytes. */
  function EncodeUtf8(u: seq<byte>): seq<byte> {
    [UTF8_BYTE_ARRAY.ByteValue()] + Varint.EncodeInt(Varint.IntBits(|u|)) + u
  }

  /** A decoded length field as a byte count: the unsigned value of its low `bits` bits. */
  function LengthOf(length: bv64, bits: nat := 64): nat
    decreases bits
  {
    if bits == 0 then 0 else (if length & 1 == 1 then 1 else 0) + 2 * LengthOf(length >> 1, bits - 1)
  }

  /** The reader of a string: its UTF-8 bytes and the number of bytes it took. */
  function DecodeString(s: seq<byte>): Option<(seq<byte>, nat)> {
    if |s| == 0 then None
    else if s[0] == EMPTY_STRING.ByteValue() then Some(([], 1))
    else if s[0] == UTF8_BYTE_ARRAY.ByteValue() then
      match Varint.Decode(s[1..])
      case None => None
      case Some((length, n)) =>
        var len := LengthOf(length);
        if 1 + n + len <= |s| then Some((s[1 + n..1 + n + len], 1 + n + len)) else None
    else None
  }

  // ---------------------------------------------------------------------------
  // Appending

  lemma AppendBytes(w: Writer, data: seq<byte>)
    requires AtEnd(w.fd)
    ensures WriteBytes(w, data) == Success(Appended(w, data))
  {
    AppendAtEnd(w.fd, data);
  }

  lemma AppendTwice(w: Writer, a: seq<byte>, b: seq<byte>)
    ensures Appended(Appended(w, a), b) == Appended(w, a + b)
  {
    GrownTwice(w.fd, a, b);
  }

  /** The pools with items write their payloads one after the other. */
  lemma {:induction false} AppendPools(w: Writer, pools: seq<ConstantPool>)
    requires AtEnd(w.fd)
    ensures WritePools(w, pools) == Success(Appended(w, Payloads(pools)))
    decreases |pools|
  {
    if |pools| == 0 {
      assert Appended(w, []) == w by {
        assert w.fd.file.bytes + [] == w.fd.file.bytes;
      }
    } else {
      var first := if pools[0].hasItems then pools[0].payload else [];
      var w0 := Appended(w, first);
      if pools[0].hasItems {
        AppendBytes(w, pools[0].payload);
      } else {
        assert Appended(w, []) == w by {
          assert w.fd.file.bytes + [] == w.fd.file.bytes;
        }
      }
      AppendPools(w0, pools[1..]);
      AppendTwice(w, first, Payloads(pools[1..]));
    }
  }

  // ---------------------------------------------------------------------------
  // Event framing

  /**
   * `beginEvent` on a file positioned at its end returns the old end and appends a
   * four-byte zero placeholder.
   */
  lemma BeginEventAppends(w: Writer)
    requires AtEnd(w.fd)
    ensures BeginEvent(w) == Success((Appended(w, [0, 0, 0, 0]), |w.fd.file.bytes|))
  {
    assert Int(0) == [0, 0, 0, 0];
    AppendAtEnd(w.fd, Int(0));
  }

  /**
   * `endEvent(start)` overwrites exactly the four bytes at `start` with the padded
   * size `end - start` and leaves the position at `end`.
   */
  lemma EndEventPatches(w: Writer, start: nat, pad: PaddedInt)
    requires w.fd.isOpen && start + 4 <= |w.fd.file.bytes|
    ensures EndEvent(w, start, pad) == Success(w.(fd := Fd(File(
              w.fd.file.bytes[..start] + Int(pad(w.fd.file.pos - start)) + w.fd.file.bytes[start + 4..],
              w.fd.file.pos), true)))
  {
    var bytes := w.fd.file.bytes;
    var r := Overwrite(bytes, start, Int(pad(w.fd.file.pos - start)));
    assert r == bytes[..start] + Int(pad(w.fd.file.pos - start)) + bytes[start + 4..];
  }

  /** An event written at the end of the file is stored as its frame. */
  lemma EndFrame(w: Writer, body: seq<byte>, pad: PaddedInt)
    requires AtEnd(w.fd)
    ensures EndEvent(Appended(w, [0, 0, 0, 0] + body), |w.fd.file.bytes|, pad) ==
            Success(Appended(w, Frame(body, pad)))
  {
    var b := w.fd.file.bytes;
    var w1 := Appended(w, [0, 0, 0, 0] + body);
    var all := b + ([0, 0, 0, 0] + body);
    var sz := Int(pad(4 + |body|));
    EndEventPatches(w1, |b|, pad);
    assert all[..|b|] + sz + all[|b| + 4..] == b + Frame(body, pad) by {
      assert all[..|b|] == b;
      assert all[|b| + 4..] == body;
    }
  }

  // ---------------------------------------------------------------------------
  // Checkpoint and metadata events

  /** Compressed longs one after the other. */
  function CompressedLongs(values: seq<bv64>): seq<byte> {
    if |values| == 0 then [] else Varint.Encode(values[0]) + CompressedLongs(values[1..])
  }

  /** The four leading fields of an event: id, start ticks, zero duration, zero delta. */
  function EventFields(eventId: bv64, nowTicks: bv64): seq<byte> {
    CompressedLongs([eventId, nowTicks, 0, 0])
  }

  lemma {:induction false} AppendCompressedLongs(w: Writer, values: seq<bv64>)
    requires AtEnd(w.fd)
    ensures WriteCompressedLongs(w, values) == Success(Appended(w, CompressedLongs(values)))
    decreases |values|
  {
    if |values| == 0 {
      assert w.fd.file.bytes + [] == w.fd.file.bytes;
    } else {
      var e := Varint.Encode(values[0]);
      AppendBytes(w, e);
      AppendCompressedLongs(Appended(w, e), values[1..]);
      AppendTwice(w, e, CompressedLongs(values[1..]));
    }
  }

  lemma AppendEventFields(w: Writer, eventId: bv64, nowTicks: bv64)
    requires AtEnd(w.fd)
    ensures WriteEventFields(w, eventId, nowTicks) == Success(Appended(w, EventFields(eventId, nowTicks)))
  {
    AppendCompressedLongs(w, [eventId, nowTicks, 0, 0]);
  }

  /** The checkpoint event's contents are appended as its body. */
  lemma CheckpointContents(w: Writer, serializers: seq<ConstantPool>,
                           repositories: seq<ConstantPool>, nowTicks: bv64)
    requires AtEnd(w.fd)
    ensures WriteCheckpointContents(w, serializers, repositories, nowTicks) ==
            Success(Appended(w, CheckpointBody(nowTicks, serializers, repositories)))
  {
    var ef := EventFields(CHECKPOINT_EVENT_ID, nowTicks);
    var e4 := Varint.EncodeBoolean(true);
    var bits := Varint.IntBits(CountWithItems(serializers) + CountWithItems(repositories));
    var e5 := Varint.EncodeInt(bits);
    var ps := Payloads(serializers);
    var pr := Payloads(repositories);
    var w4 := Appended(w, ef);
    var w5 := Appended(w4, e4);
    var w6 := Appended(w5, e5);
    var w7 := Appended(w6, ps);
    var w8 := Appended(w7, pr);
    assert WriteEventFields(w, CHECKPOINT_EVENT_ID, nowTicks) == Success(w4) by {
      AppendEventFields(w, CHECKPOINT_EVENT_ID, nowTicks);
    }
    assert WriteBoolean(w4, true) == Success(w5) by { AppendBytes(w4, e4); }
    assert WriteCompressedInt(w5, bits) == Success(w6) by { AppendBytes(w5, e5); }
    assert WritePools(w6, serializers) == Success(w7) by { AppendPools(w6, serializers); }
    assert WritePools(w7, repositories) == Success(w8) by { AppendPools(w7, repositories); }
    CheckpointSteps(w, serializers, repositories, nowTicks, w4, w5, w6, w7);
    assert w8 == Appended(w, CheckpointBody(nowTicks, serializers, repositories)) by {
      CheckpointBodyParts(w, serializers, repositories, nowTicks);
    }
  }

  /** When each of the first steps succeeds, the contents end with the repositories' write. */
  lemma CheckpointSteps(w: Writer, serializers: seq<ConstantPool>, repositories: seq<ConstantPool>,
                        nowTicks: bv64, w4: Writer, w5: Writer, w6: Writer, w7: Writer)
    requires WriteEventFields(w, CHECKPOINT_EVENT_ID, nowTicks) == Success(w4)
    requires WriteBoolean(w4, true) == Success(w5)
    requires WriteCompressedInt(w5, Varint.IntBits(CountWithItems(serializers) +
                                                   CountWithItems(repositories))) == Success(w6)
    requires WritePools(w6, serializers) == Success(w7)
    ensures WriteCheckpointContents(w, serializers, repositories, nowTicks) == WritePools(w7, repositories)
  {
  }

  /** The checkpoint body is its fields, the flag, the count and the two payloads, in that order. */
  lemma CheckpointBodyParts(w: Writer, serializers: seq<ConstantPool>,
                            repositories: seq<ConstantPool>, nowTicks: bv64)
    ensures Appended(Appended(Appended(Appended(Appended(w, EventFields(CHECKPOINT_EVENT_ID, nowTicks)),
        Varint.EncodeBoolean(true)),
        Varint.EncodeInt(Varint.IntBits(CountWithItems(serializers) + CountWithItems(repositories)))),
        Payloads(serializers)), Payloads(repositories)) ==
      Appended(w, CheckpointBody(nowTicks, serializers, repositories))
  {
    AppendFive(w, EventFields(CHECKPOINT_EVENT_ID, nowTicks), Varint.EncodeBoolean(true),
               Varint.EncodeInt(Varint.IntBits(CountWithItems(serializers) + CountWithItems(repositories))),
               Payloads(serializers), Payloads(repositories));
  }

  /** Five appends one after the other append the five parts joined. */
  lemma AppendFive(w: Writer, a: seq<byte>, b: seq<byte>, c: seq<byte>, d: seq<byte>, e: seq<byte>)
    ensures Appended(Appended(Appended(Appended(Appended(w, a), b), c), d), e) ==
            Appended(w, a + b + c + d + e)
  {
    AppendTwice(w, a, b);
    AppendTwice(w, a + b, c);
    AppendTwice(w, a + b + c, d);
    AppendTwice(w, a + b + c + d, e);
  }

  /**
   * The checkpoint event is appended as one frame: the event id, the ticks, zero
   * duration and delta, the flush flag, the number of serializers and repositories
   * that have items, then the serializers' contents before the repositories'.
   */
  lemma CheckpointLayout(w: Writer, serializers: seq<ConstantPool>,
                         repositories: seq<ConstantPool>, nowTicks: bv64, pad: PaddedInt)
    requires AtEnd(w.fd)
    ensures WriteCheckpointEvent(w, serializers, repositories, nowTicks, pad) ==
            Success((Appended(w, Frame(CheckpointBody(nowTicks, serializers, repositories), pad)),
                     |w.fd.file.bytes|))
  {
    var z: seq<byte> := [0, 0, 0, 0];
    var body := CheckpointBody(nowTicks, serializers, repositories);
    var w0 := Appended(w, z);
    var w8 := Appended(w, z + body);
    assert BeginEvent(w) == Success((w0, |w.fd.file.bytes|)) by { BeginEventAppends(w); }
    assert WriteCheckpointContents(w0, serializers, repositories, nowTicks) == Success(w8) by {
      CheckpointContents(w0, serializers, repositories, nowTicks);
      AppendTwice(w, z, body);
    }
    assert EndEvent(w8, |w.fd.file.bytes|, pad) == Success(Appended(w, Frame(body, pad))) by {
      EndFrame(w, body, pad);
    }
  }

  /** The metadata event is appended as one frame: id 0, the ticks, two zeros and the descriptor. */
  lemma MetadataLayout(w: Writer, metadataDescriptor: seq<byte>, nowTicks: bv64, pad: PaddedInt)
    requires AtEnd(w.fd)
    ensures WriteMetadataEvent(w, metadataDescriptor, nowTicks, pad) ==
            Success((Appended(w, Frame(MetadataBody(nowTicks, metadataDescriptor), pad)),
                     |w.fd.file.bytes|))
  {
    var ef := EventFields(METADATA_EVENT_ID, nowTicks);
    var d := metadataDescriptor;
    var z: seq<byte> := [0, 0, 0, 0];
    var w0 := Appended(w, z);
    var w4 := Appended(w0, ef);
    var w5 := Appended(w4, d);
    assert BeginEvent(w) == Success((w0, |w.fd.file.bytes|)) by { BeginEventAppends(w); }
    assert WriteEventFields(w0, METADATA_EVENT_ID, nowTicks) == Success(w4) by {
      AppendEventFields(w0, METADATA_EVENT_ID, nowTicks);
    }
    assert WriteBytes(w4, d) == Success(w5) by { AppendBytes(w4, d); }
    var body := MetadataBody(nowTicks, d);
    assert w5 == Appended(w, z + body) by {
      AppendTwice(w, z, ef);
      AppendTwice(w, z + ef, d);
      assert z + ef + d == z + (ef + d);
    }
    assert EndEvent(w5, |w.fd.file.bytes|, pad) == Success(Appended(w, Frame(body, pad))) by {
      EndFrame(w, body, pad);
    }
  }

  // ---------------------------------------------------------------------------
  // The file header

  /**
   * What a reader finds at the start of a chunk that has just been opened: the magic,
   * versions 2.0, the five size, offset and time fields still zero, the start ticks,
   * the tick frequency and the compressed-integers flag.
   */
  predicate FreshHeader(h: seq<byte>, startTicks: bv64, ticksFrequency: bv64, compressedInts: bool) {
    && |h| == HEADER_SIZE
    && h[..4] == FILE_MAGIC
    && ReadShort(h[4..6]) == JFR_VERSION_MAJOR
    && ReadShort(h[6..8]) == JFR_VERSION_MINOR
    && PatchedFields(h, 0, 0, 0, 0, 0)
    && ReadLong(h[48..56]) == startTicks
    && ReadLong(h[56..64]) == ticksFrequency
    && ReadInt(h[64..68]) == (if compressedInts then 1 else 0)
  }

  /** The bytes `writeFileHeader` emits, field by field. */
  function HeaderBytes(startTicks: bv64, ticksFrequency: bv64, compressedInts: bool): seq<byte> {
    FILE_MAGIC + Short(JFR_VERSION_MAJOR) + Short(JFR_VERSION_MINOR) +
    Longs([0, 0, 0, 0, 0, startTicks, ticksFrequency]) + Int(if compressedInts then 1 else 0)
  }

  lemma HeaderAppends(w: Writer, ticksFrequency: bv64)
    requires AtEnd(w.fd)
    ensures WriteFileHeader(w, ticksFrequency) ==
            Success(Appended(w, HeaderBytes(w.chunkStartTicks, ticksFrequency, w.compressedInts)))
  {
    var longs := Longs([0, 0, 0, 0, 0, w.chunkStartTicks, ticksFrequency]);
    var flag: bv32 := if w.compressedInts then 1 else 0;
    var f0 := Grown(w.fd, FILE_MAGIC);
    var f1 := Grown(f0, Short(JFR_VERSION_MAJOR));
    var f2 := Grown(f1, Short(JFR_VERSION_MINOR));
    var f3 := Grown(f2, longs);
    var f4 := Grown(f3, Int(flag));
    AppendAtEnd(w.fd, FILE_MAGIC);
    AppendAtEnd(f0, Short(JFR_VERSION_MAJOR));
    AppendAtEnd(f1, Short(JFR_VERSION_MINOR));
    WriteLongsAtEnd(f2, [0, 0, 0, 0, 0, w.chunkStartTicks, ticksFrequency]);
    AppendAtEnd(f3, Int(flag));
    assert f4 == Grown(w.fd, HeaderBytes(w.chunkStartTicks, ticksFrequency, w.compressedInts)) by {
      GrownTwice(w.fd, FILE_MAGIC, Short(JFR_VERSION_MAJOR));
      GrownTwice(w.fd, FILE_MAGIC + Short(JFR_VERSION_MAJOR), Short(JFR_VERSION_MINOR));
      GrownTwice(w.fd, FILE_MAGIC + Short(JFR_VERSION_MAJOR) + Short(JFR_VERSION_MINOR), longs);
      GrownTwice(w.fd, FILE_MAGIC + Short(JFR_VERSION_MAJOR) + Short(JFR_VERSION_MINOR) + longs, Int(flag));
    }
  }

  /** A slice of a run that sits at `at` is the same slice of `h`, shifted. */
  lemma SliceOfSlice(h: seq<byte>, at: nat, run: seq<byte>, i: nat, j: nat)
    requires at + |run| <= |h| && h[at..at + |run|] == run && i <= j <= |run|
    ensures h[at + i..at + j] == run[i..j]
  {
    var s := h[at + i..at + j];
    assert forall n :: 0 <= n < |s| ==> s[n] == run[i + n];
  }

  /** A long field of a run starting at `at`, as a reader sees it. */
  lemma ReadLongField(h: seq<byte>, at: nat, values: seq<bv64>, k: nat)
    requires k < |values| && at + |Longs(values)| <= |h| && h[at..at + |Longs(values)|] == Longs(values)
    ensures ReadLong(h[at + 8 * k..at + 8 * k + 8]) == values[k]
  {
    FieldOfRun(h, at, values, k);
    LongRoundTrip(values[k]);
  }

  /** Field `k` of a run of long fields at `at` holds the bytes of `values[k]`. */
  lemma FieldOfRun(h: seq<byte>, at: nat, values: seq<bv64>, k: nat)
    requires k < |values| && at + |Longs(values)| <= |h| && h[at..at + |Longs(values)|] == Longs(values)
    ensures h[at + 8 * k..at + 8 * k + 8] == Long(values[k])
  {
    LongsField(values, k);
    SliceOfSlice(h, at, Longs(values), 8 * k, 8 * k + 8);
  }

  /** The five patched fields of a header, read from a run of five longs at offset 8. */
  lemma ReadPatchedFields(h: seq<byte>, a: bv64, b: bv64, c: bv64, d: bv64, e: bv64)
    requires |h| >= 48 && h[8..8 + |Longs([a, b, c, d, e])|] == Longs([a, b, c, d, e])
    ensures PatchedFields(h, a, b, c, d, e)
  {
    var values := [a, b, c, d, e];
    ReadLongField(h, 8, values, 0);
    ReadLongField(h, 8, values, 1);
    ReadLongField(h, 8, values, 2);
    ReadLongField(h, 8, values, 3);
    ReadLongField(h, 8, values, 4);
  }

  /** Where the fields of the header bytes sit. */
  lemma HeaderParts(startTicks: bv64, ticksFrequency: bv64, compressedInts: bool)
    ensures var h := HeaderBytes(startTicks, ticksFrequency, compressedInts);
      var values: seq<bv64> := [0, 0, 0, 0, 0, startTicks, ticksFrequency];
      && |h| == HEADER_SIZE && h[..4] == FILE_MAGIC
      && h[4..6] == Short(JFR_VERSION_MAJOR) && h[6..8] == Short(JFR_VERSION_MINOR)
      && 8 + |Longs(values)| == 64 && h[8..8 + |Longs(values)|] == Longs(values)
      && h[64..68] == Int(if compressedInts then 1 else 0)
  {
    var values: seq<bv64> := [0, 0, 0, 0, 0, startTicks, ticksFrequency];
    var h := HeaderBytes(startTicks, ticksFrequency, compressedInts);
    var flag: bv32 := if compressedInts then 1 else 0;
    assert h == FILE_MAGIC + Short(JFR_VERSION_MAJOR) + Short(JFR_VERSION_MINOR) + Longs(values) + Int(flag);
    assert h[64..68] == Int(flag);
  }

  /** The header bytes are what a reader expects of a fresh chunk. */
  lemma HeaderBytesRead(startTicks: bv64, ticksFrequency: bv64, compressedInts: bool)
    ensures FreshHeader(HeaderBytes(startTicks, ticksFrequency, compressedInts),
                        startTicks, ticksFrequency, compressedInts)
  {
    HeaderParts(startTicks, ticksFrequency, compressedInts);
    FieldsRead(HeaderBytes(startTicks, ticksFrequency, compressedInts), startTicks, ticksFrequency, compressedInts);
  }

  /** Header fields laid out in order read back as a fresh chunk's header. */
  lemma FieldsRead(h: seq<byte>, startTicks: bv64, ticksFrequency: bv64, compressedInts: bool)
    requires var values: seq<bv64> := [0, 0, 0, 0, 0, startTicks, ticksFrequency];
      && |h| == HEADER_SIZE && h[..4] == FILE_MAGIC
      && h[4..6] == Short(JFR_VERSION_MAJOR) && h[6..8] == Short(JFR_VERSION_MINOR)
      && 8 + |Longs(values)| == 64 && h[8..8 + |Longs(values)|] == Longs(values)
      && h[64..68] == Int(if compressedInts then 1 else 0)
    ensures FreshHeader(h, startTicks, ticksFrequency, compressedInts)
  {
    var flag: bv32 := if compressedInts then 1 else 0;
    var values: seq<bv64> := [0, 0, 0, 0, 0, startTicks, ticksFrequency];
    ShortRoundTrip(JFR_VERSION_MAJOR);
    ShortRoundTrip(JFR_VERSION_MINOR);
    ReadLongField(h, 8, values, 0);
    ReadLongField(h, 8, values, 1);
    ReadLongField(h, 8, values, 2);
    ReadLongField(h, 8, values, 3);
    ReadLongField(h, 8, values, 4);
    ReadLongField(h, 8, values, 5);
    ReadLongField(h, 8, values, 6);
    IntRoundTrip(flag);
  }

  /**
   * `openFile` on a file the system opens: it reports success, keeps the file name,
   * records the start time and ticks, and leaves a fresh header with the position
   * at its end.
   */
  lemma OpenFileWritesHeader(w: Writer, outputFile: string, nowNanos: bv64, nowTicks: bv64,
                             ticksFrequency: bv64)
    ensures OpenFile(w, outputFile, nowNanos, nowTicks, ticksFrequency, true).1
    ensures var r := OpenFile(w, outputFile, nowNanos, nowTicks, ticksFrequency, true).0;
      && r.filename == Some(outputFile)
      && r.chunkStartNanos == nowNanos && r.chunkStartTicks == nowTicks
      && r.compressedInts == w.compressedInts && r.notificationThreshold == w.notificationThreshold
      && AtEnd(r.fd)
      && FreshHeader(r.fd.file.bytes, nowTicks, ticksFrequency, w.compressedInts)
  {
    var w0 := w.(chunkStartNanos := nowNanos, chunkStartTicks := nowTicks,
                 filename := Some(outputFile), fd := Open(true));
    var h := HeaderBytes(nowTicks, ticksFrequency, w.compressedInts);
    HeaderAppends(w0, ticksFrequency);
    assert Grown(w0.fd, h).file.bytes == h;
    HeaderBytesRead(nowTicks, ticksFrequency, w.compressedInts);
  }

  /**
   * `maybeOpenFile` with a name set and a file the system accepts: the file is opened
   * afresh under the same name, holds just the header, and the chunk starts now.
   */
  lemma MaybeOpenFileReopens(w: Writer, nowNanos: bv64, nowTicks: bv64, ticksFrequency: bv64)
    requires HasOpenFile(w)
    ensures var r := MaybeOpenFile(w, nowNanos, nowTicks, ticksFrequency, true);
      && r.filename == w.filename
      && r.chunkStartNanos == nowNanos && r.chunkStartTicks == nowTicks
      && AtEnd(r.fd)
      && FreshHeader(r.fd.file.bytes, nowTicks, ticksFrequency, w.compressedInts)
  {
    OpenFileWritesHeader(w, w.filename.value, nowNanos, nowTicks, ticksFrequency);
  }

  /**
   * `openFile` when the system refuses the file: it reports failure, yet the name was
   * taken before the open, so the writer still claims an open file.
   */
  lemma OpenFileFailureKeepsName(w: Writer, outputFile: string, nowNanos: bv64, nowTicks: bv64,
                                 ticksFrequency: bv64)
    ensures !OpenFile(w, outputFile, nowNanos, nowTicks, ticksFrequency, false).1
    ensures var r := OpenFile(w, outputFile, nowNanos, nowTicks, ticksFrequency, false).0;
      HasOpenFile(r) && r.filename == Some(outputFile) && !r.fd.isOpen
  {
  }

  // ---------------------------------------------------------------------------
  // Patching the header

  /** The five header fields `patchFileHeader` fills in, as a reader sees them at offsets 8 to 47. */
  predicate PatchedFields(h: seq<byte>, chunkSize: bv64, checkpointPosition: bv64,
                          metadataPosition: bv64, startNanos: bv64, durationNanos: bv64)
    requires |h| >= 48
  {
    && ReadLong(h[8..16]) == chunkSize
    && ReadLong(h[16..24]) == checkpointPosition
    && ReadLong(h[24..32]) == metadataPosition
    && ReadLong(h[32..40]) == startNanos
    && ReadLong(h[40..48]) == durationNanos
  }

  /** A file whose header offsets 8 to 47 hold five long fields and whose other bytes are those of `b`. */
  function Patched(b: seq<byte>, chunkSize: bv64, checkpointPosition: bv64, metadataPosition: bv64,
                   startNanos: bv64, durationNanos: bv64): seq<byte>
    requires |b| >= 48
  {
    b[..8] + Longs([chunkSize, checkpointPosition, metadataPosition, startNanos, durationNanos]) + b[48..]
  }

  /**
   * A reader of a patched file finds the five fields at offsets 8 to 47, and every
   * other byte and the length as before.
   */
  lemma PatchedRead(b: seq<byte>, chunkSize: bv64, checkpointPosition: bv64, metadataPosition: bv64,
                    startNanos: bv64, durationNanos: bv64)
    requires |b| >= 48
    ensures var f := Patched(b, chunkSize, checkpointPosition, metadataPosition, startNanos, durationNanos);
      && |f| == |b| && f[..8] == b[..8] && f[48..] == b[48..]
      && PatchedFields(f, chunkSize, checkpointPosition, metadataPosition, startNanos, durationNanos)
  {
    var run := Longs([chunkSize, checkpointPosition, metadataPosition, startNanos, durationNanos]);
    var f := Patched(b, chunkSize, checkpointPosition, metadataPosition, startNanos, durationNanos);
    assert |run| == 40;
    assert f[8..8 + |run|] == run;
    ReadPatchedFields(f, chunkSize, checkpointPosition, metadataPosition, startNanos, durationNanos);
  }

  /**
   * `patchFileHeader` on a file that holds the header placeholders writes the chunk
   * size (the current position), the checkpoint and metadata offsets, the start time
   * and the duration over offsets 8 to 47, leaves the position after them, and
   * changes nothing else.
   */
  lemma PatchFileHeaderLayout(w: Writer, constantPoolPosition: nat, metadataPosition: nat, nowNanos: bv64)
    requires w.fd.isOpen && |w.fd.file.bytes| >= 48
    ensures PatchFileHeader(w, constantPoolPosition, metadataPosition, nowNanos) ==
            Success(w.(fd := Fd(File(Patched(w.fd.file.bytes, ToLong(w.fd.file.pos), ToLong(constantPoolPosition),
                                              ToLong(metadataPosition), w.chunkStartNanos,
                                              Elapsed(w.chunkStartNanos, nowNanos)), 48), true)))
  {
    var run := Longs([ToLong(w.fd.file.pos), ToLong(constantPoolPosition), ToLong(metadataPosition),
                      w.chunkStartNanos, Elapsed(w.chunkStartNanos, nowNanos)]);
    PatchWrites(w, constantPoolPosition, metadataPosition, nowNanos);
    assert |run| == 40;
    InPlace(w.fd.file.bytes, 8, run);
  }

  /** `patchFileHeader` is one write of five long fields at offset 8. */
  lemma PatchWrites(w: Writer, constantPoolPosition: nat, metadataPosition: nat, nowNanos: bv64)
    requires w.fd.isOpen && |w.fd.file.bytes| >= 48
    ensures var run := Longs([ToLong(w.fd.file.pos), ToLong(constantPoolPosition), ToLong(metadataPosition),
                              w.chunkStartNanos, Elapsed(w.chunkStartNanos, nowNanos)]);
      PatchFileHeader(w, constantPoolPosition, metadataPosition, nowNanos) ==
      Success(w.(fd := Fd(File(Overwrite(w.fd.file.bytes, 8, run), 48), true)))
  {
    var values := [ToLong(w.fd.file.pos), ToLong(constantPoolPosition), ToLong(metadataPosition),
                   w.chunkStartNanos, Elapsed(w.chunkStartNanos, nowNanos)];
    assert |Longs(values)| == 40;
    WriteLongsInside(w.fd.file.bytes, 8, values);
  }

  // ---------------------------------------------------------------------------
  // Buffers, strings and the close sequence

  /**
   * `write(buffer)` at the end of an open file appends the unflushed bytes and
   * reports a size past the threshold, which is then what `shouldRotateDisk` sees.
   */
  lemma WriteBufferAppends(w: Writer, unflushed: seq<byte>)
    requires AtEnd(w.fd) && |unflushed| > 0
    ensures ChunkWriter.Write(w, unflushed) ==
            (Appended(w, unflushed), |w.fd.file.bytes| + |unflushed| > w.notificationThreshold)
    ensures ShouldRotateDisk(ChunkWriter.Write(w, unflushed).0) <==> HasOpenFile(w) && ChunkWriter.Write(w, unflushed).1
  {
    AppendAtEnd(w.fd, unflushed);
  }

  /** `writeString` at the end of the file appends the string in the chunk format. */
  lemma WriteStringAppends(w: Writer, str: string)
    requires AtEnd(w.fd)
    ensures WriteString(w, str) == Success(Appended(w, EncodeString(str)))
  {
    var tag := UTF8_BYTE_ARRAY.ByteValue();
    if |str| == 0 {
      AppendBytes(w, [EMPTY_STRING.ByteValue()]);
    } else {
      var u := Text.Utf8(str);
      var len := Varint.EncodeInt(Varint.IntBits(|u|));
      AppendBytes(w, [tag]);
      AppendBytes(Appended(w, [tag]), len);
      AppendBytes(Appended(Appended(w, [tag]), len), u);
      AppendTwice(w, [tag], len);
      AppendTwice(w, [tag] + len, u);
    }
  }

  /** A byte length that the writer's `int` length field carries unchanged. */
  predicate LengthFits(n: nat) {
    LengthOf(Varint.UnsignedInt(Varint.IntBits(n))) == n
  }

  /**
   * A reader recovers the UTF-8 bytes of a string the writer encoded, and consumes
   * exactly the encoding, whatever follows it.
   */
  lemma StringRoundTrip(str: string, rest: seq<byte>)
    requires LengthFits(|Text.Utf8(str)|)
    ensures DecodeString(EncodeString(str) + rest) == Some((Text.Utf8(str), |EncodeString(str)|))
  {
    if |str| > 0 {
      Utf8StringDecodes(Text.Utf8(str), rest);
    } else {
      EmptyStringDecodes(rest);
    }
  }

  /** The empty string is its one tag byte. */
  lemma EmptyStringDecodes(rest: seq<byte>)
    ensures DecodeString([EMPTY_STRING.ByteValue()] + rest) == Some(([], 1))
  {
    assert ([EMPTY_STRING.ByteValue()] + rest)[0] == EMPTY_STRING.ByteValue();
  }

  /** UTF-8 bytes whose byte count survives the `int` length field decode to themselves. */
  lemma Utf8StringDecodes(u: seq<byte>, rest: seq<byte>)
    requires LengthFits(|u|)
    ensures DecodeString(EncodeUtf8(u) + rest) == Some((u, |EncodeUtf8(u)|))
  {
    var v := Varint.IntBits(|u|);
    EncodeUtf8Parts(u, rest);
    LengthFieldDecodes(v, u + rest);
    DecodeTagged(Varint.EncodeInt(v), u, rest, Varint.UnsignedInt(v));
  }

  /** A tagged string followed by other bytes, split into its parts. */
  lemma EncodeUtf8Parts(u: seq<byte>, rest: seq<byte>)
    ensures EncodeUtf8(u) + rest
        == [UTF8_BYTE_ARRAY.ByteValue()] + Varint.EncodeInt(Varint.IntBits(|u|)) + u + rest
  {
  }

  /** The compressed length field reads back as the unsigned value of the `int` written. */
  lemma LengthFieldDecodes(v: bv32, tail: seq<byte>)
    ensures Varint.Decode(Varint.EncodeInt(v) + tail) == Some((Varint.UnsignedInt(v), |Varint.EncodeInt(v)|))
  {
    Varint.EncodeProperties(Varint.UnsignedInt(v), tail);
  }

  /** The reader of a UTF-8 string whose length field decodes to the length of its bytes. */
  lemma DecodeTagged(len: seq<byte>, u: seq<byte>, rest: seq<byte>, length: bv64)
    requires Varint.Decode(len + (u + rest)) == Some((length, |len|)) && LengthOf(length) == |u|
    ensures DecodeString([UTF8_BYTE_ARRAY.ByteValue()] + len + u + rest) == Some((u, 1 + |len| + |u|))
  {
    TaggedParts(len, u, rest);
  }

  /** Where the parts of a tagged string sit. */
  lemma TaggedParts(len: seq<byte>, u: seq<byte>, rest: seq<byte>)
    ensures var s := [UTF8_BYTE_ARRAY.ByteValue()] + len + u + rest;
      && |s| >= 1 + |len| + |u| && s[0] == UTF8_BYTE_ARRAY.ByteValue()
      && s[1..] == len + (u + rest) && s[1 + |len|..1 + |len| + |u|] == u
  {
    var s := [UTF8_BYTE_ARRAY.ByteValue()] + len + u + rest;
    assert s[1..] == len + (u + rest);
    assert forall i :: 0 <= i < |u| ==> s[1 + |len|..1 + |len| + |u|][i] == u[i];
  }

  /**
   * A finished chunk: the header of `w`'s file patched with the file length, the two
   * event offsets, the start time and the elapsed time, and the descriptor closed.
   */
  function Closed(w: Writer, checkpointPosition: nat, metadataPosition: nat, nowNanos: bv64): Writer
    requires |w.fd.file.bytes| >= HEADER_SIZE
  {
    var b := w.fd.file.bytes;
    w.(fd := Fd(File(Patched(b, ToLong(|b|), ToLong(checkpointPosition), ToLong(metadataPosition),
                             w.chunkStartNanos, Elapsed(w.chunkStartNanos, nowNanos)), 48), false))
  }

  /**
   * The close sequence on an open chunk appends the checkpoint event, then the
   * metadata event, patches the header with the final size and the offsets of the
   * two events, and closes the file.
   */
  lemma CloseSequenceLayout(w: Writer, metadataDescriptor: seq<byte>, serializers: seq<ConstantPool>,
                            repositories: seq<ConstantPool>, checkpointTicks: bv64,
                            metadataTicks: bv64, nowNanos: bv64, pad: PaddedInt)
    requires AtEnd(w.fd) && |w.fd.file.bytes| >= HEADER_SIZE
    ensures var w1 := Appended(w, Frame(CheckpointBody(checkpointTicks, serializers, repositories), pad));
      var w2 := Appended(w1, Frame(MetadataBody(metadataTicks, metadataDescriptor), pad));
      CloseSequence(w, metadataDescriptor, serializers, repositories, checkpointTicks,
                    metadataTicks, nowNanos, pad) ==
      Success(Closed(w2, |w.fd.file.bytes|, |w1.fd.file.bytes|, nowNanos))
  {
    var w1 := Appended(w, Frame(CheckpointBody(checkpointTicks, serializers, repositories), pad));
    var w2 := Appended(w1, Frame(MetadataBody(metadataTicks, metadataDescriptor), pad));
    CheckpointLayout(w, serializers, repositories, checkpointTicks, pad);
    MetadataLayout(w1, metadataDescriptor, metadataTicks, pad);
    CloseAfterEvents(w, metadataDescriptor, serializers, repositories, checkpointTicks,
                     metadataTicks, nowNanos, pad, w1, |w.fd.file.bytes|, w2, |w1.fd.file.bytes|);
  }

  /** The close sequence once the two events have been written. */
  lemma CloseAfterEvents(w: Writer, metadataDescriptor: seq<byte>, serializers: seq<ConstantPool>,
                         repositories: seq<ConstantPool>, checkpointTicks: bv64,
                         metadataTicks: bv64, nowNanos: bv64, pad: PaddedInt,
                         w1: Writer, checkpointPosition: nat, w2: Writer, metadataPosition: nat)
    requires WriteCheckpointEvent(w, serializers, repositories, checkpointTicks, pad) ==
             Success((w1, checkpointPosition))
    requires WriteMetadataEvent(w1, metadataDescriptor, metadataTicks, pad) == Success((w2, metadataPosition))
    requires AtEnd(w2.fd) && |w2.fd.file.bytes| >= HEADER_SIZE
    ensures CloseSequence(w, metadataDescriptor, serializers, repositories, checkpointTicks,
                          metadataTicks, nowNanos, pad) ==
            Success(Closed(w2, checkpointPosition, metadataPosition, nowNanos))
  {
    PatchFileHeaderLayout(w2, checkpointPosition, metadataPosition, nowNanos);
    var w3 := Closed(w2, checkpointPosition, metadataPosition, nowNanos).(fd := Fd(Closed(w2, checkpointPosition, metadataPosition, nowNanos).fd.file, true));
    CloseSequenceSteps(w, metadataDescriptor, serializers, repositories, checkpointTicks,
                       metadataTicks, nowNanos, pad, w1, checkpointPosition, w2, metadataPosition, w3);
  }

  /** The close sequence is its four steps, each one succeeding. */
  lemma CloseSequenceSteps(w: Writer, metadataDescriptor: seq<byte>, serializers: seq<ConstantPool>,
                           repositories: seq<ConstantPool>, checkpointTicks: bv64,
                           metadataTicks: bv64, nowNanos: bv64, pad: PaddedInt,
                           w1: Writer, checkpointPosition: nat, w2: Writer, metadataPosition: nat, w3: Writer)
    requires WriteCheckpointEvent(w, serializers, repositories, checkpointTicks, pad) ==
             Success((w1, checkpointPosition))
    requires WriteMetadataEvent(w1, metadataDescriptor, metadataTicks, pad) == Success((w2, metadataPosition))
    requires PatchFileHeader(w2, checkpointPosition, metadataPosition, nowNanos) == Success(w3)
    requires w3.fd.isOpen
    ensures CloseSequence(w, metadataDescriptor, serializers, repositories, checkpointTicks,
                          metadataTicks, nowNanos, pad) == Success(w3.(fd := Fd(w3.fd.file, false)))
  {
  }

  /**
   * `operate` on an open chunk leaves the file the close sequence produced, a closed
   * descriptor and no file name.
   */
  lemma OperateLayout(w: Writer, metadataDescriptor: seq<byte>, serializers: seq<ConstantPool>,
                      repositories: seq<ConstantPool>, checkpointTicks: bv64,
                      metadataTicks: bv64, nowNanos: bv64, pad: PaddedInt)
    requires AtEnd(w.fd) && |w.fd.file.bytes| >= HEADER_SIZE
    ensures var w1 := Appended(w, Frame(CheckpointBody(checkpointTicks, serializers, repositories), pad));
      var w2 := Appended(w1, Frame(MetadataBody(metadataTicks, metadataDescriptor), pad));
      Operate(w, metadataDescriptor, serializers, repositories, checkpointTicks, metadataTicks, nowNanos, pad) ==
      Closed(w2, |w.fd.file.bytes|, |w1.fd.file.bytes|, nowNanos).(filename := None)
  {
    CloseSequenceLayout(w, metadataDescriptor, serializers, repositories, checkpointTicks,
                        metadataTicks, nowNanos, pad);
  }

  /**
   * The chunk after the close: the size field holds the file length, the offset
   * fields point at the two events, and every byte outside offsets 8 to 47 is the
   * one that was written before.
   */
  lemma ClosedChunk(w: Writer, checkpointPosition: nat, metadataPosition: nat, nowNanos: bv64)
    requires |w.fd.file.bytes| >= HEADER_SIZE
    ensures var b := w.fd.file.bytes;
      var f := Closed(w, checkpointPosition, metadataPosition, nowNanos).fd.file.bytes;
      && |f| == |b| && f[..8] == b[..8] && f[48..] == b[48..]
      && PatchedFields(f, ToLong(|b|), ToLong(checkpointPosition), ToLong(metadataPosition),
                       w.chunkStartNanos, Elapsed(w.chunkStartNanos, nowNanos))
  {
    var b := w.fd.file.bytes;
    PatchedRead(b, ToLong(|b|), ToLong(checkpointPosition), ToLong(metadataPosition),
                w.chunkStartNanos, Elapsed(w.chunkStartNanos, nowNanos));
  }

  /** `operate` on a descriptor that is not open only clears the file name. */
  lemma OperateOnClosedFile(w: Writer, metadataDescriptor: seq<byte>, serializers: seq<ConstantPool>,
                            repositories: seq<ConstantPool>, checkpointTicks: bv64,
                            metadataTicks: bv64, nowNanos: bv64, pad: PaddedInt)
    requires !w.fd.isOpen
    ensures Operate(w, metadataDescriptor, serializers, repositories, checkpointTicks,
                    metadataTicks, nowNanos, pad) == w.(filename := None)
  {
  }
}

=== FILE: chunkwriter.dfy ===
/**
 * The chunk writer: the only component that appends to a chunk file. It writes the
 * fixed 68-byte header, frames events with a size field patched after the payload,
 * serializes compressed integers and strings, and closes a chunk with a checkpoint
 * event, a metadata event and a patched header.
 *
 * The lock, the safepoint operation that runs the close sequence and the clocks are
 * not modelled: times and ticks are parameters, and `makePaddedInt` is the
 * parameter `pad`.
 */
module ChunkWriter {
  import opened Bytes
  import opened Wrappers
  import opened RawFile
  import Varint
  import Text

  const FILE_MAGIC: seq<byte> := [0x46, 0x4C, 0x52, 0x00]
  const JFR_VERSION_MAJOR: bv16 := 2
  const JFR_VERSION_MINOR: bv16 := 0
  const CHUNK_SIZE_OFFSET: nat := 8

  /** Offset of the first byte after the header. */
  const HEADER_SIZE: nat := 68

  /** Ids of the two events the writer frames itself. */
  const METADATA_EVENT_ID: bv64 := 0
  const CHECKPOINT_EVENT_ID: bv64 := 1

  /** The tag byte that starts a serialized string. */
  datatype StringEncoding =
    | NULL | EMPTY_STRING | CONSTANT_POOL | UTF8_BYTE_ARRAY | CHAR_ARRAY | LATIN1_BYTE_ARRAY
  {
    function ByteValue(): byte {
      match this
      case NULL => 0
      case EMPTY_STRING => 1
      case CONSTANT_POOL => 2
      case UTF8_BYTE_ARRAY => 3
      case CHAR_ARRAY => 4
      case LATIN1_BYTE_ARRAY => 5
    }
  }

  /** `makePaddedInt`: the size field an event's frame stores for a given size. */
  type PaddedInt = int -> bv32

  /**
   * A serializer or repository as the checkpoint event sees it: whether it has items
   * and the bytes its `write` appends.
   */
  datatype ConstantPool = ConstantPool(hasItems: bool, payload: seq<byte>)

  /** The writer's state. `filename` is Some exactly when `hasOpenFile` holds. */
  datatype Writer = Writer(
    compressedInts: bool,
    notificationThreshold: int,
    filename: Option<string>,
    fd: Fd,
    chunkStartTicks: bv64,
    chunkStartNanos: bv64)

  /** The image-build-time constructor: compressed integers on, no file. */
  function NewWriter(): (w: Writer)
    ensures w.compressedInts && !HasOpenFile(w) && !w.fd.isOpen
  {
    Writer(true, 0, None, Open(false), 0, 0)
  }

  /** `initialize(maxChunkSize)`: the size past which `write` asks for a rotation. */
  function Initialize(w: Writer, maxChunkSize: int): (r: Writer)
    ensures r.notificationThreshold == maxChunkSize
    ensures r.compressedInts == w.compressedInts && r.filename == w.filename && r.fd == w.fd
    ensures r.chunkStartTicks == w.chunkStartTicks && r.chunkStartNanos == w.chunkStartNanos
    ensures ShouldRotateDisk(r) <==> w.filename.Some? && Size(w.fd) > maxChunkSize
  {
    w.(notificationThreshold := maxChunkSize)
  }

  predicate HasOpenFile(w: Writer) {
    w.filename.Some?
  }

  /** `setFilename`: takes the name and touches nothing else, not even the descriptor. */
  function SetFilename(w: Writer, filename: Option<string>): (r: Writer)
    ensures HasOpenFile(r) <==> filename.Some?
    ensures r.filename == filename
    ensures r.fd == w.fd && r.compressedInts == w.compressedInts
    ensures r.notificationThreshold == w.notificationThreshold
    ensures r.chunkStartTicks == w.chunkStartTicks && r.chunkStartNanos == w.chunkStartNanos
  {
    w.(filename := filename)
  }

  /** Replaces the descriptor by the outcome of a file operation. */
  function WithFd(w: Writer, r: Result<Fd, IoError>): Result<Writer, IoError> {
    match r
    case Success(fd) => Success(w.(fd := fd))
    case Failure(e) => Failure(e)
  }

  function WriteByte(w: Writer, value: byte): Result<Writer, IoError> {
    WithFd(w, RawFile.Write(w.fd, [value]))
  }

  function WriteBytes(w: Writer, values: seq<byte>): Result<Writer, IoError> {
    WithFd(w, RawFile.Write(w.fd, values))
  }

  function WriteCompressedLong(w: Writer, value: bv64): Result<Writer, IoError> {
    WriteBytes(w, Varint.Encode(value))
  }

  /** Consecutive `writeCompressedLong` calls, one per value, in order. */
  function WriteCompressedLongs(w: Writer, values: seq<bv64>): Result<Writer, IoError>
    decreases |values|
  {
    if |values| == 0 then Success(w)
    else
      var w0 :- WriteCompressedLong(w, values[0]);
      WriteCompressedLongs(w0, values[1..])
  }

  function WriteCompressedInt(w: Writer, value: bv32): Result<Writer, IoError> {
    WriteBytes(w, Varint.EncodeInt(value))
  }

  function WriteBoolean(w: Writer, value: bool): Result<Writer, IoError> {
    WriteBytes(w, Varint.EncodeBoolean(value))
  }

  /** `writeString`: the empty-string tag, or the UTF-8 tag, the compressed byte length and the bytes. */
  function WriteString(w: Writer, str: string): Result<Writer, IoError> {
    if |str| == 0 then
      WriteByte(w, EMPTY_STRING.ByteValue())
    else
      var w0 :- WriteByte(w, UTF8_BYTE_ARRAY.ByteValue());
      var bytes := Text.Utf8(str);
      var w1 :- WriteCompressedInt(w0, Varint.IntBits(|bytes|));
      WriteBytes(w1, bytes)
  }

  /** `writeFileHeader`: magic, versions, five zero placeholders, start ticks, frequency, flags. */
  function WriteFileHeader(w: Writer, ticksFrequency: bv64): Result<Writer, IoError> {
    var fd0 :- RawFile.Write(w.fd, FILE_MAGIC);
    var fd1 :- WriteShort(fd0, JFR_VERSION_MAJOR);
    var fd2 :- WriteShort(fd1, JFR_VERSION_MINOR);
    var fd3 :- WriteLongs(fd2, [0, 0, 0, 0, 0, w.chunkStartTicks, ticksFrequency]);
    var fd4 :- WriteInt(fd3, if w.compressedInts then 1 else 0);
    Success(w.(fd := fd4))
  }

  /**
   * `openFile`: records the start time and ticks, takes the file name, opens the file
   * and writes the header. The name is set before the open, so it stays set when the
   * open fails.
   */
  function OpenFile(w: Writer, outputFile: string, nowNanos: bv64, nowTicks: bv64,
                    ticksFrequency: bv64, openSucceeds: bool): (Writer, bool)
  {
    var w0 := w.(chunkStartNanos := nowNanos, chunkStartTicks := nowTicks,
                 filename := Some(outputFile), fd := Open(openSucceeds));
    match WriteFileHeader(w0, ticksFrequency)
    case Success(w1) => (w1, true)
    case Failure(_) => (w0, false)
  }

  /** `maybeOpenFile`: reopens the file under the current name, if there is one. */
  function MaybeOpenFile(w: Writer, nowNanos: bv64, nowTicks: bv64, ticksFrequency: bv64,
                         openSucceeds: bool): (r: Writer)
    ensures !HasOpenFile(w) ==> r == w
    ensures HasOpenFile(w) ==> HasOpenFile(r) && r.filename == w.filename
  {
    if w.filename.Some? then
      OpenFile(w, w.filename.value, nowNanos, nowTicks, ticksFrequency, openSucceeds).0
    else w
  }

  /**
   * `write(buffer)`: appends a buffer's unflushed bytes and reports whether the file
   * has grown past the notification threshold. Nothing is written for an empty
   * buffer, and a failed write reports false.
   */
  function Write(w: Writer, unflushed: seq<byte>): (r: (Writer, bool))
    ensures |unflushed| == 0 || !w.fd.isOpen ==> r == (w, false)
    ensures r.1 ==> r.0.fd.file.pos > w.notificationThreshold
    ensures r.0.filename == w.filename && r.0.notificationThreshold == w.notificationThreshold
  {
    if |unflushed| == 0 then (w, false)
    else match RawFile.Write(w.fd, unflushed)
      case Failure(_) => (w, false)
      case Success(fd) => (w.(fd := fd), fd.file.pos > w.notificationThreshold)
  }

  /**
   * `shouldRotateDisk`: the writer has a file name and the file has grown past the
   * threshold. A descriptor that is not open reports size -1.
   */
  function ShouldRotateDisk(w: Writer): (r: bool)
    ensures w.fd.isOpen ==> (r <==> w.filename.Some? && |w.fd.file.bytes| > w.notificationThreshold)
    ensures !w.fd.isOpen ==> (r <==> w.filename.Some? && w.notificationThreshold < -1)
  {
    w.filename.Some? && Size(w.fd) > w.notificationThreshold
  }

  /** `beginEvent`: the event's start offset, after a four-byte placeholder for its size. */
  function BeginEvent(w: Writer): Result<(Writer, nat), IoError> {
    var start :- Position(w.fd);
    var fd0 :- WriteInt(w.fd, 0);
    Success((w.(fd := fd0), start))
  }

  /** `endEvent(start)`: stores the padded size of the event at `start` and returns to the end. */
  function EndEvent(w: Writer, start: nat, pad: PaddedInt): Result<Writer, IoError> {
    var end :- Position(w.fd);
    var writtenBytes := end - start;
    var fd0 :- Seek(w.fd, start);
    var fd1 :- WriteInt(fd0, pad(writtenBytes));
    var fd2 :- Seek(fd1, end);
    Success(w.(fd := fd2))
  }

  /** A Java `long` difference of two nanosecond readings: wraps around like Java's 64-bit subtraction. */
  function Elapsed(startNanos: bv64, nowNanos: bv64): bv64 {
    nowNanos - startNanos
  }

  /** `patchFileHeader`: chunk size, checkpoint and metadata offsets, start time and duration at offset 8. */
  function PatchFileHeader(w: Writer, constantPoolPosition: nat, metadataPosition: nat,
                           nowNanos: bv64): Result<Writer, IoError> {
    var chunkSize :- Position(w.fd);
    var durationNanos := Elapsed(w.chunkStartNanos, nowNanos);
    var fd0 :- Seek(w.fd, CHUNK_SIZE_OFFSET);
    var fd1 :- WriteLongs(fd0, [ToLong(chunkSize), ToLong(constantPoolPosition),
                                ToLong(metadataPosition), w.chunkStartNanos, durationNanos]);
    Success(w.(fd := fd1))
  }

  /**
   * The pools that have items, in array order: every pool kept has items, every pool
   * with items is kept, as many as the counting loop counts, and their payloads in
   * the order the writing loops write them.
   */
  function WithItems(pools: seq<ConstantPool>): (r: seq<ConstantPool>)
    ensures |r| <= |pools|
    ensures forall i :: 0 <= i < |r| ==> r[i].hasItems
    ensures forall p :: p in r ==> p in pools
    ensures forall p :: p in pools && p.hasItems ==> p in r
    ensures |r| == CountWithItems(pools)
    ensures Payloads(r) == Payloads(pools)
    decreases |pools|
  {
    if |pools| == 0 then []
    else
      var rest := WithItems(pools[1..]);
      if pools[0].hasItems then
        assert ([pools[0]] + rest)[1..] == rest;
        [pools[0]] + rest
      else
        rest
  }

  /** The counting loop of `writeCheckpointEvent`: one per pool that has items. */
  function CountWithItems(pools: seq<ConstantPool>): nat {
    if |pools| == 0 then 0
    else (if pools[0].hasItems then 1 else 0) + CountWithItems(pools[1..])
  }

  /** `writeSerializers` / `writeRepositories`: each pool with items writes itself, in array order. */
  function WritePools(w: Writer, pools: seq<ConstantPool>): Result<Writer, IoError>
    decreases |pools|
  {
    if |pools| == 0 then Success(w)
    else
      var w0 :- if pools[0].hasItems then WriteBytes(w, pools[0].payload) else Success(w);
      WritePools(w0, pools[1..])
  }

  /** The payloads of the pools that have items, concatenated in order. */
  function Payloads(pools: seq<ConstantPool>): seq<byte> {
    if |pools| == 0 then []
    else (if pools[0].hasItems then pools[0].payload else []) + Payloads(pools[1..])
  }

  /** The fields every event written here starts with: id, start ticks, zero duration, zero delta. */
  function WriteEventFields(w: Writer, eventId: bv64, nowTicks: bv64): Result<Writer, IoError> {
    WriteCompressedLongs(w, [eventId, nowTicks, 0, 0])
  }

  /**
   * `writeCheckpointEvent`: a framed event with the checkpoint id, the ticks, zero
   * duration, zero delta, the flush flag, the number of pools with items, then the
   * serializers' and the repositories' contents. Returns the event's start offset.
   */
  function WriteCheckpointEvent(w: Writer, serializers: seq<ConstantPool>,
                                repositories: seq<ConstantPool>, nowTicks: bv64,
                                pad: PaddedInt): Result<(Writer, nat), IoError> {
    var begun :- BeginEvent(w);
    var w8 :- WriteCheckpointContents(begun.0, serializers, repositories, nowTicks);
    var w9 :- EndEvent(w8, begun.1, pad);
    Success((w9, begun.1))
  }

  /** What `writeCheckpointEvent` writes between `beginEvent` and `endEvent`. */
  function WriteCheckpointContents(w: Writer, serializers: seq<ConstantPool>,
                                   repositories: seq<ConstantPool>, nowTicks: bv64): Result<Writer, IoError> {
    var w4 :- WriteEventFields(w, CHECKPOINT_EVENT_ID, nowTicks);
    var w5 :- WriteBoolean(w4, true);
    var count := CountWithItems(serializers) + CountWithItems(repositories);
    var w6 :- WriteCompressedInt(w5, Varint.IntBits(count));
    var w7 :- WritePools(w6, serializers);
    WritePools(w7, repositories)
  }

  /** `writeMetadataEvent`: a framed event with the metadata id, the ticks, two zeros and the descriptor. */
  function WriteMetadataEvent(w: Writer, metadataDescriptor: seq<byte>, nowTicks: bv64,
                              pad: PaddedInt): Result<(Writer, nat), IoError> {
    var begun :- BeginEvent(w);
    var w4 :- WriteEventFields(begun.0, METADATA_EVENT_ID, nowTicks);
    var w5 :- WriteBytes(w4, metadataDescriptor);
    var w6 :- EndEvent(w5, begun.1, pad);
    Success((w6, begun.1))
  }

  /** `close`: closes the descriptor; the file name is cleared whether or not that succeeds. */
  function Close(w: Writer): (r: (Writer, bool))
    ensures !HasOpenFile(r.0)
    ensures r.1 <==> w.fd.isOpen
    ensures !r.0.fd.isOpen && r.0.fd.file == w.fd.file
  {
    match RawFile.Close(w.fd)
    case Success(fd) => (w.(fd := fd, filename := None), true)
    case Failure(_) => (w.(filename := None), false)
  }

  /** The `try` block of the close operation: checkpoint, metadata, header patch, close. */
  function CloseSequence(w: Writer, metadataDescriptor: seq<byte>, serializers: seq<ConstantPool>,
                         repositories: seq<ConstantPool>, checkpointTicks: bv64,
                         metadataTicks: bv64, nowNanos: bv64, pad: PaddedInt): Result<Writer, IoError> {
    var checkpoint :- WriteCheckpointEvent(w, serializers, repositories, checkpointTicks, pad);
    var metadata :- WriteMetadataEvent(checkpoint.0, metadataDescriptor, metadataTicks, pad);
    var w3 :- PatchFileHeader(metadata.0, checkpoint.1, metadata.1, nowNanos);
    var fd :- RawFile.Close(w3.fd);
    Success(w3.(fd := fd))
  }

  /**
   * `JfrCloseFileOperation.operate`: the epoch change is empty, an I/O failure is
   * logged, and the file name is cleared in every case.
   */
  function Operate(w: Writer, metadataDescriptor: seq<byte>, serializers: seq<ConstantPool>,
                   repositories: seq<ConstantPool>, checkpointTicks: bv64, metadataTicks: bv64,
                   nowNanos: bv64, pad: PaddedInt): (r: Writer)
    ensures !HasOpenFile(r)
  {
    match CloseSequence(w, metadataDescriptor, serializers, repositories, checkpointTicks,
                        metadataTicks, nowNanos, pad)
    case Success(w1) => w1.(filename := None)
    case Failure(_) => w.(filename := None)
  }
}

=== FILE: loadbarrier.dfy ===
/**
 * The load barrier: the first load of a class in an epoch tags the class with the
 * epoch's bit and counts it; at a chunk boundary the classes of an epoch are visited,
 * their epoch bit cleared, and the visit count compared with the counter.
 *
 * The heap's class list is a sequence of class indices into the trace-id map. The
 * two atomic counters are natural numbers.
 */
module LoadBarrier {
  import opened TraceId

  /** The trace-id map and the two per-epoch class counters. */
  datatype Barrier = Barrier(ids: Ids, classCount0: nat, classCount1: nat)

  /** No class appears twice in the list. */
  predicate Distinct(classes: seq<int>) {
    forall i, j :: 0 <= i < j < |classes| ==> classes[i] != classes[j]
  }

  /** Every class of the list has a word in the map. */
  predicate AllIn(ids: Ids, classes: seq<int>) {
    forall c :: c in classes ==> c in ids
  }

  // ---------------------------------------------------------------------------
  // Counters

  /** `classCount(epoch)`. */
  function ClassCount(st: Barrier, e: bool): nat {
    if e then st.classCount1 else st.classCount0
  }

  /** `increaseClassCount(epoch)`: one more class for epoch `e`, the other counter unchanged. */
  function IncreaseClassCount(st: Barrier, e: bool): (r: Barrier)
    ensures ClassCount(r, e) == ClassCount(st, e) + 1
    ensures ClassCount(r, !e) == ClassCount(st, !e)
    ensures r.ids == st.ids
  {
    if e then st.(classCount1 := st.classCount1 + 1) else st.(classCount0 := st.classCount0 + 1)
  }

  /** `clear(epoch)`: the counter of epoch `e` goes back to zero, the other is unchanged. */
  function Clear(st: Barrier, e: bool): (r: Barrier)
    ensures ClassCount(r, e) == 0
    ensures ClassCount(r, !e) == ClassCount(st, !e)
    ensures r.ids == st.ids
  {
    if e then st.(classCount1 := 0) else st.(classCount0 := 0)
  }

  // ---------------------------------------------------------------------------
  // Loading

  /**
   * `isNotTagged(value)`: the word does not read "epoch bit set, its meta bit clear"
   * for the current epoch's bit.
   */
  predicate IsNotTagged(w: bv64, thisEpochBit: bv64) {
    w & ((thisEpochBit << META_SHIFT) | thisEpochBit) != thisEpochBit
  }

  /** The meta copy of tag bit `b` is clear in the word. */
  predicate MetaClear(w: bv64, b: bv64) {
    w & (b << META_SHIFT) == 0
  }

  /** `shouldTag(clazz)`. */
  predicate ShouldTag(st: Barrier, c: int, epoch: Epoch)
    requires c in st.ids
  {
    IsNotTagged(st.ids[c], epoch.ThisEpochBit())
  }

  /**
   * `load(clazz)`: a class that should be tagged is tagged with the current epoch and
   * counted for it; the result is the class's trace id.
   */
  function Load(st: Barrier, c: int, epoch: Epoch): (r: (Barrier, bv64))
    requires c in st.ids
    ensures r.0.ids.Keys == st.ids.Keys
    ensures forall d :: d in st.ids && d != c ==> r.0.ids[d] == st.ids[d]
    ensures ClassCount(r.0, !epoch.current) == ClassCount(st, !epoch.current)
    ensures ShouldTag(st, c, epoch) ==> ClassCount(r.0, epoch.current) == ClassCount(st, epoch.current) + 1
    ensures !ShouldTag(st, c, epoch) ==> r.0 == st
  {
    var st1 :=
      if ShouldTag(st, c, epoch)
      then IncreaseClassCount(st.(ids := SetUsedThisEpoch(st.ids, c, epoch)), epoch.current)
      else st;
    (st1, GetTraceId(st1.ids, c))
  }

  /**
   * After a load the class is used in this epoch, which is what the method asserts,
   * and the id returned is the class's trace id from before the load.
   */
  lemma LoadMarksUsed(st: Barrier, c: int, epoch: Epoch)
    requires c in st.ids && ValidEpoch(epoch)
    ensures IsUsedThisEpoch(Load(st, c, epoch).0.ids, c, epoch)
    ensures Load(st, c, epoch).1 == GetTraceId(st.ids, c)
  {
    var b := epoch.ThisEpochBit();
    if ShouldTag(st, c, epoch) {
      SetMakesUsed(st.ids, c, epoch);
    } else {
      TaggedSharesBit(st.ids[c], b);
      SharesUnion(st.ids[c], TRANSIENT_BIT, b);
    }
  }

  /**
   * While the meta bit of the current epoch is clear, a second load of the same class
   * changes nothing: the class is counted once per epoch.
   */
  lemma LoadTwice(st: Barrier, c: int, epoch: Epoch)
    requires c in st.ids && ValidEpoch(epoch)
    requires MetaClear(st.ids[c], epoch.ThisEpochBit())
    ensures Load(Load(st, c, epoch).0, c, epoch).0 == Load(st, c, epoch).0
  {
    var b := epoch.ThisEpochBit();
    var w := st.ids[c];
    if ShouldTag(st, c, epoch) {
      var st1 := Load(st, c, epoch).0;
      assert st1.ids[c] == TagWord(w, b);
      TagOwnBit(w, b);
      TagMetaClear(w, b, b);
      NotTaggedIff(TagWord(w, b), b);
      assert !ShouldTag(st1, c, epoch);
    }
  }

  /** With the meta bit set the class never reads as tagged, and every load counts it again. */
  lemma LoadWithMetaBitCounts(st: Barrier, c: int, epoch: Epoch)
    requires c in st.ids && ValidEpoch(epoch)
    requires !MetaClear(st.ids[c], epoch.ThisEpochBit())
    ensures ClassCount(Load(st, c, epoch).0, epoch.current) == ClassCount(st, epoch.current) + 1
  {
    MetaSetNotTagged(st.ids[c], epoch.ThisEpochBit());
  }

  // ---------------------------------------------------------------------------
  // Visiting the classes of an epoch

  /** The word matches `bits`: the test `predicate(clazz, bits)` makes, as a function of the word. */
  function Tagged(bits: bv64): bv64 -> bool {
    w => Shares(w, bits)
  }

  /** Clearing `bit`, as a function of the word. */
  function Cleared(bit: bv64): bv64 -> bv64 {
    w => ClearWord(w, bit)
  }

  /** The classes of the list, in order, whose word satisfies `p`. */
  function Used(ids: Ids, classes: seq<int>, p: bv64 -> bool): (r: seq<int>)
    requires AllIn(ids, classes)
    ensures |r| <= |classes|
    ensures forall c :: c in r ==> c in classes
  {
    if |classes| == 0 then []
    else
      var last := classes[|classes| - 1];
      Used(ids, classes[..|classes| - 1], p) + (if p(ids[last]) then [last] else [])
  }

  /**
   * A walk over the class list in order: a class whose word (as the walk has left it
   * so far) satisfies `matches` is accepted and its word replaced by `clear` of it. The
   * result is the accepted classes, in order, and the new map.
   */
  function Visit(ids: Ids, classes: seq<int>, matches: bv64 -> bool, clear: bv64 -> bv64): (r: (seq<int>, Ids))
    requires AllIn(ids, classes)
    ensures r.1.Keys == ids.Keys
  {
    if |classes| == 0 then ([], ids)
    else
      var prev := Visit(ids, classes[..|classes| - 1], matches, clear);
      var c := classes[|classes| - 1];
      if matches(prev.1[c]) then (prev.0 + [c], prev.1[c := clear(prev.1[c])]) else prev
  }

  /**
   * What `doClasses(kc, e)` does: the walk that accepts classes matching the transient
   * bit or the bit of epoch `e` and clears the bit of epoch `e` in each.
   */
  function VisitEpoch(ids: Ids, classes: seq<int>, epoch: Epoch, e: bool): (r: (seq<int>, Ids))
    requires AllIn(ids, classes)
    ensures r.1.Keys == ids.Keys
  {
    Visit(ids, classes, Tagged(TRANSIENT_BIT | epoch.Bit(e)), Cleared(epoch.Bit(e)))
  }

  /**
   * `doClasses(kc, e)`: visits the class list in order, hands every matching class to
   * the consumer, clears its epoch bit and counts it. `accepted` is the sequence of
   * classes handed to the consumer; `countMatches` is the condition the method asserts
   * at the end, that the count equals `classCount(e)`.
   */
  method DoClasses(st: Barrier, classes: seq<int>, epoch: Epoch, e: bool)
    returns (accepted: seq<int>, ids: Ids, countMatches: bool)
    requires AllIn(st.ids, classes)
    ensures (accepted, ids) == VisitEpoch(st.ids, classes, epoch, e)
    ensures countMatches <==> |accepted| == ClassCount(st, e)
  {
    var mask := TRANSIENT_BIT | epoch.Bit(e);
    var usedClassCount := 0;
    accepted := [];
    ids := st.ids;
    var i := 0;
    while i < |classes|
      invariant 0 <= i <= |classes|
      invariant (accepted, ids) == Visit(st.ids, classes[..i], Tagged(mask), Cleared(epoch.Bit(e)))
      invariant usedClassCount == |accepted|
    {
      assert classes[..i + 1][..i] == classes[..i];
      var c := classes[i];
      if Predicate(ids, c, mask) {
        accepted := accepted + [c];
        usedClassCount := usedClassCount + 1;
        ids := ClearUsedThisEpoch(ids, c, epoch, e);
      }
      i := i + 1;
    }
    assert classes[..i] == classes;
    countMatches := usedClassCount == ClassCount(st, e);
  }

  /** A walk touches only the listed classes. */
  lemma {:induction false} VisitFrame(ids: Ids, classes: seq<int>, matches: bv64 -> bool, clear: bv64 -> bv64)
    requires AllIn(ids, classes)
    ensures forall d :: d in ids && d !in classes ==> Visit(ids, classes, matches, clear).1[d] == ids[d]
  {
    if |classes| > 0 {
      var front := classes[..|classes| - 1];
      assert forall d :: d in front ==> d in classes;
      VisitFrame(ids, front, matches, clear);
    }
  }

  /**
   * A walk over a list without repeats accepts exactly the classes whose word matched
   * before the walk, in list order: changing one class never changes whether a later
   * one matches.
   */
  lemma {:induction false} VisitAccepts(ids: Ids, classes: seq<int>, matches: bv64 -> bool, clear: bv64 -> bv64)
    requires AllIn(ids, classes) && Distinct(classes)
    ensures Visit(ids, classes, matches, clear).0 == Used(ids, classes, matches)
  {
    if |classes| > 0 {
      var front := classes[..|classes| - 1];
      assert Distinct(front);
      VisitAccepts(ids, front, matches, clear);
      VisitFrame(ids, front, matches, clear);
      assert classes[|classes| - 1] !in front;
    }
  }

  /**
   * After a walk over a list without repeats, each listed class holds `clear` of its
   * old word if that word matched, and its old word otherwise.
   */
  lemma {:induction false} VisitWords(ids: Ids, classes: seq<int>, matches: bv64 -> bool, clear: bv64 -> bv64)
    requires AllIn(ids, classes) && Distinct(classes)
    ensures forall c :: c in classes ==>
      Visit(ids, classes, matches, clear).1[c] == if matches(ids[c]) then clear(ids[c]) else ids[c]
  {
    if |classes| > 0 {
      var front := classes[..|classes| - 1];
      var c := classes[|classes| - 1];
      assert Distinct(front);
      VisitWords(ids, front, matches, clear);
      VisitFrame(ids, front, matches, clear);
      assert c !in front;
      forall d | d in classes
        ensures Visit(ids, classes, matches, clear).1[d] == if matches(ids[d]) then clear(ids[d]) else ids[d]
      {
        if d != c {
          assert d in front;
        }
      }
    }
  }

  /**
   * How one class's word `after` relates to its word `before` a visit of epoch `e`:
   * the bit of epoch `e` is clear, and the other epoch's bit, the transient bit and
   * both meta bits are as they were.
   */
  predicate WordAfterVisit(before: bv64, after: bv64, epoch: Epoch, e: bool) {
    && !Shares(after, epoch.Bit(e))
    && (Shares(after, epoch.Bit(!e)) <==> Shares(before, epoch.Bit(!e)))
    && (Shares(after, TRANSIENT_BIT) <==> Shares(before, TRANSIENT_BIT))
    && (MetaClear(before, epoch.bit0) ==> MetaClear(after, epoch.bit0))
    && (MetaClear(before, epoch.bit1) ==> MetaClear(after, epoch.bit1))
  }

  // ---------------------------------------------------------------------------
  // The counting invariant

  /**
   * The state the barrier keeps when every class is loaded through it: no class of
   * the list carries the transient bit or a meta bit, and each epoch's counter is the
   * number of listed classes tagged with that epoch's bit.
   */
  predicate Consistent(st: Barrier, classes: seq<int>, epoch: Epoch) {
    && AllIn(st.ids, classes)
    && (forall c :: c in classes ==> CleanWord(st.ids[c], epoch))
    && ClassCount(st, false) == |Used(st.ids, classes, Tagged(epoch.bit0))|
    && ClassCount(st, true) == |Used(st.ids, classes, Tagged(epoch.bit1))|
  }

  /** No transient bit and no meta bit of either epoch. */
  predicate CleanWord(w: bv64, epoch: Epoch) {
    !Shares(w, TRANSIENT_BIT) && MetaClear(w, epoch.bit0) && MetaClear(w, epoch.bit1)
  }

  /** Loading a listed class keeps the counters equal to the numbers of tagged classes. */
  lemma LoadConsistent(st: Barrier, classes: seq<int>, c: int, epoch: Epoch)
    requires Consistent(st, classes, epoch) && Distinct(classes) && ValidEpoch(epoch)
    requires c in classes
    ensures Consistent(Load(st, c, epoch).0, classes, epoch)
  {
    if ShouldTag(st, c, epoch) {
      LoadTagsConsistent(st, classes, c, epoch);
    }
  }

  /** The load that tags: the class is newly tagged and counted once. */
  lemma LoadTagsConsistent(st: Barrier, classes: seq<int>, c: int, epoch: Epoch)
    requires Consistent(st, classes, epoch) && Distinct(classes) && ValidEpoch(epoch)
    requires c in classes && ShouldTag(st, c, epoch)
    ensures Consistent(Load(st, c, epoch).0, classes, epoch)
  {
    var w := st.ids[c];
    var w1 := TagWord(w, epoch.ThisEpochBit());
    TagCleanWord(w, epoch);
    CountedUpdate(st, classes, c, w1, epoch, Load(st, c, epoch).0);
  }

  /**
   * Replacing a listed class's clean word by a clean word newly tagged for the
   * current epoch, with the other epoch's bit unchanged, and counting it for the
   * current epoch keeps the barrier consistent.
   */
  lemma CountedUpdate(st: Barrier, classes: seq<int>, c: int, w1: bv64, epoch: Epoch, st1: Barrier)
    requires Consistent(st, classes, epoch) && Distinct(classes) && c in classes
    requires CleanWord(w1, epoch)
    requires Shares(w1, epoch.ThisEpochBit()) && !Shares(st.ids[c], epoch.ThisEpochBit())
    requires Shares(w1, epoch.Bit(!epoch.current)) <==> Shares(st.ids[c], epoch.Bit(!epoch.current))
    requires st1.ids == st.ids[c := w1]
    requires ClassCount(st1, epoch.current) == ClassCount(st, epoch.current) + 1
    requires ClassCount(st1, !epoch.current) == ClassCount(st, !epoch.current)
    ensures Consistent(st1, classes, epoch)
  {
    var b := epoch.ThisEpochBit();
    var other := epoch.Bit(!epoch.current);
    UsedPoint(st.ids, classes, c, w1, Tagged(b));
    UsedPoint(st.ids, classes, c, w1, Tagged(other));
    assert epoch.bit0 == b || epoch.bit0 == other;
    assert epoch.bit1 == b || epoch.bit1 == other;
  }

  /**
   * What tagging a clean word with the current epoch does: it becomes tagged for the
   * current epoch, it was not before, the other epoch's bit is untouched, and the word
   * stays clean.
   */
  lemma TagCleanWord(w: bv64, epoch: Epoch)
    requires ValidEpoch(epoch) && CleanWord(w, epoch)
    requires IsNotTagged(w, epoch.ThisEpochBit())
    ensures !Shares(w, epoch.ThisEpochBit())
    ensures Shares(TagWord(w, epoch.ThisEpochBit()), epoch.ThisEpochBit())
    ensures Shares(TagWord(w, epoch.ThisEpochBit()), epoch.Bit(!epoch.current)) <==> Shares(w, epoch.Bit(!epoch.current))
    ensures CleanWord(TagWord(w, epoch.ThisEpochBit()), epoch)
  {
    var b := epoch.ThisEpochBit();
    var other := epoch.Bit(!epoch.current);
    NotTaggedIff(w, b);
    TagOwnBit(w, b);
    SingleBitsDisjoint(b, other);
    TagOtherBit(w, b, other);
    TagMetaClear(w, b, epoch.bit0);
    TagMetaClear(w, b, epoch.bit1);
    TagTransient(w, b);
  }

  /**
   * After `doClasses(kc, e)` every listed class has the bit of epoch `e` clear, and
   * its other epoch bit, transient bit and meta bits as they were.
   */
  lemma VisitEpochWords(ids: Ids, classes: seq<int>, epoch: Epoch, e: bool)
    requires AllIn(ids, classes) && Distinct(classes) && ValidEpoch(epoch)
    ensures forall c :: c in classes ==> WordAfterVisit(ids[c], VisitEpoch(ids, classes, epoch, e).1[c], epoch, e)
  {
    var mask := TRANSIENT_BIT | epoch.Bit(e);
    VisitWords(ids, classes, Tagged(mask), Cleared(epoch.Bit(e)));
    forall c | c in classes
      ensures WordAfterVisit(ids[c], VisitEpoch(ids, classes, epoch, e).1[c], epoch, e)
    {
      if Shares(ids[c], mask) {
        ClearAfterVisit(ids[c], epoch, e);
      } else {
        UnmatchedAfterVisit(ids[c], epoch, e);
      }
    }
  }

  /**
   * `doClasses(kc, e)` on a consistent barrier accepts exactly the classes tagged for
   * epoch `e`, as many as the counter of epoch `e` says, so its assertion holds; after
   * `clear(e)` the barrier is consistent again, with no class tagged for epoch `e`.
   */
  lemma DoClassesConsistent(st: Barrier, classes: seq<int>, epoch: Epoch, e: bool)
    requires Consistent(st, classes, epoch) && Distinct(classes) && ValidEpoch(epoch)
    ensures VisitEpoch(st.ids, classes, epoch, e).0 == Used(st.ids, classes, Tagged(epoch.Bit(e)))
    ensures |VisitEpoch(st.ids, classes, epoch, e).0| == ClassCount(st, e)
    ensures Consistent(Clear(st.(ids := VisitEpoch(st.ids, classes, epoch, e).1), e), classes, epoch)
    ensures Used(VisitEpoch(st.ids, classes, epoch, e).1, classes, Tagged(epoch.Bit(e))) == []
  {
    var ids1 := VisitEpoch(st.ids, classes, epoch, e).1;
    var b := epoch.Bit(e);
    var mask := TRANSIENT_BIT | b;
    VisitAccepts(st.ids, classes, Tagged(mask), Cleared(b));
    VisitEpochWords(st.ids, classes, epoch, e);
    forall c | c in classes
      ensures Shares(st.ids[c], mask) <==> Shares(st.ids[c], b)
    {
      SharesUnion(st.ids[c], TRANSIENT_BIT, b);
    }
    UsedSame(st.ids, st.ids, classes, Tagged(mask), Tagged(b));
    UsedNone(ids1, classes, Tagged(b));
    UsedSame(st.ids, ids1, classes, Tagged(epoch.Bit(!e)), Tagged(epoch.Bit(!e)));
    assert epoch.bit0 == b || epoch.bit0 == epoch.Bit(!e);
    assert epoch.bit1 == b || epoch.bit1 == epoch.Bit(!e);
  }

  /** Changing one word moves the number of matching classes by what changed in that word. */
  lemma {:induction false} UsedPoint(ids: Ids, classes: seq<int>, c: int, w: bv64, p: bv64 -> bool)
    requires AllIn(ids, classes) && Distinct(classes) && c in classes
    ensures |Used(ids[c := w], classes, p)| + (if p(ids[c]) then 1 else 0) ==
            |Used(ids, classes, p)| + (if p(w) then 1 else 0)
  {
    var front := classes[..|classes| - 1];
    var last := classes[|classes| - 1];
    assert Distinct(front);
    if last == c {
      assert c !in front;
      UsedSame(ids, ids[c := w], front, p, p);
    } else {
      assert c in front;
      UsedPoint(ids, front, c, w, p);
    }
  }

  /** Two maps whose listed words agree under `p` and `q` have the same matching classes. */
  lemma {:induction false} UsedSame(ids1: Ids, ids2: Ids, classes: seq<int>, p: bv64 -> bool, q: bv64 -> bool)
    requires AllIn(ids1, classes) && AllIn(ids2, classes)
    requires forall c :: c in classes ==> (p(ids1[c]) <==> q(ids2[c]))
    ensures Used(ids1, classes, p) == Used(ids2, classes, q)
  {
    if |classes| > 0 {
      var front := classes[..|classes| - 1];
      assert forall c :: c in front ==> c in classes;
      UsedSame(ids1, ids2, front, p, q);
    }
  }

  /** When no listed word matches, no class is used. */
  lemma {:induction false} UsedNone(ids: Ids, classes: seq<int>, p: bv64 -> bool)
    requires AllIn(ids, classes)
    requires forall c :: c in classes ==> !p(ids[c])
    ensures Used(ids, classes, p) == []
  {
    if |classes| > 0 {
      var front := classes[..|classes| - 1];
      assert forall c :: c in front ==> c in classes;
      UsedNone(ids, front, p);
    }
  }

  // ---------------------------------------------------------------------------
  // Properties of one word

  /** A word that reads as tagged has the epoch bit set. */
  lemma TaggedSharesBit(w: bv64, b: bv64)
    requires b != 0 && !IsNotTagged(w, b)
    ensures Shares(w, b)
  {
  }

  /** With the meta bit clear, a word reads as not tagged exactly when the epoch bit is clear. */
  lemma NotTaggedIff(w: bv64, b: bv64)
    requires SingleBit(b) && MetaClear(w, b)
    ensures IsNotTagged(w, b) <==> !Shares(w, b)
  {
  }

  /** With the meta bit set, a word never reads as tagged. */
  lemma MetaSetNotTagged(w: bv64, b: bv64)
    requires b < 0x100 && !MetaClear(w, b)
    ensures IsNotTagged(w, b)
  {
  }

  lemma SingleBitsDisjoint(a: bv64, b: bv64)
    requires SingleBit(a) && SingleBit(b) && a != b
    ensures a & b == 0
  {
  }

  lemma TagOwnBit(w: bv64, b: bv64)
    requires b != 0 && b < 0x100
    ensures Shares(TagWord(w, b), b)
  {
  }

  lemma TagOtherBit(w: bv64, b: bv64, other: bv64)
    requires b & other == 0
    ensures Shares(TagWord(w, b), other) <==> Shares(w, other)
  {
  }

  lemma TagMetaClear(w: bv64, b: bv64, m: bv64)
    requires b < 0x100 && m < 0x100
    ensures MetaClear(TagWord(w, b), m) <==> MetaClear(w, m)
  {
  }

  lemma TagTransient(w: bv64, b: bv64)
    requires b < 0x100
    ensures Shares(TagWord(w, b), TRANSIENT_BIT) <==> Shares(w, TRANSIENT_BIT)
  {
  }

  /** Clearing the epoch bit of a matching word leaves it as a visit promises. */
  lemma ClearAfterVisit(w: bv64, epoch: Epoch, e: bool)
    requires ValidEpoch(epoch)
    ensures WordAfterVisit(w, ClearWord(w, epoch.Bit(e)), epoch, e)
  {
    var b := epoch.Bit(e);
    SingleBitsDisjoint(b, epoch.Bit(!e));
    ClearOther(w, b, epoch.Bit(!e));
    ClearHighBits(w, b, epoch.bit0);
    ClearHighBits(w, b, epoch.bit1);
  }

  /** A word that does not match keeps everything, and its epoch bit is already clear. */
  lemma UnmatchedAfterVisit(w: bv64, epoch: Epoch, e: bool)
    requires !Shares(w, TRANSIENT_BIT | epoch.Bit(e))
    ensures WordAfterVisit(w, w, epoch, e)
  {
    SharesUnion(w, TRANSIENT_BIT, epoch.Bit(e));
  }

  lemma ClearOther(w: bv64, b: bv64, other: bv64)
    requires b & other == 0
    ensures Shares(ClearWord(w, b), other) <==> Shares(w, other)
  {
  }

  /** Clearing a low-byte bit keeps the transient bit and the meta bits. */
  lemma ClearHighBits(w: bv64, b: bv64, m: bv64)
    requires b < 0x100 && m < 0x100
    ensures Shares(ClearWord(w, b), TRANSIENT_BIT) <==> Shares(w, TRANSIENT_BIT)
    ensures MetaClear(ClearWord(w, b), m) <==> MetaClear(w, m)
  {
  }
}

=== FILE: logconfiguration.dfy ===
/**
 * The configuration of flight-recorder logging: the option string
 * `tag1[+tag2...][*][=level][,...]` is split into selections, each selection picks the
 * tag sets it matches, and every tag set takes the level of the rightmost selection
 * that matches it. A message is logged when its tag set has a level no more severe than
 * the message's.
 *
 * The configuration is a single global instance; here it is a value passed in and
 * returned. `System.exit` becomes a `Stop` outcome and the help and error texts
 * written to the log are not modelled.
 */
module LogConfiguration {
  import opened Wrappers
  import opened Text
  import opened LogTagSet

  /** One comma-separated part of the option: its tags, its level and whether it ends in `*`. */
  datatype Selection = Selection(tags: set<Tag>, level: Level, wildcard: bool)

  /** Why parsing stops the process with status 1. */
  datatype ParseError =
    | InvalidLevel(levelText: string)
    | InvalidTag(tagText: string)
    | NoTagSetMatches(selection: Selection)

  /** Why parsing does not return: `help` (status 0) or an error (status 1). */
  datatype Stop = HelpShown | Fatal(error: ParseError)

  /** The global configuration: whether logging is on, the parsed selections, and every tag set's level. */
  datatype Config = Config(enabled: bool, selections: seq<Selection>, levels: Levels)

  /** The configuration before any option is parsed. */
  const Initial: Config := Config(false, [], map[])

  /** Why `shouldLog` throws: the tag-set id is not an index of the id map. */
  datatype LookupError = TagSetIdOutOfBounds

  /**
   * `shouldLog(tagSetId, level)`: false while logging is off; otherwise whether the
   * tag set has a level whose number, the ordinal plus one, is at most the message's.
   */
  function ShouldLog(c: Config, tagSetId: int, level: int): (r: Result<bool, LookupError>)
    ensures !c.enabled ==> r == Success(false)
    ensures c.enabled ==> (r.Failure? <==> !(0 <= tagSetId < 11))
  {
    if !c.enabled then Success(false)
    else
      match FromTagSetId(tagSetId)
      case None => Failure(TagSetIdOutOfBounds)
      case Some(ts) =>
        var l := GetLevel(c.levels, ts);
        Success(l.Some? && l.value.Ordinal() + 1 <= level)
  }

  /**
   * A message is logged exactly when logging is on and the tag set with that id has a
   * level whose number is at most the message's.
   */
  lemma ShouldLogIff(c: Config, tagSetId: int, level: int)
    ensures ShouldLog(c, tagSetId, level) == Success(true) <==>
            (c.enabled && exists ts: TagSet, l: Level ::
               ts.Id() == tagSetId && GetLevel(c.levels, ts) == Some(l) && l.Ordinal() + 1 <= level)
  {
    if c.enabled && 0 <= tagSetId < 11 {
      var ts := FromTagSetId(tagSetId).value;
      forall other: TagSet | other.Id() == tagSetId
        ensures other == ts
      {
        IdsDistinct(other, ts);
      }
    }
  }

  /** Whatever a tag set logs at one level it also logs at every more severe level. */
  lemma ShouldLogMonotone(c: Config, tagSetId: int, level: int, higher: int)
    requires level <= higher
    requires ShouldLog(c, tagSetId, level) == Success(true)
    ensures ShouldLog(c, tagSetId, higher) == Success(true)
  {
  }

  // ---------------------------------------------------------------------------
  // One selection

  /**
   * Whether a selection matches a tag set with the given tags: it names exactly those
   * tags, or, with `*`, some of them.
   */
  predicate Matches(s: Selection, tags: set<Tag>) {
    (s.wildcard && s.tags <= tags) || s.tags == tags
  }

  /**
   * The tags named by `+`-separated pieces, upper-cased: the first piece that is not a
   * tag name is the error.
   */
  function ParseTags(pieces: seq<string>): (r: Result<set<Tag>, ParseError>)
    ensures r.Success? <==> forall k :: 0 <= k < |pieces| ==> TagValueOf(ToUpper(pieces[k])).Some?
    ensures r.Success? ==>
      forall t: Tag :: t in r.value <==> exists k :: 0 <= k < |pieces| && TagValueOf(ToUpper(pieces[k])) == Some(t)
    ensures r.Failure? ==> exists k :: 0 <= k < |pieces| && r.error == InvalidTag(pieces[k])
                                       && TagValueOf(ToUpper(pieces[k])).None?
  {
    if |pieces| == 0 then Success({})
    else
      match TagValueOf(ToUpper(pieces[0]))
      case None => Failure(InvalidTag(pieces[0]))
      case Some(t) =>
        var rest := ParseTags(pieces[1..]);
        assert forall k :: 1 <= k < |pieces| ==> pieces[k] == pieces[1..][k - 1];
        if rest.Failure? then rest else Success({t} + rest.value)
  }

  /**
   * `JfrLogSelection.parse(str)`. The selection starts with level INFO, no tags and no
   * wildcard; a first `=` after the first character splits off the level.
   */
  function ParseSelection(str: string): (r: Result<Selection, ParseError>)
  {
    var eq := IndexOf(str, '=');
    if eq > 0 then
      match LevelValueOf(ToUpper(str[eq + 1..]))
      case None => Failure(InvalidLevel(str[eq + 1..]))
      case Some(level) => ParseBody(str[..eq], level)
    else ParseBody(str, Info)
  }

  /** The part before the level: `all` in any case, or tags joined by `+` with an optional trailing `*`. */
  function ParseBody(body: string, level: Level): (r: Result<Selection, ParseError>)
  {
    if ToUpper(body) == "ALL" then Success(Selection({}, level, true))
    else
      var wildcard := EndsWith(body, '*');
      var tagText := if wildcard then body[..|body| - 1] else body;
      match ParseTags(JavaSplit(tagText, '+'))
      case Failure(e) => Failure(e)
      case Success(tags) => Success(Selection(tags, level, wildcard))
  }

  /**
   * The level of a selection: the text after its first `=`, upper-cased, when that `=`
   * is not the first character; INFO when there is no such `=`. A level text that is no
   * level name is the error.
   */
  lemma ParseSelectionLevel(str: string)
    ensures IndexOf(str, '=') > 0 ==>
      var levelText := str[IndexOf(str, '=') + 1..];
      match LevelValueOf(ToUpper(levelText))
      case None => ParseSelection(str) == Failure(InvalidLevel(levelText))
      case Some(l) => ParseSelection(str).Success? ==> ParseSelection(str).value.level == l
    ensures IndexOf(str, '=') <= 0 && ParseSelection(str).Success? ==> ParseSelection(str).value.level == Info
  {
  }

  /** A selection written as a body without `=`, then `=` and a level text. */
  lemma ParseWithLevel(body: string, levelText: string)
    requires |body| > 0 && '=' !in body
    ensures ParseSelection(body + "=" + levelText) ==
      match LevelValueOf(ToUpper(levelText))
      case None => Failure(InvalidLevel(levelText))
      case Some(level) => ParseBody(body, level)
  {
    var s := body + "=" + levelText;
    assert s == body + ("=" + levelText);
    IndexOfAfter(body, "=" + levelText, '=');
    assert s[..|body|] == body;
    assert s[|body| + 1..] == levelText;
  }

  /** A level's name, in any case, names it. */
  lemma LevelNameParses(l: Level)
    ensures LevelValueOf(ToUpper(l.Name())) == Some(l)
  {
    UpperOfUpper(l.Name());
  }

  /** `all`, in any case and with any level, selects every tag set at that level. */
  lemma ParseSelectionAll(str: string, level: Level)
    requires ToUpper(str) == "ALL"
    ensures ParseSelection(str + "=" + level.Name()) == Success(Selection({}, level, true))
    ensures forall ts: TagSet :: Matches(ParseSelection(str + "=" + level.Name()).value, ts.Tags())
  {
    assert '=' !in str by {
      forall k | 0 <= k < |str|
        ensures str[k] != '='
      {
        assert ToUpper(str)[k] == "ALL"[k];
      }
    }
    ParseWithLevel(str, level.Name());
    LevelNameParses(level);
  }

  // ---------------------------------------------------------------------------
  // Rendering a selection and parsing it back

  /** The tags' names joined with `+`. */
  function TagList(tags: seq<Tag>): (r: string)
    requires |tags| > 0
  {
    if |tags| == 1 then tags[0].Name() else tags[0].Name() + "+" + TagList(tags[1..])
  }

  /** The tags' names, in order. */
  function Names(tags: seq<Tag>): (r: seq<string>)
    ensures |r| == |tags|
  {
    if |tags| == 0 then [] else [tags[0].Name()] + Names(tags[1..])
  }

  /** A selection written out: its tags in the given order, `*` when it is a wildcard, and its level. */
  function Render(tags: seq<Tag>, wildcard: bool, level: Level): string
    requires |tags| > 0
  {
    TagList(tags) + (if wildcard then "*" else "") + "=" + level.Name()
  }

  /** Parsing a rendered selection gives back its tags, its wildcard flag and its level. */
  lemma RenderParse(tags: seq<Tag>, wildcard: bool, level: Level)
    requires |tags| > 0
    ensures ParseSelection(Render(tags, wildcard, level)) == Success(Selection((set t | t in tags), level, wildcard))
  {
    var body := TagList(tags) + (if wildcard then "*" else "");
    TagListChars(tags);
    ParseWithLevel(body, level.Name());
    LevelNameParses(level);
    RenderBody(tags, wildcard, level);
  }

  /** The body of a rendered selection parses to its tags and wildcard flag. */
  lemma RenderBody(tags: seq<Tag>, wildcard: bool, level: Level)
    requires |tags| > 0
    ensures ParseBody(TagList(tags) + (if wildcard then "*" else ""), level) ==
            Success(Selection((set t | t in tags), level, wildcard))
  {
    var list := TagList(tags);
    var body := list + (if wildcard then "*" else "");
    TagListChars(tags);
    TagListNotAll(tags, wildcard);
    assert EndsWith(body, '*') == wildcard;
    if wildcard {
      assert body[..|body| - 1] == list;
    } else {
      assert body == list;
    }
    TagListSplit(tags);
  }

  /** A tag list holds no `=`, `*` or `,`, and ends in a letter. */
  lemma {:induction false} TagListChars(tags: seq<Tag>)
    requires |tags| > 0
    ensures '=' !in TagList(tags) && '*' !in TagList(tags) && ',' !in TagList(tags)
    ensures |TagList(tags)| > 0 && 'A' <= TagList(tags)[|TagList(tags)| - 1] <= 'Z'
  {
    NameChars(tags[0]);
    if |tags| > 1 {
      TagListChars(tags[1..]);
    }
  }

  /** Tag names are non-empty runs of capital letters. */
  lemma NameChars(t: Tag)
    ensures |t.Name()| > 0
    ensures forall k :: 0 <= k < |t.Name()| ==> 'A' <= t.Name()[k] <= 'Z'
  {
  }

  /** A tag's name, in any case, names it. */
  lemma TagNameParses(t: Tag)
    ensures TagValueOf(ToUpper(t.Name())) == Some(t)
  {
    NameChars(t);
    UpperOfUpper(t.Name());
  }

  /** No tag list, with or without `*`, reads as `all`. */
  lemma TagListNotAll(tags: seq<Tag>, wildcard: bool)
    requires |tags| > 0
    ensures ToUpper(TagList(tags) + (if wildcard then "*" else "")) != "ALL"
  {
    TagListChars(tags);
    var body := TagList(tags) + (if wildcard then "*" else "");
    if wildcard {
      assert ToUpper(body)[|body| - 1] == '*';
    } else {
      assert body == TagList(tags);
      TagListHeads(tags);
    }
  }

  /** A tag list upper-cases to itself and is not `ALL`. */
  lemma TagListHeads(tags: seq<Tag>)
    requires |tags| > 0
    ensures ToUpper(TagList(tags)) == TagList(tags)
    ensures TagList(tags) != "ALL"
  {
    TagListUpper(tags);
    if |tags| > 1 {
      NameChars(tags[0]);
      var list := TagList(tags);
      assert list[|tags[0].Name()|] == '+';
    } else {
      match tags[0]
      case Jfr =>
      case System =>
      case Event =>
      case Setting =>
      case Bytecode =>
      case Parser =>
      case Metadata =>
      case Dcmd =>
    }
  }

  /** A tag list holds nothing upper-casing changes. */
  lemma {:induction false} TagListUpper(tags: seq<Tag>)
    requires |tags| > 0
    ensures ToUpper(TagList(tags)) == TagList(tags)
  {
    NameChars(tags[0]);
    UpperOfUpper(tags[0].Name());
    if |tags| > 1 {
      TagListUpper(tags[1..]);
      UpperConcat(tags[0].Name() + "+", TagList(tags[1..]));
      UpperConcat(tags[0].Name(), "+");
    }
  }

  /** Splitting a tag list on `+` gives the tags' names, and those parse to the tags. */
  lemma TagListSplit(tags: seq<Tag>)
    requires |tags| > 0
    ensures ParseTags(JavaSplit(TagList(tags), '+')) == Success(set t | t in tags)
  {
    TagListJavaSplit(tags);
    NamesParse(tags);
  }

  /** `String.split` on `+` of a tag list gives the tags' names. */
  lemma TagListJavaSplit(tags: seq<Tag>)
    requires |tags| > 0
    ensures JavaSplit(TagList(tags), '+') == Names(tags)
  {
    var names := Names(tags);
    TagListSplitAll(tags);
    NamesLast(tags);
    assert DropTrailingEmpty(names) == names;
    if |tags| > 1 {
      NameChars(tags[0]);
      assert TagList(tags)[|tags[0].Name()|] == '+';
    }
  }

  /** The last of the names is a tag's name, so not empty. */
  lemma {:induction false} NamesLast(tags: seq<Tag>)
    requires |tags| > 0
    ensures Names(tags)[|tags| - 1] == tags[|tags| - 1].Name() != []
  {
    NameChars(tags[|tags| - 1]);
    if |tags| > 1 {
      NamesLast(tags[1..]);
    }
  }

  /** The tags' names parse to the set of the tags. */
  lemma {:induction false} NamesParse(tags: seq<Tag>)
    ensures ParseTags(Names(tags)) == Success(set t | t in tags)
  {
    if |tags| > 0 {
      NamesParse(tags[1..]);
      TagNameParses(tags[0]);
      var names := Names(tags);
      assert names[0] == tags[0].Name();
      assert names[1..] == Names(tags[1..]);
      assert ParseTags(names) == Success({tags[0]} + ParseTags(Names(tags[1..])).value);
      assert (set t | t in tags) == {tags[0]} + (set t | t in tags[1..]) by {
        assert tags == [tags[0]] + tags[1..];
      }
    } else {
      assert Names(tags) == [];
      assert (set t | t in tags) == {};
    }
  }

  /** The pieces of a tag list between its `+` separators are the tags' names. */
  lemma {:induction false} TagListSplitAll(tags: seq<Tag>)
    requires |tags| > 0
    ensures SplitAll(TagList(tags), '+') == Names(tags)
  {
    var name := tags[0].Name();
    NameChars(tags[0]);
    assert '+' !in name;
    if |tags| == 1 {
      IndexOfMissing(name, '+');
    } else {
      SplitAfterFirst(name, TagList(tags[1..]), '+');
      TagListSplitAll(tags[1..]);
    }
  }

  /** Splitting `a`, the separator and `b`, when `a` holds no separator, gives `a` and then the pieces of `b`. */
  lemma SplitAfterFirst(a: string, b: string, sep: char)
    requires sep !in a
    ensures SplitAll(a + [sep] + b, sep) == [a] + SplitAll(b, sep)
  {
    var s := a + [sep] + b;
    IndexOfAfter(a, [sep] + b, sep);
    assert s == a + ([sep] + b);
    assert s[..|a|] == a;
    assert s[|a| + 1..] == b;
  }

  // ---------------------------------------------------------------------------
  // Facts about the string operations the parser uses

  /** A character missing from a string has no index. */
  lemma IndexOfMissing(s: string, c: char)
    requires c !in s
    ensures IndexOf(s, c) == -1
  {
  }

  /** The first occurrence in `a + b`, when `a` does not hold the character, is its first in `b`, shifted. */
  lemma {:induction false} IndexOfAfter(a: string, b: string, c: char)
    requires c !in a && |b| > 0 && b[0] == c
    ensures IndexOf(a + b, c) == |a|
  {
    var s := a + b;
    assert s[|a|] == c;
    assert c !in s[..|a|] by {
      assert s[..|a|] == a;
    }
  }

  /** Upper-casing a string of capital letters and symbols changes nothing. */
  lemma UpperOfUpper(s: string)
    requires forall k :: 0 <= k < |s| ==> !('a' <= s[k] <= 'z')
    ensures ToUpper(s) == s
  {
  }

  /** Upper-casing works piece by piece. */
  lemma UpperConcat(a: string, b: string)
    ensures ToUpper(a + b) == ToUpper(a) + ToUpper(b)
  {
  }

  // ---------------------------------------------------------------------------
  // Every selection, and the levels of the tag sets

  /** Each piece parsed in order; the first one that fails stops the process. */
  function ParseSelections(pieces: seq<string>): (r: Result<seq<Selection>, ParseError>)
    ensures r.Success? <==> forall k :: 0 <= k < |pieces| ==> ParseSelection(pieces[k]).Success?
    ensures r.Success? ==> |r.value| == |pieces| &&
                           forall k :: 0 <= k < |pieces| ==> r.value[k] == ParseSelection(pieces[k]).value
  {
    if |pieces| == 0 then Success([])
    else
      var first := ParseSelection(pieces[0]);
      var rest := ParseSelections(pieces[1..]);
      assert forall k :: 1 <= k < |pieces| ==> pieces[k] == pieces[1..][k - 1];
      if first.Failure? then Failure(first.error)
      else if rest.Failure? then rest
      else Success([first.value] + rest.value)
  }

  /** The level of the rightmost selection that matches a tag set with these tags; none when no selection does. */
  function RightmostLevel(selections: seq<Selection>, tags: set<Tag>): (r: Option<Level>)
    ensures r.None? <==> forall k :: 0 <= k < |selections| ==> !Matches(selections[k], tags)
    ensures r.Some? ==> exists k :: 0 <= k < |selections| && Matches(selections[k], tags)
                                    && selections[k].level == r.value
                                    && forall j :: k < j < |selections| ==> !Matches(selections[j], tags)
  {
    if |selections| == 0 then None
    else
      var last := selections[|selections| - 1];
      if Matches(last, tags) then Some(last.level)
      else RightmostLevel(selections[..|selections| - 1], tags)
  }

  /** Whether a selection matches some tag set of the table. */
  predicate MatchesATagSet(s: Selection) {
    exists k :: 0 <= k < |Values| && Matches(s, Values[k].Tags())
  }

  /** Every tag set with the level of its rightmost matching selection. */
  function AssignLevels(selections: seq<Selection>): (levels: Levels)
    ensures forall ts: TagSet :: GetLevel(levels, ts) == RightmostLevel(selections, ts.Tags())
  {
    var m := map ts | ts in Values :: RightmostLevel(selections, ts.Tags());
    assert forall ts: TagSet :: ts in m by {
      forall ts: TagSet
        ensures ts in m
      {
        ValuesComplete(ts);
      }
    }
    m
  }

  /**
   * The inner loop of `setLogTagSetLevels`: the selections from left to right, each
   * match overwriting the level and marking the selection as matched.
   */
  method MatchSelections(selections: seq<Selection>, tags: set<Tag>, matched: seq<bool>)
    returns (level: Option<Level>, matched': seq<bool>)
    requires |matched| == |selections|
    ensures level == RightmostLevel(selections, tags)
    ensures |matched'| == |selections|
    ensures forall j :: 0 <= j < |selections| ==> (matched'[j] <==> matched[j] || Matches(selections[j], tags))
  {
    level := None;
    matched' := matched;
    for k := 0 to |selections|
      invariant |matched'| == |selections|
      invariant level == RightmostLevel(selections[..k], tags)
      invariant forall j :: 0 <= j < |selections| ==>
        (matched'[j] <==> matched[j] || (j < k && Matches(selections[j], tags)))
    {
      assert selections[..k + 1][..k] == selections[..k];
      if Matches(selections[k], tags) {
        level := Some(selections[k].level);
        matched' := matched'[k := true];
      }
    }
    assert selections[..|selections|] == selections;
  }

  /**
   * `setLogTagSetLevels`: every tag set in turn takes the level of the rightmost
   * selection that matches it, and a selection is marked once it matches any.
   */
  method SetLogTagSetLevels(selections: seq<Selection>) returns (levels: Levels, matched: seq<bool>)
    ensures forall ts: TagSet :: GetLevel(levels, ts) == RightmostLevel(selections, ts.Tags())
    ensures |matched| == |selections|
    ensures forall k :: 0 <= k < |selections| ==> (matched[k] <==> MatchesATagSet(selections[k]))
  {
    levels := map[];
    matched := seq(|selections|, _ => false);
    ValuesIds();
    for v := 0 to |Values|
      invariant |matched| == |selections|
      invariant forall u :: 0 <= u < v ==> GetLevel(levels, Values[u]) == RightmostLevel(selections, Values[u].Tags())
      invariant forall k :: 0 <= k < |selections| ==>
        (matched[k] <==> exists u :: 0 <= u < v && Matches(selections[k], Values[u].Tags()))
    {
      var ts := Values[v];
      var level;
      ghost var before := matched;
      ghost var previous := levels;
      level, matched := MatchSelections(selections, ts.Tags(), matched);
      levels := SetLevel(levels, ts, level);
      forall u | 0 <= u < v + 1
        ensures GetLevel(levels, Values[u]) == RightmostLevel(selections, Values[u].Tags())
      {
        if u < v {
          assert Values[u].Id() != Values[v].Id();
          assert GetLevel(levels, Values[u]) == GetLevel(previous, Values[u]);
        }
      }
      forall k | 0 <= k < |selections|
        ensures matched[k] <==> exists u :: 0 <= u < v + 1 && Matches(selections[k], Values[u].Tags())
      {
        if matched[k] && !before[k] {
          assert Matches(selections[k], Values[v].Tags());
        }
      }
    }
    forall ts: TagSet
      ensures GetLevel(levels, ts) == RightmostLevel(selections, ts.Tags())
    {
      ValuesComplete(ts);
    }
  }

  /** `verifySelections`: the first selection that matched no tag set stops the process. */
  function VerifySelections(selections: seq<Selection>, matched: seq<bool>): (r: Result<(), ParseError>)
    requires |matched| == |selections|
    ensures r.Success? <==> forall k :: 0 <= k < |matched| ==> matched[k]
    ensures r.Failure? ==> exists k :: 0 <= k < |matched| && !matched[k]
                                       && r.error == NoTagSetMatches(selections[k])
                                       && forall j :: 0 <= j < k ==> matched[j]
  {
    if |selections| == 0 then Success(())
    else if !matched[0] then Failure(NoTagSetMatches(selections[0]))
    else
      var rest := VerifySelections(selections[1..], matched[1..]);
      assert forall k :: 1 <= k < |matched| ==> matched[k] == matched[1..][k - 1];
      if rest.Failure? then
        assert exists k :: 1 <= k < |matched| && !matched[k] && rest.error == NoTagSetMatches(selections[k])
                           && forall j :: 0 <= j < k ==> matched[j] by {
          var k :| 0 <= k < |matched[1..]| && !matched[1..][k] && rest.error == NoTagSetMatches(selections[1..][k])
                   && forall j :: 0 <= j < k ==> matched[1..][j];
          assert forall j :: 1 <= j < k + 1 ==> matched[j] == matched[1..][j - 1];
        }
        rest
      else Success(())
  }

  /**
   * The `matchesATagSet` flags `setLogTagSetLevels` leaves behind, one per selection:
   * they are all set exactly when every selection matches some tag set, which is what
   * `verifySelections` checks.
   */
  function MatchedFlags(selections: seq<Selection>): (matched: seq<bool>)
    ensures |matched| == |selections|
    ensures (forall k :: 0 <= k < |matched| ==> matched[k])
        <==> (forall k :: 0 <= k < |selections| ==> MatchesATagSet(selections[k]))
  {
    var matched := seq(|selections|, k requires 0 <= k < |selections| => MatchesATagSet(selections[k]));
    assert forall k :: 0 <= k < |matched| ==> matched[k] == MatchesATagSet(selections[k]);
    matched
  }

  /**
   * `parse(config)`: a blank option leaves the configuration as it was, `help` in any
   * case stops the process, and any other option is split on `,`, parsed selection by
   * selection, applied to the tag sets and checked for selections that match nothing.
   */
  function Parse(c: Config, config: string): (r: Result<Config, Stop>)
  {
    if IsBlank(config) then Success(c)
    else if ToUpper(config) == "HELP" then Failure(HelpShown)
    else
      var selections := ParseSelections(JavaSplit(config, ','));
      if selections.Failure? then Failure(Fatal(selections.error))
      else
        var verified := VerifySelections(selections.value, MatchedFlags(selections.value));
        if verified.Failure? then Failure(Fatal(verified.error))
        else Success(Config(true, selections.value, AssignLevels(selections.value)))
  }

  /** A blank option leaves logging off, so nothing is logged. */
  lemma BlankDisables(config: string, tagSetId: int, level: int)
    requires IsBlank(config)
    ensures Parse(Initial, config) == Success(Initial)
    ensures ShouldLog(Parse(Initial, config).value, tagSetId, level) == Success(false)
  {
  }

  /**
   * A non-blank option other than `help` is accepted exactly when each of its
   * comma-separated parts parses and matches some tag set; then logging is on and the
   * selections are those parts.
   */
  lemma ParseAccepts(c: Config, config: string)
    requires !IsBlank(config) && ToUpper(config) != "HELP"
    ensures Parse(c, config).Success? <==>
      var pieces := JavaSplit(config, ',');
      forall k :: 0 <= k < |pieces| ==>
        ParseSelection(pieces[k]).Success? && MatchesATagSet(ParseSelection(pieces[k]).value)
    ensures Parse(c, config).Success? ==>
      Parse(c, config).value.enabled && Parse(c, config).value.selections == ParseSelections(JavaSplit(config, ',')).value
  {
  }

  /**
   * After an option is accepted, a message of a tag set is logged exactly when the
   * rightmost selection matching that tag set has a level whose number is at most the
   * message's.
   */
  lemma ParsedShouldLog(c: Config, config: string, ts: TagSet, level: int)
    requires Parse(c, config).Success? && !IsBlank(config)
    ensures ShouldLog(Parse(c, config).value, ts.Id(), level) == Success(true) <==>
      var selections := Parse(c, config).value.selections;
      exists k :: 0 <= k < |selections| && Matches(selections[k], ts.Tags())
                  && (forall j :: k < j < |selections| ==> !Matches(selections[j], ts.Tags()))
                  && selections[k].level.Ordinal() + 1 <= level
  {
    var p := Parse(c, config).value;
    assert p.enabled && p.levels == AssignLevels(p.selections);
    RightmostShouldLog(p, ts, level);
  }

  /** With the levels assigned from its selections, a configuration logs by the rightmost matching selection. */
  lemma RightmostShouldLog(p: Config, ts: TagSet, level: int)
    requires p.enabled && p.levels == AssignLevels(p.selections)
    ensures ShouldLog(p, ts.Id(), level) == Success(true) <==>
      exists k :: 0 <= k < |p.selections| && Matches(p.selections[k], ts.Tags())
                  && (forall j :: k < j < |p.selections| ==> !Matches(p.selections[j], ts.Tags()))
                  && p.selections[k].level.Ordinal() + 1 <= level
  {
    FromTagSetIdOfId(ts);
    var selections := p.selections;
    var tags := ts.Tags();
    var r := RightmostLevel(selections, tags);
    forall k, k' | 0 <= k < |selections| && Matches(selections[k], tags)
                   && (forall j :: k < j < |selections| ==> !Matches(selections[j], tags))
                   && 0 <= k' < |selections| && Matches(selections[k'], tags)
                   && (forall j :: k' < j < |selections| ==> !Matches(selections[j], tags))
      ensures k == k'
    {
    }
  }

  /** The selections of an accepted option each match at least one tag set. */
  lemma ParsedSelectionsMatch(c: Config, config: string, k: int)
    requires Parse(c, config).Success? && !IsBlank(config)
    requires 0 <= k < |Parse(c, config).value.selections|
    ensures MatchesATagSet(Parse(c, config).value.selections[k])
  {
    var selections := Parse(c, config).value.selections;
    assert VerifySelections(selections, MatchedFlags(selections)).Success?;
  }
}

=== FILE: logtagset.dfy ===
/**
 * The JFR log tag sets: a fixed table of eleven combinations of log tags, each with a
 * numeric id that agrees with the JDK's own tag-set ids, and the log level the
 * configuration assigns to each of them.
 *
 * The tag enumeration `JfrLogTag` and the JDK's `LogLevel` are not part of this model;
 * the tags are the eight the table uses, and the levels are the JDK's five, in the
 * JDK's order.
 */
module LogTagSet {
  import opened Wrappers

  /** A log tag; `Name` is its enum constant's name. */
  datatype Tag = Jfr | System | Event | Setting | Bytecode | Parser | Metadata | Dcmd
  {
    function Name(): string {
      match this
      case Jfr => "JFR"
      case System => "SYSTEM"
      case Event => "EVENT"
      case Setting => "SETTING"
      case Bytecode => "BYTECODE"
      case Parser => "PARSER"
      case Metadata => "METADATA"
      case Dcmd => "DCMD"
    }
  }

  /** `JfrLogTag.valueOf`: the tag with exactly that name, or None where Java throws. */
  function TagValueOf(name: string): (r: Option<Tag>)
    ensures r.Some? ==> r.value.Name() == name
    ensures forall t: Tag :: t.Name() == name ==> r == Some(t)
  {
    if name == "JFR" then Some(Jfr)
    else if name == "SYSTEM" then Some(System)
    else if name == "EVENT" then Some(Event)
    else if name == "SETTING" then Some(Setting)
    else if name == "BYTECODE" then Some(Bytecode)
    else if name == "PARSER" then Some(Parser)
    else if name == "METADATA" then Some(Metadata)
    else if name == "DCMD" then Some(Dcmd)
    else None
  }

  /** A log level, least severe first; `Ordinal` is its position, one less than the JDK's level number. */
  datatype Level = Trace | Debug | Info | Warn | Error
  {
    function Ordinal(): (n: nat)
      ensures n < 5
    {
      match this
      case Trace => 0
      case Debug => 1
      case Info => 2
      case Warn => 3
      case Error => 4
    }

    function Name(): string {
      match this
      case Trace => "TRACE"
      case Debug => "DEBUG"
      case Info => "INFO"
      case Warn => "WARN"
      case Error => "ERROR"
    }
  }

  /** `LogLevel.valueOf`: the level with exactly that name, or None where Java throws. */
  function LevelValueOf(name: string): (r: Option<Level>)
    ensures r.Some? ==> r.value.Name() == name
    ensures forall l: Level :: l.Name() == name ==> r == Some(l)
  {
    if name == "TRACE" then Some(Trace)
    else if name == "DEBUG" then Some(Debug)
    else if name == "INFO" then Some(Info)
    else if name == "WARN" then Some(Warn)
    else if name == "ERROR" then Some(Error)
    else None
  }

  /** The eleven tag sets, in declaration order. */
  datatype TagSet =
    | SetJfr | SetJfrSystem | SetJfrSystemEvent | SetJfrSystemSetting | SetJfrSystemBytecode
    | SetJfrSystemParser | SetJfrSystemMetadata | SetJfrMetadata | SetJfrEvent | SetJfrSetting
    | SetJfrDcmd
  {
    /** The tag set's id. */
    function Id(): (id: int)
      ensures 0 <= id < 11
    {
      match this
      case SetJfr => 0
      case SetJfrSystem => 1
      case SetJfrSystemEvent => 2
      case SetJfrSystemSetting => 3
      case SetJfrSystemBytecode => 4
      case SetJfrSystemParser => 5
      case SetJfrSystemMetadata => 6
      case SetJfrMetadata => 7
      case SetJfrEvent => 8
      case SetJfrSetting => 9
      case SetJfrDcmd => 10
    }

    /** `getTags`: every set holds the `jfr` tag and at most two more. */
    function Tags(): (tags: set<Tag>)
      ensures Jfr in tags
      ensures 1 <= |tags| <= 3
    {
      match this
      case SetJfr => {Jfr}
      case SetJfrSystem => {Jfr, System}
      case SetJfrSystemEvent => {Jfr, System, Event}
      case SetJfrSystemSetting => {Jfr, System, Setting}
      case SetJfrSystemBytecode => {Jfr, System, Bytecode}
      case SetJfrSystemParser => {Jfr, System, Parser}
      case SetJfrSystemMetadata => {Jfr, System, Metadata}
      case SetJfrMetadata => {Jfr, Metadata}
      case SetJfrEvent => {Jfr, Event}
      case SetJfrSetting => {Jfr, Setting}
      case SetJfrDcmd => {Jfr, Dcmd}
    }
  }

  /** `values()`: every tag set once, in declaration order. */
  const Values: seq<TagSet> := [
    SetJfr, SetJfrSystem, SetJfrSystemEvent, SetJfrSystemSetting, SetJfrSystemBytecode,
    SetJfrSystemParser, SetJfrSystemMetadata, SetJfrMetadata, SetJfrEvent, SetJfrSetting,
    SetJfrDcmd]

  /** Every tag set is in `values()`, and at the position of its id. */
  lemma ValuesComplete(ts: TagSet)
    ensures ts.Id() < |Values| && Values[ts.Id()] == ts
  {
  }

  /** The position of each tag set in `values()` is its id. */
  lemma ValuesIds()
    ensures forall k :: 0 <= k < |Values| ==> Values[k].Id() == k
  {
  }

  /**
   * The id map the static initializer builds from the first `n` values: an array as
   * long as `values()`, null everywhere except at the ids of those values.
   */
  function IdMapOf(n: nat): (m: seq<Option<TagSet>>)
    requires n <= |Values|
    ensures |m| == |Values|
  {
    if n == 0 then seq(|Values|, _ => None)
    else IdMapOf(n - 1)[Values[n - 1].Id() := Some(Values[n - 1])]
  }

  /** `IDMAP`, once the static initializer has run. */
  const IDMAP: seq<Option<TagSet>> := IdMapOf(|Values|)

  /** The static initializer's loop over `values()`. */
  method BuildIdMap() returns (idmap: seq<Option<TagSet>>)
    ensures idmap == IDMAP
    ensures forall ts: TagSet :: idmap[ts.Id()] == Some(ts)
  {
    idmap := seq(|Values|, _ => None);
    for k := 0 to |Values|
      invariant idmap == IdMapOf(k)
    {
      idmap := idmap[Values[k].Id() := Some(Values[k])];
    }
    IdMapFilled();
  }

  /** After the first `n` values, the map holds each of them at its id and null elsewhere. */
  lemma {:induction false} IdMapOfEntries(n: nat)
    requires n <= |Values|
    ensures forall k :: 0 <= k < |Values| ==> IdMapOf(n)[k] == if k < n then Some(Values[k]) else None
  {
    if n > 0 {
      IdMapOfEntries(n - 1);
      ValuesComplete(Values[n - 1]);
    }
  }

  /** The finished map holds every tag set at its id. */
  lemma IdMapFilled()
    ensures forall k :: 0 <= k < |IDMAP| ==> IDMAP[k] == Some(Values[k])
    ensures forall ts: TagSet :: IDMAP[ts.Id()] == Some(ts)
  {
    IdMapOfEntries(|Values|);
    forall ts: TagSet
      ensures IDMAP[ts.Id()] == Some(ts)
    {
      ValuesComplete(ts);
    }
  }

  /**
   * `fromTagSetId`: the tag set with that id. Ids 0 to 10 are dense, so None, the
   * array index that is out of bounds, happens exactly outside that range.
   */
  function FromTagSetId(tagSetId: int): (r: Option<TagSet>)
    ensures r.Some? <==> 0 <= tagSetId < 11
    ensures r.Some? ==> r.value.Id() == tagSetId
  {
    IdMapFilled();
    if 0 <= tagSetId < |IDMAP| then IDMAP[tagSetId] else None
  }

  /** Looking up a tag set's own id gives it back. */
  lemma FromTagSetIdOfId(ts: TagSet)
    ensures FromTagSetId(ts.Id()) == Some(ts)
  {
    IdMapFilled();
  }

  /** No two tag sets share an id. */
  lemma IdsDistinct(a: TagSet, b: TagSet)
    requires a.Id() == b.Id()
    ensures a == b
  {
    FromTagSetIdOfId(a);
    FromTagSetIdOfId(b);
  }

  /** The table's tag set with exactly the given tags, if there is one. */
  function WithTags(tags: set<Tag>): (r: Option<TagSet>)
    ensures r.Some? ==> r.value.Tags() == tags
  {
    if tags == SetJfr.Tags() then Some(SetJfr)
    else if tags == SetJfrSystem.Tags() then Some(SetJfrSystem)
    else if tags == SetJfrSystemEvent.Tags() then Some(SetJfrSystemEvent)
    else if tags == SetJfrSystemSetting.Tags() then Some(SetJfrSystemSetting)
    else if tags == SetJfrSystemBytecode.Tags() then Some(SetJfrSystemBytecode)
    else if tags == SetJfrSystemParser.Tags() then Some(SetJfrSystemParser)
    else if tags == SetJfrSystemMetadata.Tags() then Some(SetJfrSystemMetadata)
    else if tags == SetJfrMetadata.Tags() then Some(SetJfrMetadata)
    else if tags == SetJfrEvent.Tags() then Some(SetJfrEvent)
    else if tags == SetJfrSetting.Tags() then Some(SetJfrSetting)
    else if tags == SetJfrDcmd.Tags() then Some(SetJfrDcmd)
    else None
  }

  /** A tag set's tags identify it. */
  lemma WithTagsOfTags(ts: TagSet)
    ensures WithTags(ts.Tags()) == Some(ts)
  {
    match ts
    case SetJfr =>
    case SetJfrSystem =>
      assert System !in SetJfr.Tags();
    case SetJfrSystemEvent =>
      assert Event !in SetJfr.Tags() && Event !in SetJfrSystem.Tags();
    case SetJfrSystemSetting =>
      assert Setting in ts.Tags();
    case SetJfrSystemBytecode =>
      assert Bytecode in ts.Tags();
    case SetJfrSystemParser =>
      assert Parser in ts.Tags();
    case SetJfrSystemMetadata =>
      assert Metadata in ts.Tags() && System in ts.Tags();
    case SetJfrMetadata =>
      assert Metadata in ts.Tags() && System !in ts.Tags();
    case SetJfrEvent =>
      assert Event in ts.Tags() && System !in ts.Tags();
    case SetJfrSetting =>
      assert Setting in ts.Tags() && System !in ts.Tags();
    case SetJfrDcmd =>
      assert Dcmd in ts.Tags();
  }

  /** The eleven tag sets are pairwise different sets of tags. */
  lemma TagsDistinct(a: TagSet, b: TagSet)
    requires a.Tags() == b.Tags()
    ensures a == b
  {
    WithTagsOfTags(a);
    WithTagsOfTags(b);
  }

  // ---------------------------------------------------------------------------
  // Levels

  /**
   * The `level` field of every tag set. A tag set missing from the map has never been
   * given a level; it reads as having none.
   */
  type Levels = map<TagSet, Option<Level>>

  /** `getLevel`. */
  function GetLevel(levels: Levels, ts: TagSet): Option<Level> {
    if ts in levels then levels[ts] else None
  }

  /** `setLevel`: the tag set reads back the level it was given, and every other one keeps its own. */
  function SetLevel(levels: Levels, ts: TagSet, level: Option<Level>): (r: Levels)
    ensures GetLevel(r, ts) == level
    ensures forall other: TagSet :: other != ts ==> GetLevel(r, other) == GetLevel(levels, other)
  {
    levels[ts := level]
  }
}

=== FILE: methodhandle.dfy ===
/**
 * Method-handle constants of a class file's constant pool: the reference kind and the
 * checks a `CONSTANT_MethodHandle_info` entry must pass, after section 4.4.8 of the
 * Java Virtual Machine Specification (Java SE 8).
 *
 * Resolution is not part of this model, and neither are the pool lookups: the name of
 * the referenced member, the tag of the referenced entry and the class file's major
 * version are parameters of the validation.
 */
module MethodHandle {
  import opened Wrappers

  /** The nine reference kinds, in the order of their values 1 to 9. */
  datatype RefKind =
    | GetField | GetStatic | PutField | PutStatic
    | InvokeVirtual | InvokeStatic | InvokeSpecial | NewInvokeSpecial | InvokeInterface
  {
    /** The kind's `value`, the byte a class file uses for it. */
    function Value(): (v: int)
      ensures 1 <= v <= 9
    {
      match this
      case GetField => 1
      case GetStatic => 2
      case PutField => 3
      case PutStatic => 4
      case InvokeVirtual => 5
      case InvokeStatic => 6
      case InvokeSpecial => 7
      case NewInvokeSpecial => 8
      case InvokeInterface => 9
    }
  }

  /** `RefKind.forValue`: the kind with that value; null (None) outside 1..9. */
  function ForValue(value: int): (r: Option<RefKind>)
    ensures r.Some? <==> 1 <= value <= 9
    ensures r.Some? ==> r.value.Value() == value
  {
    if value == 1 then Some(GetField)
    else if value == 2 then Some(GetStatic)
    else if value == 3 then Some(PutField)
    else if value == 4 then Some(PutStatic)
    else if value == 5 then Some(InvokeVirtual)
    else if value == 6 then Some(InvokeStatic)
    else if value == 7 then Some(InvokeSpecial)
    else if value == 8 then Some(NewInvokeSpecial)
    else if value == 9 then Some(InvokeInterface)
    else None
  }

  /** `forValue` maps every kind's value back to that kind. */
  lemma ForValueOfValue(kind: RefKind)
    ensures ForValue(kind.Value()) == Some(kind)
  {
    match kind
    case GetField =>
    case GetStatic =>
    case PutField =>
    case PutStatic =>
    case InvokeVirtual =>
    case InvokeStatic =>
    case InvokeSpecial =>
    case NewInvokeSpecial =>
    case InvokeInterface =>
  }

  /** Two kinds with the same value are the same kind. */
  lemma ValueInjective(a: RefKind, b: RefKind)
    requires a.Value() == b.Value()
    ensures a == b
  {
    ForValueOfValue(a);
    ForValueOfValue(b);
  }

  /** The constant-pool tags the validation distinguishes; every other tag is `OtherTag`. */
  datatype Tag = FieldRef | MethodRef | InterfaceMethodRef | OtherTag

  /** The reserved method names. */
  const INIT: string := "<init>"
  const CLINIT: string := "<clinit>"

  /** The first major version of Java 8 class files. */
  const JAVA_8_VERSION: int := 52

  /** An unresolved method-handle entry: the reference kind byte and the index of the referenced member. */
  datatype Index = Index(refKind: int, refIndex: int)

  /** `getRefKind`: the kind of the entry's byte; with assertions off, null for a byte outside 1..9. */
  function GetRefKind(idx: Index): (r: Option<RefKind>)
    ensures r.Some? <==> 1 <= idx.refKind <= 9
    ensures r.Some? ==> r.value.Value() == idx.refKind
  {
    ForValue(idx.refKind)
  }

  /** The `ClassFormatError` every failed check throws. */
  datatype ClassFormatError = IllFormedConstant

  /** Whether the entry a kind refers to may carry the tag, for a class file of the major version. */
  predicate TargetFits(kind: RefKind, tag: Tag, majorVersion: int) {
    match kind
    case GetField | GetStatic | PutField | PutStatic => tag == FieldRef
    case InvokeVirtual | NewInvokeSpecial => tag == MethodRef
    case InvokeStatic | InvokeSpecial =>
      tag == MethodRef || (majorVersion >= JAVA_8_VERSION && tag == InterfaceMethodRef)
    case InvokeInterface => tag == InterfaceMethodRef
  }

  /**
   * `Index.validate` with every check exactly as the Java method writes it, after the
   * referenced member has been validated: the checks on the name, the kind and the
   * target tag, in the order of the Java method.
   */
  function ValidateAsWritten(idx: Index, memberName: string, tag: Tag, majorVersion: int): (r: Result<(), ClassFormatError>)
  {
    var kind := GetRefKind(idx);
    if memberName == CLINIT then Failure(IllFormedConstant)
    else if memberName == INIT && kind != Some(NewInvokeSpecial) then Failure(IllFormedConstant)
    else if kind.None? then Failure(IllFormedConstant)
    else if (memberName == INIT || memberName == CLINIT)
         && kind.value in {InvokeVirtual, InvokeStatic, InvokeSpecial, InvokeInterface}
    then Failure(IllFormedConstant)
    else if !TargetFits(kind.value, tag, majorVersion) then Failure(IllFormedConstant)
    else Success(())
  }

  /**
   * `Index.validate` with the rule its comment states for kind 8 in place: a
   * `newInvokeSpecial` handle must name `<init>`, and only it may.
   */
  function Validate(idx: Index, memberName: string, tag: Tag, majorVersion: int): (r: Result<(), ClassFormatError>)
  {
    var kind := GetRefKind(idx);
    if memberName == CLINIT then Failure(IllFormedConstant)
    else if (memberName == INIT) != (kind == Some(NewInvokeSpecial)) then Failure(IllFormedConstant)
    else if kind.None? then Failure(IllFormedConstant)
    else if !TargetFits(kind.value, tag, majorVersion) then Failure(IllFormedConstant)
    else Success(())
  }

  /**
   * The rules of section 4.4.8 the validation enforces, one per kind: the reference
   * kind is 1 to 9; no handle names `<clinit>`; kind 8 names `<init>` and no other kind
   * does; and the referenced entry is a field for kinds 1 to 4, a class method for
   * kinds 5 and 8, a class method or (from Java 8 on) an interface method for kinds 6
   * and 7, and an interface method for kind 9.
   */
  predicate WellFormed(refKind: int, memberName: string, tag: Tag, majorVersion: int) {
    && 1 <= refKind <= 9
    && memberName != CLINIT
    && (memberName == INIT <==> refKind == 8)
    && (1 <= refKind <= 4 ==> tag == FieldRef)
    && (refKind == 5 || refKind == 8 ==> tag == MethodRef)
    && (refKind == 6 || refKind == 7 ==>
          tag == MethodRef || (majorVersion >= JAVA_8_VERSION && tag == InterfaceMethodRef))
    && (refKind == 9 ==> tag == InterfaceMethodRef)
  }

  /** The corrected validation accepts exactly the well-formed entries. */
  lemma ValidateIsWellFormed(idx: Index, memberName: string, tag: Tag, majorVersion: int)
    ensures Validate(idx, memberName, tag, majorVersion).Success? <==>
            WellFormed(idx.refKind, memberName, tag, majorVersion)
  {
    var kind := GetRefKind(idx);
    if kind.Some? {
      assert kind.value.Value() == idx.refKind;
      match kind.value
      case GetField =>
      case GetStatic =>
      case PutField =>
      case PutStatic =>
      case InvokeVirtual =>
      case InvokeStatic =>
      case InvokeSpecial =>
      case NewInvokeSpecial =>
      case InvokeInterface =>
    }
  }

  /**
   * The validation as written accepts every well-formed entry; the only entries it
   * accepts besides are kind-8 handles to an ordinary class method.
   */
  lemma AsWrittenDiffersOnlyAtKind8(idx: Index, memberName: string, tag: Tag, majorVersion: int)
    ensures ValidateAsWritten(idx, memberName, tag, majorVersion).Success? <==>
            (WellFormed(idx.refKind, memberName, tag, majorVersion) ||
             (idx.refKind == 8 && memberName != INIT && memberName != CLINIT && tag == MethodRef))
  {
    ValidateIsWellFormed(idx, memberName, tag, majorVersion);
    var kind := GetRefKind(idx);
    if kind.Some? {
      assert kind.value.Value() == idx.refKind;
    }
  }

  /**
   * The check of `<init>` and `<clinit>` against kinds 5, 6, 7 and 9 never rejects
   * anything: by then `<clinit>` has been rejected, and `<init>` has been let through
   * only with kind 8.
   */
  lemma AsWrittenNameCheckRedundant(idx: Index, memberName: string, tag: Tag, majorVersion: int)
    requires memberName != CLINIT
    requires memberName == INIT ==> GetRefKind(idx) == Some(NewInvokeSpecial)
    requires GetRefKind(idx).Some?
    ensures ValidateAsWritten(idx, memberName, tag, majorVersion).Success? <==>
            TargetFits(GetRefKind(idx).value, tag, majorVersion)
  {
  }

  /**
   * A `newInvokeSpecial` handle to a method called `run` passes the validation as
   * written, although section 4.4.8 requires the name `<init>` for kind 8.
   */
  lemma AsWrittenAcceptsNewInvokeSpecialOfMethod()
    ensures ValidateAsWritten(Index(8, 1), "run", MethodRef, JAVA_8_VERSION).Success?
    ensures Validate(Index(8, 1), "run", MethodRef, JAVA_8_VERSION).Failure?
  {
    assert "run" != INIT && "run" != CLINIT;
  }
}

=== FILE: rawfile.dfy ===
/**
 * The raw file layer the chunk writer drives: a descriptor is the file's bytes, its
 * current offset and whether it is still open. Writes overwrite at the offset and
 * extend the file; writing past the end leaves a gap of zero bytes. Every operation
 * on a descriptor that is not open fails, which is how the model raises the
 * writer's `IOException`.
 */
module RawFile {
  import opened Bytes
  import opened Wrappers

  /** The on-disk bytes and the descriptor's current offset. */
  datatype File = File(bytes: seq<byte>, pos: nat)

  /** A raw file descriptor. */
  datatype Fd = Fd(file: File, isOpen: bool)

  /** Why a file operation failed. */
  datatype IoError = NotOpen

  function Max(a: nat, b: nat): nat {
    if a < b then b else a
  }

  /** The bytes after writing `data` at offset `at`. */
  function Overwrite(bytes: seq<byte>, at: nat, data: seq<byte>): (r: seq<byte>)
    ensures |r| == Max(|bytes|, at + |data|)
  {
    var padded := if at <= |bytes| then bytes else bytes + Zeros(at - |bytes|);
    padded[..at] + data + (if at + |data| <= |padded| then padded[at + |data|..] else [])
  }

  /**
   * A write puts its data at the offset; every other byte keeps its old value, and a
   * gap between the old end and the offset reads as zeros.
   */
  lemma OverwriteContents(bytes: seq<byte>, at: nat, data: seq<byte>)
    ensures var r := Overwrite(bytes, at, data);
      && r[at..at + |data|] == data
      && forall i :: 0 <= i < |r| && !(at <= i < at + |data|) ==>
           r[i] == (if i < |bytes| then bytes[i] else 0)
  {
    var padded := if at <= |bytes| then bytes else bytes + Zeros(at - |bytes|);
    var r := Overwrite(bytes, at, data);
    assert forall i :: 0 <= i < at ==> r[i] == padded[i];
    assert forall i :: at + |data| <= i < |r| ==> r[i] == padded[i];
  }

  /** `open(filename, READ_WRITE)`: a file taken to be new or truncated, so empty, or a descriptor that is not valid when the OS refuses. */
  function Open(succeeded: bool): (fd: Fd)
    ensures fd.isOpen == succeeded && fd.file == File([], 0)
  {
    Fd(File([], 0), succeeded)
  }

  /** `write(fd, data)`: writes at the offset and advances it. */
  function Write(fd: Fd, data: seq<byte>): (r: Result<Fd, IoError>)
    ensures r.Success? <==> fd.isOpen
    ensures r.Success? ==> r.value.isOpen && r.value.file.pos == fd.file.pos + |data|
    ensures r.Success? ==> r.value.file.bytes == Overwrite(fd.file.bytes, fd.file.pos, data)
  {
    if !fd.isOpen then Failure(NotOpen)
    else Success(Fd(File(Overwrite(fd.file.bytes, fd.file.pos, data), fd.file.pos + |data|), true))
  }

  function WriteShort(fd: Fd, v: bv16): Result<Fd, IoError> {
    Write(fd, Short(v))
  }

  function WriteInt(fd: Fd, v: bv32): Result<Fd, IoError> {
    Write(fd, Int(v))
  }

  function WriteLong(fd: Fd, v: bv64): Result<Fd, IoError> {
    Write(fd, Long(v))
  }

  /** Consecutive `writeLong` calls, one per value, in order. */
  function WriteLongs(fd: Fd, values: seq<bv64>): (r: Result<Fd, IoError>)
    decreases |values|
  {
    if |values| == 0 then Success(fd)
    else
      var fd0 :- WriteLong(fd, values[0]);
      WriteLongs(fd0, values[1..])
  }

  /** `seek(fd, position)`: moves the offset without touching the bytes. */
  function Seek(fd: Fd, position: nat): (r: Result<Fd, IoError>)
    ensures r.Success? <==> fd.isOpen
    ensures r.Success? ==> r.value == Fd(File(fd.file.bytes, position), true)
  {
    if !fd.isOpen then Failure(NotOpen) else Success(Fd(File(fd.file.bytes, position), true))
  }

  /** `position(fd)`: the current offset. */
  function Position(fd: Fd): (r: Result<nat, IoError>)
    ensures r.Success? <==> fd.isOpen
    ensures r.Success? ==> r.value == fd.file.pos
  {
    if !fd.isOpen then Failure(NotOpen) else Success(fd.file.pos)
  }

  /** `size(fd)`: the file length, or -1 for a descriptor that is not open. */
  function Size(fd: Fd): (r: int)
    ensures fd.isOpen ==> r == |fd.file.bytes|
    ensures !fd.isOpen ==> r == -1
  {
    if !fd.isOpen then -1 else |fd.file.bytes|
  }

  /** `close(fd)`: closing a descriptor twice fails. */
  function Close(fd: Fd): (r: Result<Fd, IoError>)
    ensures r.Success? <==> fd.isOpen
    ensures r.Success? ==> r.value == Fd(fd.file, false)
  {
    if !fd.isOpen then Failure(NotOpen) else Success(Fd(fd.file, false))
  }

  /** An open descriptor positioned at the end of its file: the state in which writes append. */
  predicate AtEnd(fd: Fd) {
    fd.isOpen && fd.file.pos == |fd.file.bytes|
  }

  /** A descriptor after `data` has been appended at the end of its file. */
  function Grown(fd: Fd, data: seq<byte>): (r: Fd)
    ensures AtEnd(r)
  {
    Fd(File(fd.file.bytes + data, |fd.file.bytes| + |data|), true)
  }

  lemma GrownTwice(fd: Fd, a: seq<byte>, b: seq<byte>)
    ensures Grown(Grown(fd, a), b) == Grown(fd, a + b)
  {
    assert fd.file.bytes + a + b == fd.file.bytes + (a + b);
  }

  /** At the end of the file, a write appends its data. */
  lemma AppendAtEnd(fd: Fd, data: seq<byte>)
    requires AtEnd(fd)
    ensures Write(fd, data) == Success(Grown(fd, data))
  {
    var r := Overwrite(fd.file.bytes, fd.file.pos, data);
    assert r == fd.file.bytes + data;
  }

  /** Inside the file, a write replaces exactly the bytes it covers. */
  lemma InPlace(bytes: seq<byte>, at: nat, data: seq<byte>)
    requires at + |data| <= |bytes|
    ensures Overwrite(bytes, at, data) == bytes[..at] + data + bytes[at + |data|..]
  {
  }

  /** Two writes side by side inside the file are one write of both. */
  lemma OverwriteTwice(bytes: seq<byte>, at: nat, a: seq<byte>, b: seq<byte>)
    requires at + |a| + |b| <= |bytes|
    ensures Overwrite(Overwrite(bytes, at, a), at + |a|, b) == Overwrite(bytes, at, a + b)
  {
    var once := Overwrite(bytes, at, a);
    InPlace(bytes, at, a);
    InPlace(once, at + |a|, b);
    InPlace(bytes, at, a + b);
    assert once[..at + |a|] == bytes[..at] + a;
    assert once[at + |a| + |b|..] == bytes[at + |a| + |b|..];
  }

  /** Long fields written at the end of the file are appended. */
  lemma {:induction false} WriteLongsAtEnd(fd: Fd, values: seq<bv64>)
    requires AtEnd(fd)
    ensures WriteLongs(fd, values) == Success(Grown(fd, Longs(values)))
    decreases |values|
  {
    if |values| == 0 {
      assert fd.file.bytes + [] == fd.file.bytes;
    } else {
      AppendAtEnd(fd, Long(values[0]));
      WriteLongsAtEnd(Grown(fd, Long(values[0])), values[1..]);
      GrownTwice(fd, Long(values[0]), Longs(values[1..]));
    }
  }

  /** Long fields written inside the file replace the bytes they cover. */
  lemma {:induction false} WriteLongsInside(bytes: seq<byte>, pos: nat, values: seq<bv64>)
    requires pos + |Longs(values)| <= |bytes|
    ensures WriteLongs(Fd(File(bytes, pos), true), values) ==
            Success(Fd(File(Overwrite(bytes, pos, Longs(values)), pos + |Longs(values)|), true))
    decreases |values|
  {
    if |values| == 0 {
      InPlace(bytes, pos, []);
      assert bytes[..pos] + [] + bytes[pos..] == bytes;
    } else {
      var first := Long(values[0]);
      var once := Overwrite(bytes, pos, first);
      assert WriteLong(Fd(File(bytes, pos), true), values[0]) == Success(Fd(File(once, pos + 8), true));
      WriteLongsInside(once, pos + 8, values[1..]);
      OverwriteTwice(bytes, pos, first, Longs(values[1..]));
    }
  }
}

=== FILE: text.dfy ===
/**
 * The `java.lang.String` operations the log configuration parser and the string
 * writer rely on: case-insensitive comparison, blankness, `indexOf`, `split` on a
 * single-character separator, and UTF-8 encoding.
 */
module Text {
  import opened Bytes

  /** Upper-casing of one character; letters outside ASCII are left as they are. */
  function UpperChar(c: char): char {
    if 'a' <= c <= 'z' then (c as int - 32) as char else c
  }

  /** A lower-case ASCII letter. */
  predicate IsLower(c: char) {
    'a' <= c <= 'z'
  }

  /**
   * `String.toUpperCase`, character by character: each lower-case letter moves to its
   * capital, 32 code points down, every other character stays, and no lower-case
   * letter is left.
   */
  function ToUpper(s: string): (r: string)
    ensures |r| == |s|
    ensures forall i :: 0 <= i < |s| && !IsLower(s[i]) ==> r[i] == s[i]
    ensures forall i :: 0 <= i < |s| && IsLower(s[i]) ==> r[i] as int == s[i] as int - 32
    ensures forall i :: 0 <= i < |s| ==> !IsLower(r[i])
  {
    seq(|s|, i requires 0 <= i < |s| => UpperChar(s[i]))
  }

  /** Upper-casing twice is upper-casing once. */
  lemma ToUpperIdempotent(s: string)
    ensures ToUpper(ToUpper(s)) == ToUpper(s)
  {
    var u := ToUpper(s);
    assert forall i :: 0 <= i < |u| ==> ToUpper(u)[i] == u[i];
  }

  /** `Character.isWhitespace`: the ASCII controls and the Unicode separators that are not no-break spaces. */
  predicate IsWhitespace(c: char) {
    var n := c as int;
    || n == 0x20 || (0x09 <= n <= 0x0D) || (0x1C <= n <= 0x1F)
    || n == 0x1680 || (0x2000 <= n <= 0x2006) || (0x2008 <= n <= 0x200A)
    || n == 0x2028 || n == 0x2029 || n == 0x205F || n == 0x3000
  }

  /** `String.isBlank`: empty or whitespace only. */
  predicate IsBlank(s: string) {
    forall i :: 0 <= i < |s| ==> IsWhitespace(s[i])
  }

  /** `String.endsWith` for a one-character suffix. */
  predicate EndsWith(s: string, c: char) {
    |s| > 0 && s[|s| - 1] == c
  }

  /** `String.indexOf(c)`: the first position of `c`, or -1 when it does not occur. */
  function IndexOf(s: string, c: char): (r: int)
    ensures r == -1 <==> c !in s
    ensures r != -1 ==> 0 <= r < |s| && s[r] == c && c !in s[..r]
  {
    if |s| == 0 then -1
    else if s[0] == c then 0
    else
      var i := IndexOf(s[1..], c);
      assert s[1..][..(if i == -1 then 0 else i)] == s[1..(if i == -1 then 1 else i + 1)];
      if i == -1 then -1 else i + 1
  }

  /** Every piece between separators, empty ones included: at least one piece. */
  function SplitAll(s: string, sep: char): (r: seq<string>)
    ensures |r| >= 1
    decreases |s|
  {
    var i := IndexOf(s, sep);
    if i == -1 then [s] else [s[..i]] + SplitAll(s[i + 1..], sep)
  }

  /** The pieces glued back together with the separator. */
  function Join(pieces: seq<string>, sep: char): string
    requires |pieces| >= 1
  {
    if |pieces| == 1 then pieces[0] else pieces[0] + [sep] + Join(pieces[1..], sep)
  }

  /** Splitting loses nothing: the pieces joined with the separator are the string. */
  lemma {:induction false} SplitAllJoin(s: string, sep: char)
    ensures Join(SplitAll(s, sep), sep) == s
    decreases |s|
  {
    var i := IndexOf(s, sep);
    if i == -1 {
      assert SplitAll(s, sep) == [s];
    } else {
      SplitAllJoin(s[i + 1..], sep);
      SplitAllJoinStep(s, sep, i);
    }
  }

  /** If the rest after the first separator joins back, so does the whole string. */
  lemma SplitAllJoinStep(s: string, sep: char, i: int)
    requires i == IndexOf(s, sep) && i != -1
    requires Join(SplitAll(s[i + 1..], sep), sep) == s[i + 1..]
    ensures Join(SplitAll(s, sep), sep) == s
  {
    var tail := SplitAll(s[i + 1..], sep);
    assert SplitAll(s, sep) == [s[..i]] + tail;
    JoinCons(s[..i], tail, sep);
    Reassemble(s, i);
  }

  /** A string is the part before position `i`, the character there, and the part after. */
  lemma Reassemble(s: string, i: int)
    requires 0 <= i < |s|
    ensures s[..i] + [s[i]] + s[i + 1..] == s
  {
  }

  /** Joining a first piece onto more pieces puts the separator between them. */
  lemma JoinCons(head: string, tail: seq<string>, sep: char)
    requires |tail| >= 1
    ensures Join([head] + tail, sep) == head + [sep] + Join(tail, sep)
  {
    assert ([head] + tail)[1..] == tail;
  }

  /** No piece of a split holds the separator. */
  lemma {:induction false} SplitAllPieces(s: string, sep: char)
    ensures forall k :: 0 <= k < |SplitAll(s, sep)| ==> sep !in SplitAll(s, sep)[k]
    decreases |s|
  {
    var i := IndexOf(s, sep);
    if i != -1 {
      var tail := SplitAll(s[i + 1..], sep);
      SplitAllPieces(s[i + 1..], sep);
      assert forall k :: 1 <= k < |SplitAll(s, sep)| ==> SplitAll(s, sep)[k] == tail[k - 1];
    }
  }

  /** The pieces without their trailing run of empty strings. */
  function DropTrailingEmpty(pieces: seq<string>): (r: seq<string>)
    ensures |r| <= |pieces| && r == pieces[..|r|]
    ensures |r| > 0 ==> r[|r| - 1] != []
    ensures forall k :: |r| <= k < |pieces| ==> pieces[k] == []
  {
    if |pieces| == 0 then []
    else if pieces[|pieces| - 1] == [] then DropTrailingEmpty(pieces[..|pieces| - 1])
    else pieces
  }

  /**
   * `String.split` with a one-character pattern: the whole string when the separator
   * does not occur; otherwise the pieces with trailing empty strings removed.
   */
  function JavaSplit(s: string, sep: char): seq<string> {
    if sep !in s then [s] else DropTrailingEmpty(SplitAll(s, sep))
  }

  /** The UTF-8 bytes of one Unicode scalar value. */
  function Utf8Char(c: char): (r: seq<byte>)
    ensures 1 <= |r| <= 4
    ensures c as int < 0x80 <==> |r| == 1
    ensures c as int < 0x80 ==> r == [c as int as byte]
  {
    var cp := c as int;
    if cp < 0x80 then [cp as byte]
    else if cp < 0x800 then [(0xC0 + cp / 0x40) as byte, (0x80 + cp % 0x40) as byte]
    else if cp < 0x1_0000 then
      [(0xE0 + cp / 0x1000) as byte, (0x80 + (cp / 0x40) % 0x40) as byte, (0x80 + cp % 0x40) as byte]
    else
      [(0xF0 + cp / 0x4_0000) as byte, (0x80 + (cp / 0x1000) % 0x40) as byte,
       (0x80 + (cp / 0x40) % 0x40) as byte, (0x80 + cp % 0x40) as byte]
  }

  /** `String.getBytes(StandardCharsets.UTF_8)`. */
  function Utf8(s: string): (r: seq<byte>)
    ensures |s| <= |r| <= 4 * |s|
    ensures |r| == 0 <==> |s| == 0
  {
    if |s| == 0 then [] else Utf8Char(s[0]) + Utf8(s[1..])
  }
}

=== FILE: threadlocalmemory.dfy ===
/**
 * The global list of thread-local buffers: a singly linked list whose head is the
 * most recently acquired buffer. Buffers are added at the head, removed wherever they
 * are, and written out to the chunk writer in list order.
 *
 * The linked list is a sequence, head first; a buffer is identified by its address,
 * a positive handle, and 0 stands for the null buffer. The mutex, the allocator and
 * the buffer memory itself are not modelled: `acquireBuffer` receives the freshly
 * allocated buffer as a parameter.
 */
module ThreadLocalMemory {
  import opened Bytes
  import opened Wrappers
  import opened RawFile
  import ChunkWriter

  /** The address of the null buffer. */
  const NULL: int := 0

  /**
   * A buffer in the list: its address, whether some thread currently holds it
   * (`JfrBufferAccess.acquire` fails on a held buffer), and its unflushed bytes.
   */
  datatype Buffer = Buffer(handle: int, acquired: bool, unflushed: seq<byte>)

  /** Why `removeBuffer` cannot finish. */
  datatype RemoveError =
    | NullHead  // the list is empty, and the walk dereferences the null head
    | Lost      // the buffer is not in the list: `shouldNotReachHere`

  /** The addresses in the list, in order. */
  function Handles(list: seq<Buffer>): (r: seq<int>)
    ensures |r| == |list|
    ensures forall i :: 0 <= i < |list| ==> r[i] == list[i].handle
  {
    if |list| == 0 then [] else [list[0].handle] + Handles(list[1..])
  }

  /** A well-formed list: no null node, no node twice. */
  predicate ValidList(list: seq<Buffer>) {
    && (forall i :: 0 <= i < |list| ==> list[i].handle != NULL)
    && (forall i, j :: 0 <= i < j < |list| ==> list[i].handle != list[j].handle)
  }

  /** `acquireBuffer`: the new buffer becomes the head and links to the old head. */
  function AcquireBuffer(list: seq<Buffer>, node: Buffer): (r: seq<Buffer>)
    ensures |r| == |list| + 1 && r[0] == node && r[1..] == list
  {
    [node] + list
  }

  /** The position of the first node with address `handle`, or -1. */
  function Find(list: seq<Buffer>, handle: int): (r: int)
    ensures -1 <= r < |list|
    ensures r >= 0 ==> list[r].handle == handle && forall k :: 0 <= k < r ==> list[k].handle != handle
    ensures r == -1 ==> forall k :: 0 <= k < |list| ==> list[k].handle != handle
  {
    if |list| == 0 then -1
    else if list[0].handle == handle then 0
    else
      var k := Find(list[1..], handle);
      if k == -1 then -1 else k + 1
  }

  /**
   * `removeBuffer(buffer)`: a null buffer is ignored; otherwise the first node with
   * the buffer's address is unlinked. An empty list fails on the null head, and a
   * buffer not in the list is lost.
   */
  function RemoveBuffer(list: seq<Buffer>, handle: int): (r: Result<seq<Buffer>, RemoveError>)
    ensures handle == NULL ==> r == Success(list)
    ensures handle != NULL && |list| == 0 ==> r == Failure(NullHead)
    ensures handle != NULL && |list| > 0 ==> (r == Failure(Lost) <==> handle !in Handles(list))
    ensures r.Success? && handle != NULL ==> |r.value| == |list| - 1
  {
    if handle == NULL then Success(list)
    else if |list| == 0 then Failure(NullHead)
    else
      var i := Find(list, handle);
      if i == -1 then Failure(Lost) else Success(list[..i] + list[i + 1..])
  }

  /**
   * The walk `removeBuffer` performs: compare with the head, then follow `next` with a
   * trailing `prev` until the buffer or the end of the list is reached.
   */
  method RemoveBufferWalk(list: seq<Buffer>, handle: int) returns (r: Result<seq<Buffer>, RemoveError>)
    ensures r == RemoveBuffer(list, handle)
  {
    if handle == NULL {
      return Success(list);
    }
    if |list| == 0 {
      return Failure(NullHead);
    }
    if list[0].handle == handle {
      FindFirst(list, handle, 0);
      assert list[..0] + list[1..] == list[1..];
      return Success(list[1..]);
    }
    var node := 1;
    while node < |list|
      invariant 1 <= node <= |list|
      invariant forall k :: 0 <= k < node ==> list[k].handle != handle
    {
      if list[node].handle == handle {
        FindFirst(list, handle, node);
        return Success(list[..node] + list[node + 1..]);
      }
      node := node + 1;
    }
    FindNone(list, handle);
    return Failure(Lost);
  }

  /** The first node carrying an address is the one `Find` reports. */
  lemma {:induction false} FindFirst(list: seq<Buffer>, handle: int, i: nat)
    requires i < |list| && list[i].handle == handle
    requires forall k :: 0 <= k < i ==> list[k].handle != handle
    ensures Find(list, handle) == i
  {
    if i > 0 {
      FindFirst(list[1..], handle, i - 1);
    }
  }

  lemma {:induction false} FindNone(list: seq<Buffer>, handle: int)
    requires forall k :: 0 <= k < |list| ==> list[k].handle != handle
    ensures Find(list, handle) == -1
  {
    if |list| > 0 {
      FindNone(list[1..], handle);
    }
  }

  /**
   * Acquiring keeps a list well formed exactly when the new buffer is not null and not
   * already in the list.
   */
  lemma AcquireValid(list: seq<Buffer>, node: Buffer)
    ensures ValidList(AcquireBuffer(list, node))
        <==> ValidList(list) && node.handle != NULL && node.handle !in Handles(list)
  {
  }

  /** Removing a buffer just acquired gives back the list it was acquired onto. */
  lemma RemoveAcquired(list: seq<Buffer>, node: Buffer)
    requires node.handle != NULL
    ensures RemoveBuffer(AcquireBuffer(list, node), node.handle) == Success(list)
  {
    var l := AcquireBuffer(list, node);
    FindFirst(l, node.handle, 0);
    assert l[..0] + l[1..] == list;
  }

  /**
   * In a well-formed list, removing a listed buffer keeps every other node, in order,
   * drops that one, and leaves a well-formed list.
   */
  lemma RemoveListed(list: seq<Buffer>, i: nat)
    requires ValidList(list) && i < |list|
    ensures RemoveBuffer(list, list[i].handle) == Success(list[..i] + list[i + 1..])
    ensures ValidList(list[..i] + list[i + 1..])
    ensures list[i].handle !in Handles(list[..i] + list[i + 1..])
  {
    var r := list[..i] + list[i + 1..];
    assert RemoveBuffer(list, list[i].handle) == Success(r) by {
      FindFirst(list, list[i].handle, i);
    }
    RemovedNodes(list, i);
    assert ValidList(r);
    assert list[i].handle !in Handles(r) by {
      var h := Handles(r);
      assert forall k :: 0 <= k < |h| ==> h[k] != list[i].handle;
    }
  }

  /** The nodes left after dropping the one at `i`: those before it, then those after it. */
  lemma RemovedNodes(list: seq<Buffer>, i: nat)
    requires i < |list|
    ensures |list[..i] + list[i + 1..]| == |list| - 1
    ensures forall k :: 0 <= k < |list| - 1 ==>
      (list[..i] + list[i + 1..])[k] == if k < i then list[k] else list[k + 1]
  {
  }

  // ---------------------------------------------------------------------------
  // Writing the buffers

  /** The number of nodes `writeBuffers` gets through: up to the first one already held. */
  function WritablePrefix(list: seq<Buffer>): (n: nat)
    ensures n <= |list|
    ensures forall k :: 0 <= k < n ==> !list[k].acquired
    ensures n < |list| ==> list[n].acquired
  {
    if |list| == 0 || list[0].acquired then 0 else 1 + WritablePrefix(list[1..])
  }

  /** The writer after `write(buffer)` for each buffer in turn, results ignored. */
  function WriteAll(w: ChunkWriter.Writer, buffers: seq<Buffer>): ChunkWriter.Writer
  {
    if |buffers| == 0 then w
    else ChunkWriter.Write(WriteAll(w, buffers[..|buffers| - 1]), buffers[|buffers| - 1].unflushed).0
  }

  /**
   * `writeBuffers(writer)`: walks the list from the head; a node someone else holds
   * ends the walk, every other node is acquired, written and released. The list comes
   * back unchanged, since every acquire is matched by a release; `written` is the
   * number of nodes written.
   */
  method WriteBuffers(w: ChunkWriter.Writer, list: seq<Buffer>)
    returns (w': ChunkWriter.Writer, list': seq<Buffer>, written: nat)
    ensures list' == list
    ensures written == WritablePrefix(list)
    ensures w' == WriteAll(w, list[..written])
  {
    w' := w;
    list' := list;
    var node := 0;
    while node < |list'|
      invariant list' == list
      invariant 0 <= node <= |list|
      invariant forall k :: 0 <= k < node ==> !list[k].acquired
      invariant w' == WriteAll(w, list[..node])
    {
      if list'[node].acquired {
        PrefixStops(list, node);
        return w', list', node;
      }
      // acquire: the node is held while it is written
      list' := list'[node := list'[node].(acquired := true)];
      // the writer's answer, whether the chunk should rotate, is ignored
      var answer := ChunkWriter.Write(w', list'[node].unflushed);
      w' := answer.0;
      // release
      list' := list'[node := list'[node].(acquired := false)];
      assert list' == list;
      assert list[..node + 1][..node] == list[..node];
      node := node + 1;
    }
    PrefixStops(list, node);
    written := node;
  }

  /** A walk that got through `n` free nodes and then stopped at a held node or the end wrote the writable prefix. */
  lemma {:induction false} PrefixStops(list: seq<Buffer>, n: nat)
    requires n <= |list|
    requires forall k :: 0 <= k < n ==> !list[k].acquired
    requires n < |list| ==> list[n].acquired
    ensures WritablePrefix(list) == n
  {
    if n > 0 {
      PrefixStops(list[1..], n - 1);
    }
  }

  /** The unflushed bytes of the buffers, one after the other. */
  function Unflushed(buffers: seq<Buffer>): seq<byte>
  {
    if |buffers| == 0 then [] else Unflushed(buffers[..|buffers| - 1]) + buffers[|buffers| - 1].unflushed
  }

  /**
   * On a file positioned at its end, writing buffers appends their unflushed bytes in
   * list order and changes nothing else of the writer.
   */
  lemma {:induction false} WriteAllAppends(w: ChunkWriter.Writer, buffers: seq<Buffer>)
    requires AtEnd(w.fd)
    ensures WriteAll(w, buffers) == w.(fd := Grown(w.fd, Unflushed(buffers)))
  {
    if |buffers| == 0 {
      assert w.fd.file.bytes + [] == w.fd.file.bytes;
    } else {
      var front := buffers[..|buffers| - 1];
      var u := buffers[|buffers| - 1].unflushed;
      WriteAllAppends(w, front);
      var w1 := w.(fd := Grown(w.fd, Unflushed(front)));
      if |u| > 0 {
        AppendAtEnd(w1.fd, u);
      } else {
        assert Unflushed(front) + u == Unflushed(front);
      }
      GrownTwice(w.fd, Unflushed(front), u);
    }
  }

  /** On a writer whose file is not open, writing buffers changes nothing. */
  lemma {:induction false} WriteAllClosed(w: ChunkWriter.Writer, buffers: seq<Buffer>)
    requires !w.fd.isOpen
    ensures WriteAll(w, buffers) == w
  {
    if |buffers| > 0 {
      WriteAllClosed(w, buffers[..|buffers| - 1]);
    }
  }
}

=== FILE: traceid.dfy ===
/**
 * Trace ids: every class has one 64-bit word in the trace-id map. The trace id
 * proper sits at bit 16 and above; the low byte holds the epoch, transient and
 * serialized tag bits, the second byte their "meta" copies, and bits 4 and 5 of the
 * low byte mark event classes.
 *
 * The map itself and the epoch object are not part of this model: the map is a
 * `map<int, bv64>` from class index to word, and the epoch is the `Epoch` value
 * below, whose two bit constants are parameters. Each operation on the map reads
 * or writes one word through a word function; the bit-level facts are stated and
 * proved about the word functions.
 */
module TraceId {

  const BIT: bv64 := 1
  const META_SHIFT: bv64 := 8
  /** `BIT << 3`. */
  const TRANSIENT_META_BIT: bv64 := 0x8
  /** `TRANSIENT_META_BIT << META_SHIFT`. */
  const TRANSIENT_BIT: bv64 := 0x800
  /** `BIT << 4`. */
  const SERIALIZED_META_BIT: bv64 := 0x10
  /** `SERIALIZED_META_BIT << META_SHIFT`. */
  const SERIALIZED_BIT: bv64 := 0x1000

  const TRACE_ID_SHIFT: bv64 := 16

  const JDK_JFR_EVENT_SUBCLASS: bv64 := 16
  const JDK_JFR_EVENT_CLASS: bv64 := 32
  const EVENT_HOST_KLASS: bv64 := 64

  /** `TRANSIENT_META_BIT` and `TRANSIENT_BIT` are the shifts `BIT << 3` and `<< META_SHIFT`. */
  lemma BitConstants()
    ensures TRANSIENT_META_BIT == BIT << 3 && TRANSIENT_BIT == TRANSIENT_META_BIT << META_SHIFT
    ensures SERIALIZED_META_BIT == BIT << 4 && SERIALIZED_BIT == SERIALIZED_META_BIT << META_SHIFT
  {
  }

  /** The word the map holds for a slot that has not been assigned: the Java long -1. */
  const UNASSIGNED: bv64 := 0xFFFF_FFFF_FFFF_FFFF

  /** The trace-id map: one word per class index. */
  type Ids = map<int, bv64>

  /**
   * The epoch: the tag bits of epoch 0 and epoch 1 and which epoch is current.
   */
  datatype Epoch = Epoch(bit0: bv64, bit1: bv64, current: bool) {

    /** The tag bit of epoch `e`. */
    function Bit(e: bool): bv64 {
      if e then bit1 else bit0
    }

    /** The tag bit of the current epoch. */
    function ThisEpochBit(): bv64 {
      Bit(current)
    }
  }

  /** A word with exactly one bit set. */
  predicate SingleBit(b: bv64) {
    b != 0 && b & (b - 1) == 0
  }

  /**
   * Epoch bits as the tagging scheme needs them: two different single bits inside
   * the low byte, so that each has a meta copy eight bits up.
   */
  predicate ValidEpoch(epoch: Epoch) {
    && SingleBit(epoch.bit0) && epoch.bit0 < 0x100
    && SingleBit(epoch.bit1) && epoch.bit1 < 0x100
    && epoch.bit0 != epoch.bit1
  }

  // ---------------------------------------------------------------------------
  // One word

  /** The word after `tag`: the low byte of `bits` or-ed in. */
  function TagWord(w: bv64, bits: bv64): bv64 {
    w | (bits & 0xFF)
  }

  /**
   * `n` is `w` tagged with `bits`: the bits above the low byte are `w`'s, and the
   * low byte is `w`'s or-ed with that of `bits`.
   */
  predicate TaggedFrom(n: bv64, w: bv64, bits: bv64) {
    && n & !0xFF == w & !0xFF
    && n & 0xFF == (w | bits) & 0xFF
  }

  /** `n` is `w` with `bit` cleared: that bit is clear and every other bit is `w`'s. */
  predicate ClearedFrom(n: bv64, w: bv64, bit: bv64) {
    && n & bit == 0
    && n & !bit == w & !bit
  }

  /** Tagging leaves every bit above the low byte as it was. */
  lemma TagWordHigh(w: bv64, bits: bv64)
    ensures TagWord(w, bits) & !0xFF == w & !0xFF
  {
  }

  /** The low byte after tagging is the old low byte or-ed with the low byte of `bits`. */
  lemma TagWordLow(w: bv64, bits: bv64)
    ensures TagWord(w, bits) & 0xFF == (w | bits) & 0xFF
  {
  }

  /** The word `TagWord` computes is `w` tagged with `bits`. */
  lemma TagWordTagged(w: bv64, bits: bv64)
    ensures TaggedFrom(TagWord(w, bits), w, bits)
  {
    TagWordHigh(w, bits);
    TagWordLow(w, bits);
  }

  /** Tagging sets the bits of the low byte of `bits` and clears no bit. */
  lemma TagWordBits(w: bv64, bits: bv64)
    ensures TagWord(w, bits) & bits & 0xFF == bits & 0xFF
    ensures TagWord(w, bits) & w == w
  {
  }

  /** The word and the mask share a bit. */
  predicate Shares(w: bv64, bits: bv64) {
    w & bits != 0
  }

  /** The word after clearing `bit`. */
  function ClearWord(w: bv64, bit: bv64): bv64 {
    w & !bit
  }

  /** Clearing makes the bit clear and keeps every other bit as it was. */
  lemma ClearWordBits(w: bv64, bit: bv64)
    ensures ClearWord(w, bit) & bit == 0
    ensures ClearWord(w, bit) & !bit == w & !bit
  {
  }

  /** The word `ClearWord` computes is `w` with `bit` cleared. */
  lemma ClearWordCleared(w: bv64, bit: bv64)
    ensures ClearedFrom(ClearWord(w, bit), w, bit)
  {
    ClearWordBits(w, bit);
  }

  /** The trace id of a word: the bits above the tag bytes. */
  function TraceIdOf(w: bv64): (r: bv64)
    ensures r < 0x1_0000_0000_0000
  {
    w >> TRACE_ID_SHIFT
  }

  /** The word carries the event-class or the event-subclass mark. */
  predicate EventMarked(w: bv64) {
    w & (JDK_JFR_EVENT_CLASS | JDK_JFR_EVENT_SUBCLASS) != 0
  }

  // ---------------------------------------------------------------------------
  // The map operations

  /**
   * `tag(clazz, bits)`: or-s the low byte of `bits` into the class's word; the bits
   * above the low byte and every other class's word stay as they were.
   */
  function Tag(ids: Ids, c: int, bits: bv64): (r: Ids)
    requires c in ids
    ensures r.Keys == ids.Keys
    ensures forall d :: d in ids && d != c ==> r[d] == ids[d]
    ensures TaggedFrom(r[c], ids[c], bits)
  {
    TagWordTagged(ids[c], bits);
    ids[c := TagWord(ids[c], bits)]
  }

  /** `predicate(clazz, bits)`: the word and `bits` share a bit. */
  predicate Predicate(ids: Ids, c: int, bits: bv64)
    requires c in ids
  {
    Shares(ids[c], bits)
  }

  /** `setUsedThisEpoch`: tags the class with the current epoch's bit. */
  function SetUsedThisEpoch(ids: Ids, c: int, epoch: Epoch): (r: Ids)
    requires c in ids
    ensures r.Keys == ids.Keys
    ensures forall d :: d in ids && d != c ==> r[d] == ids[d]
  {
    Tag(ids, c, epoch.ThisEpochBit())
  }

  /** `clearUsedThisEpoch(clazz, e)`: clears the bit of epoch `e` in the class's word. */
  function ClearUsedThisEpoch(ids: Ids, c: int, epoch: Epoch, e: bool): (r: Ids)
    requires c in ids
    ensures r.Keys == ids.Keys
    ensures forall d :: d in ids && d != c ==> r[d] == ids[d]
    ensures ClearedFrom(r[c], ids[c], epoch.Bit(e))
  {
    ClearWordCleared(ids[c], epoch.Bit(e));
    ids[c := ClearWord(ids[c], epoch.Bit(e))]
  }

  /** `isUsedThisEpoch`: the class is transient or tagged in the current epoch. */
  predicate IsUsedThisEpoch(ids: Ids, c: int, epoch: Epoch)
    requires c in ids
  {
    Predicate(ids, c, TRANSIENT_BIT | epoch.ThisEpochBit())
  }

  /** `getTraceIdRaw`: the whole word. */
  function GetTraceIdRaw(ids: Ids, c: int): bv64
    requires c in ids
  {
    ids[c]
  }

  /** `getTraceId`: the word shifted right, without sign extension, past the tag bits. */
  function GetTraceId(ids: Ids, c: int): (r: bv64)
    requires c in ids
    ensures r < 0x1_0000_0000_0000
  {
    TraceIdOf(GetTraceIdRaw(ids, c))
  }

  /** `isEventClass(index)`: the word carries the event-class or event-subclass mark. */
  predicate IsEventClass(ids: Ids, index: int)
    requires index in ids
  {
    EventMarked(ids[index])
  }

  /** Who loaded a class: the boot loader (`getClassLoader()` is null), the system loader, or another one. */
  datatype Loader = Boot | System | Other

  /**
   * What `assign` asks of a class: whether it is `void`, whether it is one of the
   * two event base classes, whether one of them is assignable from it, its loader,
   * and the host's type id for it.
   */
  datatype ClassInfo = ClassInfo(
    isVoid: bool,
    isEventBase: bool,
    isEventSubtype: bool,
    loader: Loader,
    hostTypeId: bv64)

  /** `getTypeId`: `void` is type 0, every other class keeps the host's id. */
  function GetTypeId(cls: ClassInfo): (r: bv64)
    ensures cls.isVoid ==> r == 0
    ensures !cls.isVoid ==> r == cls.hostTypeId
  {
    if cls.isVoid then 0 else cls.hostTypeId
  }

  /**
   * The word `assign` stores for type id `typeId`: the id moved past the tag bytes,
   * then the event mark and the event-subclass mark when asked for.
   */
  function AssignedWord(typeId: bv64, event: bool, subclass: bool): bv64 {
    var w0 := typeId << TRACE_ID_SHIFT;
    var w1 := if event then w0 | JDK_JFR_EVENT_CLASS else w0;
    if subclass then w1 | JDK_JFR_EVENT_SUBCLASS else w1
  }

  /** The first condition of `assign`, with Java's precedence: `(a || b) && c || d`. */
  predicate EventTagAsWritten(cls: ClassInfo) {
    (cls.isEventBase && cls.loader == Boot) || cls.loader == System
  }

  /** The second condition of `assign`, with Java's precedence. */
  predicate SubTagAsWritten(cls: ClassInfo) {
    (cls.isEventSubtype && cls.loader == Boot) || cls.loader == System
  }

  /**
   * `assign(clazz, index)` with Java's grouping of its conditions: an assigned
   * slot is left alone; otherwise the slot gets the type id shifted past the tag
   * bits, and then the event marks.
   */
  function AssignAsWritten(ids: Ids, cls: ClassInfo, index: int): (r: Ids)
    requires index in ids
    ensures r.Keys == ids.Keys
    ensures forall d :: d in ids && d != index ==> r[d] == ids[d]
    ensures ids[index] != UNASSIGNED ==> r == ids
  {
    if ids[index] != UNASSIGNED then ids
    else ids[index := AssignedWord(GetTypeId(cls), EventTagAsWritten(cls), SubTagAsWritten(cls))]
  }

  /** Loaded by the boot or the system loader: the loaders whose event classes are JDK event classes. */
  predicate JdkLoader(cls: ClassInfo) {
    cls.loader == Boot || cls.loader == System
  }

  /**
   * `assign` with the loader test grouped as intended: an event base class, or an
   * event class, counts only when the boot or the system loader loaded it.
   */
  function Assign(ids: Ids, cls: ClassInfo, index: int): (r: Ids)
    requires index in ids
    ensures r.Keys == ids.Keys
    ensures forall d :: d in ids && d != index ==> r[d] == ids[d]
    ensures ids[index] != UNASSIGNED ==> r == ids
  {
    if ids[index] != UNASSIGNED then ids
    else
      ids[index := AssignedWord(GetTypeId(cls), cls.isEventBase && JdkLoader(cls),
                                cls.isEventSubtype && JdkLoader(cls))]
  }

  // ---------------------------------------------------------------------------
  // Properties of the map operations

  /**
   * Tagging changes nothing above the low byte: not the meta bits, not the transient or
   * serialized bits, not the trace id.
   */
  lemma TagKeepsUpperBits(ids: Ids, c: int, bits: bv64)
    requires c in ids
    ensures Tag(ids, c, bits)[c] & !0xFF == ids[c] & !0xFF
    ensures Tag(ids, c, bits)[c] & TRANSIENT_BIT == ids[c] & TRANSIENT_BIT
    ensures Tag(ids, c, bits)[c] & SERIALIZED_BIT == ids[c] & SERIALIZED_BIT
    ensures GetTraceId(Tag(ids, c, bits), c) == GetTraceId(ids, c)
  {
    TagWordHigh(ids[c], bits);
    TagWordUpper(ids[c], bits);
  }

  /** Tagging sets the requested bits of the low byte and clears none of the class's bits. */
  lemma TagSetsBits(ids: Ids, c: int, bits: bv64)
    requires c in ids
    ensures Tag(ids, c, bits)[c] & bits & 0xFF == bits & 0xFF
    ensures Tag(ids, c, bits)[c] & ids[c] == ids[c]
  {
    TagWordBits(ids[c], bits);
  }

  /** Tagging twice with the same bits is tagging once. */
  lemma TagIdempotent(ids: Ids, c: int, bits: bv64)
    requires c in ids
    ensures Tag(Tag(ids, c, bits), c, bits) == Tag(ids, c, bits)
  {
    TagWordTwice(ids[c], bits);
  }

  /** `predicate` on a union of masks holds when it holds on one of them. */
  lemma PredicateUnion(ids: Ids, c: int, a: bv64, b: bv64)
    requires c in ids
    ensures Predicate(ids, c, a | b) <==> Predicate(ids, c, a) || Predicate(ids, c, b)
  {
    SharesUnion(ids[c], a, b);
  }

  /** `predicate` on a single bit holds exactly when that bit is set. */
  lemma PredicateSingleBit(ids: Ids, c: int, b: bv64)
    requires c in ids && SingleBit(b)
    ensures Predicate(ids, c, b) <==> ids[c] & b == b
  {
    SharesSingleBit(ids[c], b);
  }

  /** Clearing an epoch bit leaves the trace id and the transient bit as they were. */
  lemma ClearKeepsTraceId(ids: Ids, c: int, epoch: Epoch, e: bool)
    requires c in ids && ValidEpoch(epoch)
    ensures GetTraceId(ClearUsedThisEpoch(ids, c, epoch, e), c) == GetTraceId(ids, c)
    ensures ClearUsedThisEpoch(ids, c, epoch, e)[c] & TRANSIENT_BIT == ids[c] & TRANSIENT_BIT
  {
    var r := ClearUsedThisEpoch(ids, c, epoch, e);
    assert r[c] == ClearWord(ids[c], epoch.Bit(e));
    ClearWordUpper(ids[c], epoch.Bit(e));
  }

  /** `isUsedThisEpoch` holds exactly when the transient bit or the current epoch's bit is set. */
  lemma UsedThisEpochBits(ids: Ids, c: int, epoch: Epoch)
    requires c in ids
    ensures IsUsedThisEpoch(ids, c, epoch) <==>
            Shares(ids[c], TRANSIENT_BIT) || Shares(ids[c], epoch.ThisEpochBit())
  {
    SharesUnion(ids[c], TRANSIENT_BIT, epoch.ThisEpochBit());
  }

  /** Tagging a class with the current epoch makes it used in this epoch and keeps its trace id. */
  lemma SetMakesUsed(ids: Ids, c: int, epoch: Epoch)
    requires c in ids && ValidEpoch(epoch)
    ensures IsUsedThisEpoch(SetUsedThisEpoch(ids, c, epoch), c, epoch)
    ensures GetTraceId(SetUsedThisEpoch(ids, c, epoch), c) == GetTraceId(ids, c)
  {
    TagWordSetsBit(ids[c], epoch.ThisEpochBit());
    TagWordUpper(ids[c], epoch.ThisEpochBit());
  }

  /** `isEventClass` holds exactly when bit 5 or bit 4 of the word is set. */
  lemma EventClassBits(ids: Ids, index: int)
    requires index in ids
    ensures IsEventClass(ids, index) <==>
            Shares(ids[index], JDK_JFR_EVENT_CLASS) || Shares(ids[index], JDK_JFR_EVENT_SUBCLASS)
  {
    SharesUnion(ids[index], JDK_JFR_EVENT_CLASS, JDK_JFR_EVENT_SUBCLASS);
  }

  /**
   * `assign` on an unassigned slot stores the type id past the tag bits: the trace id
   * read back is the type id's low 48 bits, so `void` reads back as 0, and no epoch,
   * transient or serialized bit is set.
   */
  lemma AssignTraceId(ids: Ids, cls: ClassInfo, index: int)
    requires index in ids && ids[index] == UNASSIGNED
    ensures GetTraceId(Assign(ids, cls, index), index) == GetTypeId(cls) & 0xFFFF_FFFF_FFFF
    ensures cls.isVoid ==> GetTraceId(Assign(ids, cls, index), index) == 0
    ensures Assign(ids, cls, index)[index] & 0xFFCF == 0
  {
    AssignedWordBits(GetTypeId(cls), cls.isEventBase && JdkLoader(cls), cls.isEventSubtype && JdkLoader(cls));
  }

  /** The grouping of the event conditions does not touch the trace id `assign` stores. */
  lemma AssignAsWrittenTraceId(ids: Ids, cls: ClassInfo, index: int)
    requires index in ids && ids[index] == UNASSIGNED
    ensures GetTraceId(AssignAsWritten(ids, cls, index), index) == GetTypeId(cls) & 0xFFFF_FFFF_FFFF
  {
    AssignedWordBits(GetTypeId(cls), EventTagAsWritten(cls), SubTagAsWritten(cls));
  }

  /**
   * With the intended grouping, a newly assigned slot is an event class exactly when
   * the class is an event class loaded by the boot or the system loader.
   */
  lemma AssignEventClass(ids: Ids, cls: ClassInfo, index: int)
    requires index in ids && ids[index] == UNASSIGNED
    requires cls.isEventBase ==> cls.isEventSubtype
    ensures IsEventClass(Assign(ids, cls, index), index) <==> cls.isEventSubtype && JdkLoader(cls)
  {
    AssignedWordBits(GetTypeId(cls), cls.isEventBase && JdkLoader(cls), cls.isEventSubtype && JdkLoader(cls));
  }

  /**
   * As written, the `||` binds last, so a class of the system loader that has nothing
   * to do with events is marked as an event class and as an event subclass.
   */
  lemma AssignAsWrittenMarksSystemClasses(ids: Ids, cls: ClassInfo, index: int)
    requires index in ids && ids[index] == UNASSIGNED
    requires cls.loader == System && !cls.isEventBase && !cls.isEventSubtype
    ensures IsEventClass(AssignAsWritten(ids, cls, index), index)
    ensures !IsEventClass(Assign(ids, cls, index), index)
  {
    AssignedWordBits(GetTypeId(cls), true, true);
    AssignedWordBits(GetTypeId(cls), false, false);
  }

  // ---------------------------------------------------------------------------
  // Properties of one word

  /** Tagging sets bits of the low byte only. */
  lemma TagWordUpper(w: bv64, bits: bv64)
    ensures TagWord(w, bits) & TRANSIENT_BIT == w & TRANSIENT_BIT
    ensures TagWord(w, bits) & SERIALIZED_BIT == w & SERIALIZED_BIT
    ensures TraceIdOf(TagWord(w, bits)) == TraceIdOf(w)
  {
  }

  lemma TagWordTwice(w: bv64, bits: bv64)
    ensures TagWord(TagWord(w, bits), bits) == TagWord(w, bits)
  {
  }

  /** A tag bit of the low byte is set after tagging with it. */
  lemma TagWordSetsBit(w: bv64, b: bv64)
    requires SingleBit(b) && b < 0x100
    ensures Shares(TagWord(w, b), TRANSIENT_BIT | b)
  {
  }

  lemma SharesUnion(w: bv64, a: bv64, b: bv64)
    ensures Shares(w, a | b) <==> Shares(w, a) || Shares(w, b)
  {
    AndDistributes(w, a, b);
    OrNonZero(w & a, w & b);
  }

  lemma AndDistributes(w: bv64, a: bv64, b: bv64)
    ensures w & (a | b) == (w & a) | (w & b)
  {
  }

  lemma OrNonZero(x: bv64, y: bv64)
    ensures x | y != 0 <==> x != 0 || y != 0
  {
  }

  lemma SharesSingleBit(w: bv64, b: bv64)
    requires SingleBit(b)
    ensures Shares(w, b) <==> w & b == b
  {
  }

  /** Clearing a bit of the low byte leaves the upper bytes alone. */
  lemma ClearWordUpper(w: bv64, b: bv64)
    requires b < 0x100
    ensures TraceIdOf(ClearWord(w, b)) == TraceIdOf(w)
    ensures ClearWord(w, b) & TRANSIENT_BIT == w & TRANSIENT_BIT
  {
  }

  /**
   * An assigned word holds the type id's low 48 bits above the tag bytes, nothing in
   * the tag bytes but the marks asked for, and the event marks exactly when asked for.
   */
  lemma AssignedWordBits(t: bv64, event: bool, subclass: bool)
    ensures TraceIdOf(AssignedWord(t, event, subclass)) == t & 0xFFFF_FFFF_FFFF
    ensures AssignedWord(t, event, subclass) & 0xFFCF == 0
    ensures EventMarked(AssignedWord(t, event, subclass)) <==> event || subclass
  {
  }
}

=== FILE: varint.dfy ===
/**
 * The chunk writer's compressed integers (`writeCompressedLong`, `writeCompressedInt`,
 * `writeBoolean`).
 *
 * A value is cut into 7-bit groups, least significant first. Every byte but the
 * last carries a group with the continuation bit 0x80 set; the last carries its
 * group with the bit clear. After eight 7-bit groups (bits 0-55) the encoder stops
 * testing and writes bits 56-63 as a ninth, raw byte, so an encoding is 1 to 9
 * bytes long.
 */
module Varint {
  import opened Bytes
  import opened Wrappers

  /** Number of 7-bit groups before the raw last byte. */
  const GROUPS: nat := 8

  /** The bits that may still be set after `k` groups have been shifted out of a 64-bit value. */
  function Remaining(k: nat): bv64
    requires k <= GROUPS
  {
    match k
    case 0 => 0xFFFF_FFFF_FFFF_FFFF
    case 1 => 0x01FF_FFFF_FFFF_FFFF
    case 2 => 0x0003_FFFF_FFFF_FFFF
    case 3 => 0x0000_07FF_FFFF_FFFF
    case 4 => 0x0000_000F_FFFF_FFFF
    case 5 => 0x0000_0000_1FFF_FFFF
    case 6 => 0x0000_0000_003F_FFFF
    case 7 => 0x0000_0000_0000_7FFF
    case _ => 0x0000_0000_0000_00FF
  }

  /** `v` is what is left of a 64-bit value after `k` logical shifts by 7. */
  predicate Fits(v: bv64, k: nat)
    requires k <= GROUPS
  {
    v & !Remaining(k) == 0
  }

  /** True when the value has no bit above bit 6: Java's `(v & ~0x7FL) == 0L`. */
  predicate OneGroup(v: bv64) {
    v & !0x7F == 0
  }

  /** What is left of the value once its low group is written: Java's `v >>>= 7`. */
  function Next(v: bv64): bv64 {
    v >> 7
  }

  /** A group written with the continuation bit: Java's `(byte) (v | 0x80L)`. */
  function ContByte(v: bv64): byte {
    Low8(v | 0x80)
  }

  /** Encoding of `v`, the value left after `k` groups have been written. */
  function EncodeFrom(v: bv64, k: nat): (r: seq<byte>)
    requires k <= GROUPS
    decreases GROUPS - k
  {
    if k == GROUPS then [Low8(v)]
    else if OneGroup(v) then [Low8(v)]
    else [ContByte(v)] + EncodeFrom(Next(v), k + 1)
  }

  /** `writeCompressedLong(value)`: the bytes appended for a 64-bit value. */
  function Encode(v: bv64): seq<byte> {
    EncodeFrom(v, 0)
  }

  /** A byte as an unsigned 64-bit word. */
  function Widen(b: byte): (r: bv64)
    ensures r & !0xFF == 0
  {
    b as bv64
  }

  /** A group read with its continuation bit, joined with the value read after it. */
  function Combine(b: byte, rest: bv64): bv64 {
    Widen(b & 0x7F) | (rest << 7)
  }

  /** The mirror reader: a value and the number of bytes it took, or None when the input ends early. */
  function DecodeFrom(s: seq<byte>, k: nat): Option<(bv64, nat)>
    requires k <= GROUPS
    decreases GROUPS - k
  {
    if |s| == 0 then None
    else if k == GROUPS || s[0] & 0x80 == 0 then Some((Widen(s[0]), 1))
    else match DecodeFrom(s[1..], k + 1)
      case None => None
      case Some((rest, n)) => Some((Combine(s[0], rest), n + 1))
  }

  /** Reads one compressed long from the front of `s`. */
  function Decode(s: seq<byte>): Option<(bv64, nat)> {
    DecodeFrom(s, 0)
  }

  lemma ShiftFits(v: bv64, k: nat)
    requires k < GROUPS && Fits(v, k)
    ensures Fits(Next(v), k + 1)
  {
  }

  lemma SplitGroup(v: bv64)
    ensures Combine(ContByte(v), Next(v)) == v
    ensures ContByte(v) & 0x80 != 0
  {
  }

  lemma LastGroup(v: bv64, k: nat)
    requires k <= GROUPS && Fits(v, k)
    requires k == GROUPS || OneGroup(v)
    ensures Widen(Low8(v)) == v
  {
  }

  /** Shape of every suffix of an encoding: continuation bits, length and the raw last byte. */
  lemma {:induction false} EncodeFromShape(v: bv64, k: nat)
    requires k <= GROUPS
    ensures 1 <= |EncodeFrom(v, k)| <= GROUPS + 1 - k
    ensures forall i :: 0 <= i < |EncodeFrom(v, k)| - 1 ==> EncodeFrom(v, k)[i] & 0x80 != 0
    ensures k + |EncodeFrom(v, k)| <= GROUPS ==> EncodeFrom(v, k)[|EncodeFrom(v, k)| - 1] & 0x80 == 0
    ensures |EncodeFrom(v, k)| == 1 <==> k == GROUPS || OneGroup(v)
    decreases GROUPS - k
  {
    if k == GROUPS || OneGroup(v) {
    } else {
      EncodeFromShape(Next(v), k + 1);
      SplitGroup(v);
      var r := EncodeFrom(v, k);
      var tail := EncodeFrom(Next(v), k + 1);
      assert r == [ContByte(v)] + tail;
      forall i | 0 <= i < |r| - 1
        ensures r[i] & 0x80 != 0
      {
        if i > 0 {
          assert r[i] == tail[i - 1];
        }
      }
    }
  }

  /** Reading a byte with the continuation bit set before the last group. */
  lemma DecodeCons(b: byte, t: seq<byte>, k: nat)
    requires k < GROUPS && b & 0x80 != 0
    ensures DecodeFrom([b] + t, k) ==
      match DecodeFrom(t, k + 1)
      case None => None
      case Some((rest, n)) => Some((Combine(b, rest), n + 1))
  {
    assert ([b] + t)[1..] == t;
  }

  /** A last group is read back as the value it holds. */
  lemma DecodeLast(v: bv64, k: nat, rest: seq<byte>)
    requires k <= GROUPS && Fits(v, k)
    requires k == GROUPS || OneGroup(v)
    ensures DecodeFrom([Low8(v)] + rest, k) == Some((v, 1))
  {
    LastGroup(v, k);
  }

  /** One continuation group: if the rest decodes, the whole decodes. */
  lemma DecodeStep(b: byte, tail: seq<byte>, rest: seq<byte>, k: nat, x: bv64)
    requires k < GROUPS && b & 0x80 != 0
    requires DecodeFrom(tail + rest, k + 1) == Some((x, |tail|))
    ensures DecodeFrom([b] + tail + rest, k) == Some((Combine(b, x), |tail| + 1))
  {
    assert [b] + tail + rest == [b] + (tail + rest);
    DecodeCons(b, tail + rest, k);
  }

  /** The bytes encoding `v`, followed by anything, decode to `v` and stop at their end. */
  predicate RoundTrip(v: bv64, k: nat, rest: seq<byte>)
    requires k <= GROUPS
  {
    DecodeFrom(EncodeFrom(v, k) + rest, k) == Some((v, |EncodeFrom(v, k)|))
  }

  /** A continuation group of the encoder decodes once the groups after it do. */
  lemma DecodeContinued(v: bv64, k: nat, rest: seq<byte>)
    requires k < GROUPS && !OneGroup(v)
    requires RoundTrip(Next(v), k + 1, rest)
    ensures RoundTrip(v, k, rest)
  {
    var tail := EncodeFrom(Next(v), k + 1);
    assert EncodeFrom(v, k) == [ContByte(v)] + tail;
    SplitGroup(v);
    DecodeStep(ContByte(v), tail, rest, k, Next(v));
  }

  /** The encoder's bytes decode to the value, and reading stops exactly at their end. */
  lemma {:induction false} DecodeEncodeFrom(v: bv64, k: nat, rest: seq<byte>)
    requires k <= GROUPS && Fits(v, k)
    ensures DecodeFrom(EncodeFrom(v, k) + rest, k) == Some((v, |EncodeFrom(v, k)|))
    decreases GROUPS - k, 1
  {
    if k == GROUPS || OneGroup(v) {
      assert DecodeFrom(EncodeFrom(v, k) + rest, k) == Some((v, |EncodeFrom(v, k)|)) by {
        assert EncodeFrom(v, k) == [Low8(v)];
        DecodeLast(v, k, rest);
      }
    } else {
      DecodeEncodeContinued(v, k, rest);
    }
  }

  /** The round trip for a value that takes a continuation group, from the round trip of the rest. */
  lemma {:induction false} DecodeEncodeContinued(v: bv64, k: nat, rest: seq<byte>)
    requires k < GROUPS && Fits(v, k) && !OneGroup(v)
    ensures RoundTrip(v, k, rest)
    decreases GROUPS - k, 0
  {
    assert Fits(Next(v), k + 1) by { ShiftFits(v, k); }
    assert RoundTrip(Next(v), k + 1, rest) by { DecodeEncodeFrom(Next(v), k + 1, rest); }
    DecodeContinued(v, k, rest);
  }

  /**
   * Round trip over all 64-bit values: the encoding is 1 to 9 bytes, all but the
   * last carry the continuation bit, a ninth byte is bits 56-63 verbatim, and the
   * mirror decoder recovers the value from the front of any byte stream.
   */
  lemma EncodeProperties(v: bv64, rest: seq<byte>)
    ensures 1 <= |Encode(v)| <= 9
    ensures forall i :: 0 <= i < |Encode(v)| - 1 ==> Encode(v)[i] & 0x80 != 0
    ensures |Encode(v)| < 9 ==> Encode(v)[|Encode(v)| - 1] & 0x80 == 0
    ensures |Encode(v)| == 9 ==> Encode(v)[8] == Low8(v >> 56)
    ensures Decode(Encode(v) + rest) == Some((v, |Encode(v)|))
  {
    EncodeFromShape(v, 0);
    DecodeEncodeFrom(v, 0, rest);
    if |Encode(v)| == 9 {
      NinthByte(v);
    }
  }

  /** A nine-byte encoding ends in the raw top byte. */
  lemma NinthByte(v: bv64)
    requires |Encode(v)| == 9
    ensures Encode(v)[8] == Low8(v >> 56)
  {
    var v1 := Next(v);
    var v2 := Next(v1);
    var v3 := Next(v2);
    var v4 := Next(v3);
    var v5 := Next(v4);
    var v6 := Next(v5);
    var v7 := Next(v6);
    var v8 := Next(v7);
    EncodeFromShape(v1, 1);
    EncodeFromShape(v2, 2);
    EncodeFromShape(v3, 3);
    EncodeFromShape(v4, 4);
    EncodeFromShape(v5, 5);
    EncodeFromShape(v6, 6);
    EncodeFromShape(v7, 7);
    assert !OneGroup(v) && !OneGroup(v1) && !OneGroup(v2) && !OneGroup(v3);
    assert !OneGroup(v4) && !OneGroup(v5) && !OneGroup(v6) && !OneGroup(v7);
    assert Encode(v)[8] == EncodeFrom(v8, 8)[0];
    EightShifts(v);
  }

  /** Eight 7-bit shifts drop bits 0-55. */
  lemma EightShifts(v: bv64)
    ensures Next(Next(Next(Next(Next(Next(Next(Next(v)))))))) == v >> 56
  {
  }

  /** A value with no bit above bit 6 is one byte equal to the value. */
  lemma SmallValue(v: bv64)
    ensures OneGroup(v) <==> |Encode(v)| == 1
    ensures OneGroup(v) ==> Encode(v) == [Low8(v)] && Widen(Low8(v)) == v
  {
    EncodeFromShape(v, 0);
    if OneGroup(v) {
      LastGroup(v, 0);
    }
  }

  /** The 32-bit pattern of a Java int, Java's `value & 0xFFFFFFFFL`, as a long. */
  function UnsignedInt(value: bv32): (r: bv64)
    ensures r & !0xFFFF_FFFF == 0
    ensures value & 0x8000_0000 != 0 <==> r & 0x8000_0000 != 0
    ensures value & !0x7F == 0 <==> OneGroup(r)
  {
    value as bv64
  }

  /** The low 32 bits of the widened int are the int's own bits. */
  lemma UnsignedIntLow(value: bv32)
    ensures UnsignedInt(value) & 0xFFFF_FFFF == value as bv64
  {
  }

  /** The bit pattern of a Java int value computed in unbounded arithmetic. */
  function IntBits(i: int): bv32 {
    (i % TWO_TO_32) as bv32
  }

  /** The bytes `writeCompressedInt(value)` appends. */
  function EncodeInt(value: bv32): seq<byte> {
    Encode(UnsignedInt(value))
  }

  /** The bytes `writeBoolean(value)` appends: the compressed int 1 or 0. */
  function EncodeBoolean(value: bool): (r: seq<byte>)
    ensures r == (if value then [1] else [0])
  {
    SmallValue(UnsignedInt(if value then 1 else 0));
    EncodeInt(if value then 1 else 0)
  }

  /** A negative Java int has bit 31 set, needs five 7-bit groups and is written as five bytes. */
  lemma NegativeIntIsFiveBytes(value: bv32)
    requires value & 0x8000_0000 != 0
    ensures |EncodeInt(value)| == 5
    ensures Decode(EncodeInt(value)) == Some((UnsignedInt(value), 5))
  {
    var v := UnsignedInt(value);
    var v1 := Next(v);
    var v2 := Next(v1);
    var v3 := Next(v2);
    var v4 := Next(v3);
    assert !OneGroup(v) && !OneGroup(v1) && !OneGroup(v2) && !OneGroup(v3) && OneGroup(v4);
    assert EncodeFrom(v4, 4) == [Low8(v4)];
    assert |EncodeFrom(v3, 3)| == 2;
    assert |EncodeFrom(v2, 2)| == 3;
    assert |EncodeFrom(v1, 1)| == 4;
    assert |Encode(v)| == 5;
    DecodeEncodeFrom(v, 0, []);
    assert Encode(v) + [] == Encode(v);
  }
}

=== FILE: wrappers.dfy ===
/** Failure-carrying datatypes shared by every component of the model. */
module Wrappers {

  /** A value that may be absent; stands for a nullable Java reference or an `Optional`. */
  datatype Option<+T> = None | Some(value: T) {

    predicate IsFailure() {
      None?
    }

    function PropagateFailure<U>(): Option<U>
      requires None?
    {
      None
    }

    function Extract(): T
      requires Some?
    {
      value
    }
  }

  /** The outcome of an operation that may throw: a value or the error it raised. */
  datatype Result<+R, +E> = Success(value: R) | Failure(error: E) {

    predicate IsFailure() {
      Failure?
    }

    function PropagateFailure<U>(): Result<U, E>
      requires Failure?
    {
      Failure(error)
    }

    function Extract(): R
      requires Success?
    {
      value
    }
  }
}
